=== FILE: README.md ===
# Portfolio site core, modelled in Dafny

This project models the logic of a personal portfolio site written in
TypeScript and React. It covers the following:

- The `Video` component classifies a media source as a YouTube link or
  a plain file. It formats times as `m:ss` and builds the YouTube embed.
- The custom video player runs as a state machine. It has two layers: the
  HTML media element and the component's React state.
- The `seo` and `head` builders turn page options into an ordered list of
  meta tags.
- The MDX components share a text extractor over React nodes. They use it
  for the code-block header, the sticky copy button, the code tabs and
  inline code.
- The content collections check document frontmatter and derive a slug
  from the title.
- Smaller rules cover social-link filtering, the split of the skills list
  over two marquee rows, the notification-badge demo and the design-viewer
  frame.

Every operation is a pure function over immutable datatypes. Browser
behaviour becomes an explicit input:

- clipboard outcomes;
- timers firing;
- media-element events;
- `document.fullscreenElement`;
- URL resolution;
- date coercion.

Times in the player are whole seconds. Volumes are whole percent: the
slider moves in steps of 1, the keyboard in steps of 10.

Modules: `Wrappers` (Option/Result), `Text` (JavaScript whitespace, trim,
decimal digits, join, ASCII lower-casing), `YouTubeUrl`, `TimeFormat`,
`YouTubeEmbed`, `VideoPlayer`, `PlayerView`, `Video`, `Seo`, `Head`,
`ReactNode`, `CopyButton`, `CodeBlock`, `CodeTabs`, `InlineCode`,
`Content`, `Socials`, `Home`, `Notification`, `DesignViewer`.

## Model

| member | source | states |
|---|---|---|
| YouTubeUrl.ParseYouTubeUrl | src/components/video.tsx:85-110 | the empty source is never YouTube; a YouTube result carries a non-empty id containing no whitespace |
| YouTubeUrl.ParseIsYouTubeIff | src/components/video.tsx:89-109 | a URL is YouTube exactly when one of the five patterns matches somewhere in it; otherwise it is not YouTube |
| YouTubeUrl.FirstShapeWins | src/components/video.tsx:102-107 | the first pattern in list order that matches decides, and the id is the capture of its leftmost match |
| YouTubeUrl.TryShapesIff | src/components/video.tsx:102-109 | trying patterns in order finds YouTube exactly when some pattern of the list matches |
| YouTubeUrl.TryShapesFirst | src/components/video.tsx:102-107 | the loop returns the capture of the first matching pattern, ignoring later ones |
| YouTubeUrl.TryShapes | src/components/video.tsx:102-109 | a YouTube result carries a non-empty id without whitespace |
| YouTubeUrl.FirstMatch | src/components/video.tsx:103 | `String.match` finds the leftmost position where the pattern matches, or reports that none does |
| YouTubeUrl.MatchAtIff | src/components/video.tsx:91-99 | the substring search agrees exactly with the five regular expressions' match condition |
| YouTubeUrl.MatchesAt | src/components/video.tsx:91-99 | a pattern can only match at a position inside the string |
| YouTubeUrl.MatchAt | src/components/video.tsx:91-99 | a match at p has the pattern's leading literal (`youtube.com/watch?` or the path prefix) at p |
| YouTubeUrl.LastLaterV | src/components/video.tsx:91 | the greedy `.+` of the second watch alternative settles on the last `&v=` followed by an id character |
| YouTubeUrl.LaterVFrom | src/components/video.tsx:91 | where `watch?.+&v=` matches, its `&v=` is the last possible one on the line, and there is none when it fails |
| YouTubeUrl.IdRun | src/components/video.tsx:91-99 | the greedy capture takes id characters and stops at the first `&` (watch) or `?` (paths), or at whitespace |
| YouTubeUrl.CaptureAt | src/components/video.tsx:91-99 | the capture of a match is non-empty and holds only allowed id characters |
| YouTubeUrl.MatchShape | src/components/video.tsx:103-104 | a pattern yields an id exactly when it matches somewhere |
| YouTubeUrl.EmptyNeverMatches | src/components/video.tsx:86 | the empty-string guard agrees with the patterns: none matches in "" |
| YouTubeUrl.ShortLinkParse | src/components/video.tsx:93 | `youtu.be/ID`, with ID free of `?` and whitespace (so `youtu.be/watch` too), yields ID after any prefix without `y`; a prefix with `y` may hold an earlier YouTube link, which would win |
| YouTubeUrl.WatchParse | src/components/video.tsx:91 | `youtube.com/watch?v=` yields the run of non-`&`, non-space characters after it, provided no watch match starts earlier in the URL (the leftmost match wins) |
| YouTubeUrl.NoWatchBetween | src/components/video.tsx:91 | no watch pattern matches when the text before `lo` has no `y` and nothing from `lo` on is a `?` |
| YouTubeUrl.ShortLinkExample | src/components/video.tsx:93 | `https://youtu.be/abc123` is video `abc123` |
| YouTubeUrl.WatchExample | src/components/video.tsx:91 | a watch id stops at the first `&` |
| YouTubeUrl.WatchIdExample | src/components/video.tsx:91 | the watch capture of `dQw4&t=42` is `dQw4` |
| YouTubeUrl.MediaFileExample | src/components/video.tsx:109 | a plain media path is not YouTube |
| TimeFormat.FormatTime | src/components/video.tsx:116-122 | negative or non-finite input gives "0:00"; otherwise digits without a leading zero, a colon, and two digits |
| TimeFormat.Minutes | src/components/video.tsx:119 | whole minutes m with 60m <= t < 60m+60 |
| TimeFormat.SecondsPart | src/components/video.tsx:120 | seconds are below 60 and minutes*60 + seconds == floor(t) |
| TimeFormat.PadTwo | src/components/video.tsx:121 | a one-digit string gets one leading zero; longer strings are kept |
| TimeFormat.Clock | src/components/video.tsx:121 | the label is the minutes' digits (no leading zero), a colon, and exactly two digits |
| TimeFormat.ClockRoundTrip | src/components/video.tsx:121 | reading a label back gives the minutes and seconds it was made from |
| TimeFormat.FormatTimeReadsBack | src/components/video.tsx:116-122 | a valid time's label reads back as floor(t/60) and floor(t mod 60) |
| TimeFormat.WholeReadsBack | src/components/video.tsx:116-122 | a whole number of seconds t reads back as t div 60 minutes and t mod 60 seconds |
| TimeFormat.InvalidReadsZero | src/components/video.tsx:117 | invalid inputs read back as 0 minutes, 0 seconds |
| YouTubeEmbed.Init | src/components/video.tsx:147-148 | the iframe shows at once exactly when autoplay was asked; nothing is loaded yet |
| YouTubeEmbed.Step | src/components/video.tsx:161-163 | a click shows the iframe; a load marks it loaded; both are monotone; "loaded" implies "shown" |
| YouTubeEmbed.RunKeepsPlayer | src/components/video.tsx:147-181 | across any events the state stays valid, a shown iframe stays shown, and any click shows it |
| YouTubeEmbed.Run | src/components/video.tsx:147-181 | events never change the props, and a loaded iframe stays loaded |
| YouTubeEmbed.ParamValueFirst | src/components/video.tsx:152-159 | a query parameter is found exactly when present, with the value of its first occurrence |
| YouTubeEmbed.EmbedParamsGet | src/components/video.tsx:152-159 | autoplay "1"; mute and loop "1" iff set; playlist = id iff loop else ""; rel "0"; modestbranding "1"; nothing else such as start |
| YouTubeEmbed.ParamValueAt | src/components/video.tsx:152-159 | a key first found at position i reads as that pair's value |
| YouTubeEmbed.EmbedParams | src/components/video.tsx:152-159 | six parameters with pairwise distinct keys, `autoplay=1` first |
| YouTubeEmbed.QueryString | src/components/video.tsx:176 | no parameters give ""; otherwise the string starts with the first `key=value` |
| YouTubeEmbed.EmbedSrc | src/components/video.tsx:176 | the iframe address starts with the no-cookie embed prefix, the id and `?autoplay=1` |
| YouTubeEmbed.ThumbnailUrl | src/components/video.tsx:150 | the thumbnail address is prefix, id and suffix, with lengths adding up |
| YouTubeEmbed.ThumbnailRoundTrip | src/components/video.tsx:150 | the thumbnail address determines the video id |
| YouTubeEmbed.Render | src/components/video.tsx:174-212 | iframe xor thumbnail; spinner exactly while shown and not loaded; the iframe asks for autoplay |
| Video.Mount | src/components/video.tsx:896-925 | an embed is mounted exactly when the source parses as YouTube, with its id and flags; otherwise a valid custom player |
| Video.EmptySourceIsPlayer | src/components/video.tsx:900 | an empty source always gets the custom player |
| Video.ShortLinkAutoplays | src/components/video.tsx:902-913 | a short link mounts an embed of its id that shows the iframe iff autoplay and mutes iff muted |
| Video.MediaFileMountsPlayer | src/components/video.tsx:916-924 | a media file mounts the player, started only with autoplay |
| Video.EmbedPropsFor | src/components/video.tsx:904-912 | the embed gets the parsed id and the autoPlay, muted, loop and fill props unchanged |
| Video.PlayerPropsFor | src/components/video.tsx:917-923 | the player gets autoPlay, loop, muted, controls, playbackRate and fill unchanged |
| VideoPlayer.Init | src/components/video.tsx:253-265 | paused, controls shown, started iff autoplay, muted flag and 0/100 volume from the muted prop, rate from the prop |
| VideoPlayer.SeekElement | src/components/video.tsx:282-286 | setting the position clamps it into [0, duration]; nothing else changes |
| VideoPlayer.PlayElement | src/components/video.tsx:273 | play unpauses, and restarts from 0 when paused at the end |
| VideoPlayer.PauseElement | src/components/video.tsx:274 | pause only sets paused |
| VideoPlayer.ToggleElement | src/components/video.tsx:275-281 | toggle flips paused and keeps the position in range |
| VideoPlayer.Advance | src/components/video.tsx:657-663 | a second of playback moves on by one, loops, or stops at the end; a paused element does not move |
| VideoPlayer.LoadMetadata | src/components/video.tsx:414-421 | a new duration clamps the position into it |
| VideoPlayer.TogglePlay | src/components/video.tsx:313-322 | hasStarted becomes true and stays; the element plays iff it was paused; nothing else changes |
| VideoPlayer.ToggleMute | src/components/video.tsx:325-336 | both mute flags flip; muting draws volume 0 and leaves the element's volume; unmuting sets both to 100 |
| VideoPlayer.SetVolume | src/components/video.tsx:339-347 | the slider value becomes both volumes, and both mute flags are set iff it is 0 |
| VideoPlayer.StepVolume | src/components/video.tsx:502-521 | the element's volume moves by 10, clamped to [0,100], and is drawn as it is; mute flags unchanged |
| VideoPlayer.ToggleFullscreen | src/components/video.tsx:373-383 | sets isFullscreen to the negation of `document.fullscreenElement` being present; nothing else changes |
| VideoPlayer.SetSpeed | src/components/video.tsx:386-392 | sets the element rate and drawn speed, and always closes the speed menu |
| VideoPlayer.ShowControlsAndArm | src/components/video.tsx:299-310 | shows the controls; arms the hide timer exactly while playing outside fill mode |
| VideoPlayer.KeyCommandOf | src/components/video.tsx:478-530 | " " and "k" toggle play, arrows seek and change volume, "m" mutes, "f" toggles fullscreen; every other key does nothing |
| VideoPlayer.RunKey | src/components/video.tsx:478-530 | a key command keeps the player valid and never un-starts it |
| VideoPlayer.HandleKey | src/components/video.tsx:475-530 | a key's default is prevented iff the player has focus and the key is handled; otherwise nothing changes |
| VideoPlayer.OnMediaEvent | src/components/video.tsx:399-441 | media events never touch hasStarted |
| VideoPlayer.Receive | src/components/video.tsx:443-451 | a media event changes only the playback state |
| VideoPlayer.Environment | src/components/video.tsx:538-546 | fullscreen changes, the hide timer, autoplay, playback and metadata leave the React playback and sound state alone |
| VideoPlayer.RefCall | src/components/video.tsx:272-296 | the imperative handle acts on the element only, apart from the drawn speed |
| VideoPlayer.Step | src/components/video.tsx:299-546 | every action keeps the player valid and never un-starts it |
| VideoPlayer.DeliverAll | src/components/video.tsx:443-451 | delivering element events changes only the playback state and keeps hasStarted |
| VideoPlayer.RunStaysValid | src/components/video.tsx:253-546 | any run keeps the volume, position and mute couplings; hasStarted never resets; any play click sets it |
| VideoPlayer.Run | src/components/video.tsx:253-546 | no action changes the props |
| VideoPlayer.TogglePlayTwice | src/components/video.tsx:313-322 | away from the end, two toggles restore the element |
| VideoPlayer.MuteThenUnmute | src/components/video.tsx:325-336 | mute then unmute gives full volume, unmuted, in both layers |
| VideoPlayer.SliderZeroThenUnmute | src/components/video.tsx:325-347 | slider at 0 mutes; the mute button then restores volume 100 |
| VideoPlayer.KeySeek | src/components/video.tsx:484-501 | ArrowLeft sets the time to max(0, t-5), ArrowRight to min(duration, t+5); nothing else changes |
| VideoPlayer.KeySeekNearEnd | src/components/video.tsx:493-501 | two seconds from the end, ArrowRight lands exactly on the end |
| VideoPlayer.KeyVolume | src/components/video.tsx:502-521 | ArrowUp/Down move volume by 10 within [0,100], drawn as set, mute flags untouched |
| VideoPlayer.CapitalKeysIgnored | src/components/video.tsx:478-530 | the key switch is case-sensitive: "K", "M", "F" do nothing |
| VideoPlayer.DeliverAllAppend | src/components/video.tsx:443-451 | delivering two batches in sequence is delivering their concatenation |
| VideoPlayer.DeliverOne | src/components/video.tsx:443-451 | delivering one event is receiving it |
| VideoPlayer.EmittedResyncs | src/components/video.tsx:399-441 | the element's play/pause/timeupdate events bring the drawn playing flag and position back in line with it |
| VideoPlayer.TogglePlaySettles | src/components/video.tsx:313-407 | after a toggle and the events it causes, the drawn playing flag is flipped and in sync |
| VideoPlayer.FillNeverArmsTimer | src/components/video.tsx:305-309 | in fill mode the hide timer is never armed and never hides anything |
| VideoPlayer.PausedControlsStillHide | src/components/video.tsx:299-310 | a timer armed while playing still hides the controls after a pause |
| VideoPlayer.RefPlayKeepsStartButton | src/components/video.tsx:273 | the handle's play starts the element without setting hasStarted |
| PlayerView.ProgressPercent | src/components/video.tsx:548 | 0 while the duration is 0; within [0,100] for positions in range; 100 at the end |
| PlayerView.TimeLabel | src/components/video.tsx:821 | the label is two clocks around " / ", reading back as (t div 60, t mod 60) and (d div 60, d mod 60) |
| PlayerView.Render | src/components/video.tsx:553-886 | start button iff not started; control bar only outside fill, with controls and controls shown; speed menu only inside the bar; spinner iff buffering; muted icon iff muted or volume 0 |
| PlayerView.InitialView | src/components/video.tsx:616-734 | without autoplay only the start button shows; with autoplay and controls outside fill mode the bar shows at once; in fill mode the bar never shows |
| PlayerView.ToggleRemovesStartButton | src/components/video.tsx:706 | after any play click the start button is gone for good |
| Seo.ImageUrl | src/lib/seo.ts:41-45 | an image address exists iff the image is non-empty; an `http…` image is verbatim, any other is resolved against the base URL |
| Seo.SeoMeta | src/lib/seo.ts:47-80 | between 3 and 13 tags: the three title tags always, the description, keywords, image and url groups when given; the title tag comes first |
| Seo.SeoStartsWithTitle | src/lib/seo.ts:47-51 | the first three tags are title, og:title, twitter:title with the given title |
| Seo.SeoOrdered | src/lib/seo.ts:47-80 | groups appear in the order title, description, keywords, image, url |
| Seo.GroupRanks | src/lib/seo.ts:47-79 | each group holds only keys of its own rank |
| Seo.SeoLength | src/lib/seo.ts:47-80 | length = 3 + 3·[description] + 1·[keywords] + 4·[image] + 2·[url] |
| Seo.SeoTitleContents | src/lib/seo.ts:49-51 | the title is found under title, og:title, twitter:title |
| Seo.SeoDescriptionContents | src/lib/seo.ts:53-59 | the three description tags exist iff the description is non-empty, all carrying it |
| Seo.SeoKeywordsContent | src/lib/seo.ts:62 | the keywords tag exists iff keywords are given, holding them joined by ", " |
| Seo.EmptyKeywordsTag | src/lib/seo.ts:62 | an empty keyword list still yields a keywords tag, with empty content |
| Seo.SeoImageContents | src/lib/seo.ts:65-72 | og:image and twitter:image carry the image address iff there is one |
| Seo.SeoImageDetails | src/lib/seo.ts:65-72 | with an image, og:image:type is image/jpg and twitter:image:alt is the title; without one, neither exists |
| Seo.SeoUrlContents | src/lib/seo.ts:74-79 | og:url and twitter:url exist iff the url is non-empty, carrying it |
| Seo.SeoImage | src/lib/seo.ts:41-45 | og:image is the given `http…` image, or the resolved relative one |
| Head.HeadIsCallerThenSeo | src/lib/head.ts:33-72 | meta = caller's meta (or none) followed by exactly what `seo` builds; links, scripts, styles unchanged |
| Head.HeadKeepsCallerMeta | src/lib/head.ts:37 | the caller's tags keep their places at the front |
| Head.HeadWithoutCallerMeta | src/lib/head.ts:37 | missing caller meta counts as an empty list |
| Head.BuildHead | src/lib/head.ts:33-72 | links, scripts and styles pass through; meta is always present, at least three tags longer than the caller's, with the title tag right after the caller's tags |
| ReactNode.ExtractAllAppend | src/components/mdx/code-block.tsx:131-133 | an array's text is its items' texts concatenated in order |
| ReactNode.ExtractSplit | src/components/mdx/code-block.tsx:131-133 | splitting an array into nested arrays keeps its text |
| ReactNode.ElementTexts | src/components/mdx/code-block.tsx:135-138 | an element yields its children's text in the block extractor and "" in the inline one |
| ReactNode.ExtractEdgeCases | src/components/mdx/code-block.tsx:127-129 | the number 0 yields "0"; null, undefined, booleans and [] yield "" |
| ReactNode.ShallowAgrees | src/components/mdx/inline-code.tsx:30-40 | on trees without elements the inline extractor equals the block extractor |
| ReactNode.ShallowAllAgrees | src/components/mdx/inline-code.tsx:35-37 | the same for arrays of such trees |
| ReactNode.ExtractText | src/components/mdx/code-block.tsx:126-141 | a string gives itself and a number its decimal form; null, undefined and booleans give "" |
| ReactNode.ExtractAll | src/components/mdx/code-block.tsx:131-133 | no children give ""; a single child gives its own text |
| ReactNode.ShallowText | src/components/mdx/inline-code.tsx:30-40 | a string gives itself and a number its decimal form; elements, null, undefined and booleans give ""; an element is not entered |
| ReactNode.ShallowAll | src/components/mdx/inline-code.tsx:35-37 | an array made only of elements gives "" |
| ReactNode.ShallowAllAppend | src/components/mdx/inline-code.tsx:35-37 | the inline text of an array is its parts' inline texts concatenated, whatever they hold |
| ReactNode.MixedInline | src/components/mdx/inline-code.tsx:31-39 | in `[text, element, number]` the inline extractor keeps the text and the number's digits and skips the element |
| ReactNode.ShallowNotLonger | src/components/mdx/inline-code.tsx:30-40 | the inline text of a node is never longer than its block text |
| ReactNode.ShallowAllNotLonger | src/components/mdx/inline-code.tsx:35-37 | the same for arrays of children |
| ReactNode.ToArray | src/components/mdx/code-tabs.tsx:119 | `Children.toArray` keeps only strings, numbers and elements |
| ReactNode.ToArrayAll | src/components/mdx/code-tabs.tsx:119 | the same over a list of children |
| ReactNode.ToArrayAllAppend | src/components/mdx/code-tabs.tsx:119 | flattening a concatenation of children is flattening each part, in order |
| ReactNode.ToArrayKeepsText | src/components/mdx/code-tabs.tsx:119-129 | flattening children does not change their extracted text |
| ReactNode.ToArrayAllKeepsText | src/components/mdx/code-tabs.tsx:119-129 | the same over a list of children |
| CopyButton.Init | src/components/mdx/code-block.tsx:21 | the button starts not copied, with no timer |
| CopyButton.Step | src/components/mdx/code-block.tsx:23-31 | a failed write changes nothing; a successful one sets copied and schedules a reset; a reset clears copied |
| CopyButton.Label | src/components/mdx/code-block.tsx:43-45 | the label reads "Copied!" iff copied, else "Copy code" |
| CopyButton.RunValid | src/components/mdx/code-block.tsx:23-31 | "Copied!" shows only while a reset is pending |
| CopyButton.Run | src/components/mdx/code-block.tsx:23-31 | each event schedules at most one reset timer |
| CopyButton.TimersRestoreLabel | src/components/mdx/code-block.tsx:27 | once every pending timer fires, the label is "Copy code" again |
| CopyButton.FirstTimerCutsSecondCopyShort | src/components/mdx/code-tabs.tsx:53-54 | a second copy does not extend the first one's timer |
| CodeBlock.CopyText | src/components/mdx/code-block.tsx:157 | the copy text is a slice of the extracted text with only white space cut from its two ends, and no white space left at either end; it is empty iff the text is all white space |
| CodeBlock.DisplayName | src/components/mdx/code-block.tsx:100-109 | the label is the title if non-empty, else the language; drawn iff non-empty |
| CodeBlock.RenderHeader | src/components/mdx/code-block.tsx:94-112 | the header's copy button is drawn unless showCopy is false |
| CodeBlock.Init | src/components/mdx/code-block.tsx:154-155 | the block starts short, with no sticky button |
| CodeBlock.Step | src/components/mdx/code-block.tsx:164-189 | long iff height > 300; while long, a scroll shows the sticky button iff top < -48 and bottom > 100; short blocks ignore scrolls |
| CodeBlock.RenderSticky | src/components/mdx/code-block.tsx:216-229 | the sticky button is in the tree iff long, and visible only then |
| CodeBlock.ShortNeverSticky | src/components/mdx/code-block.tsx:174-189 | a block never measured as long never shows the sticky button |
| CodeBlock.StaleStickyReturns | src/components/mdx/code-block.tsx:174-189 | the sticky flag survives shrinking and reappears when long again |
| CodeTabs.Tabs | src/components/mdx/code-tabs.tsx:119-122 | the filtered list contains only CodeTab elements |
| CodeTabs.TabsMembers | src/components/mdx/code-tabs.tsx:119-122 | a child is a tab iff it is present and a CodeTab element |
| CodeTabs.TabsAppend | src/components/mdx/code-tabs.tsx:119-122 | filtering distributes over concatenation, so tab order is kept |
| CodeTabs.TabsOfTabs | src/components/mdx/code-tabs.tsx:119-122 | a list of tabs comes through whole |
| CodeTabs.TabsIgnoreOthers | src/components/mdx/code-tabs.tsx:119-122 | other children and nested arrays do not disturb the tabs |
| CodeTabs.Init | src/components/mdx/code-tabs.tsx:114-117 | the active tab starts at defaultTab, 0 by default |
| CodeTabs.Click | src/components/mdx/code-tabs.tsx:146 | clicking tab i makes i active |
| CodeTabs.ActiveContent | src/components/mdx/code-tabs.tsx:128 | the active tab's children, or undefined when the index names no tab |
| CodeTabs.ActiveCode | src/components/mdx/code-tabs.tsx:128-129 | the copy text is the active tab's extracted text with only white space cut from its ends and none left at either end; "" for an out-of-range index |
| CodeTabs.Render | src/components/mdx/code-tabs.tsx:124-179 | nothing without tabs; one button and one panel per tab, highlighted or visible iff index == activeTab |
| CodeTabs.CountOnlyAt | src/components/mdx/code-tabs.tsx:166-177 | a flag list true only at index k has one true entry if k is an index, else none |
| CodeTabs.OneVisiblePanel | src/components/mdx/code-tabs.tsx:166-177 | exactly one panel is visible when activeTab names a tab; none otherwise |
| CodeTabs.ClickShowsTab | src/components/mdx/code-tabs.tsx:146-177 | after clicking tab i it is visible and its code is the copy text |
| InlineCode.ColorOf | src/components/mdx/inline-code.tsx:6-12 | a colour name reads as the variant it names |
| InlineCode.ColorNameRoundTrip | src/components/mdx/inline-code.tsx:6-12 | every variant's name reads back as it |
| InlineCode.ColorClass | src/components/mdx/inline-code.tsx:21-28 | the class lookup is total and non-empty |
| InlineCode.ColorClassInjective | src/components/mdx/inline-code.tsx:21-28 | different variants get different classes |
| InlineCode.ColorFor | src/components/mdx/inline-code.tsx:45 | colour defaults to "default" |
| InlineCode.HandleCopy | src/components/mdx/inline-code.tsx:53-63 | nothing at all unless copyable; a successful write copies the shallow text and sets copied |
| InlineCode.Step | src/components/mdx/inline-code.tsx:53-81 | Enter/Space prevent default and copy iff copyable; other keys do nothing; hover shows the tooltip only if copyable; leave hides it |
| InlineCode.NotCopyableInert | src/components/mdx/inline-code.tsx:53-83 | non-copyable inline code never copies and never changes state |
| InlineCode.Render | src/components/mdx/inline-code.tsx:82-110 | role and tabIndex iff copyable; tooltip iff copyable, "Copied!" iff copied else "Click to copy", visible iff hovered or copied |
| InlineCode.EnterCopies | src/components/mdx/inline-code.tsx:65-73 | Enter on copyable code copies its text and shows "Copied!" |
| Content.Slug | content-collections.ts:75 | each character is lower-cased, except a space, which becomes `-`; the length is kept |
| Content.SlugShape | content-collections.ts:75 | slugs have no spaces and no capitals, and tabs and line breaks are kept |
| Content.SlugIdempotent | content-collections.ts:75 | slugging a slug changes nothing |
| Content.SlugCollisions | content-collections.ts:75 | "Hello World" and "hello-world" share a slug |
| Content.ParsePost | content-collections.ts:21-28 | a post is accepted iff title, description, pubDate are valid and updatedDate, heroImage optional-valid; failures name every bad field; an accepted post holds the title, description, coerced pubDate, the coerced updatedDate iff given and the heroImage string iff given |
| Content.ParseDesign | content-collections.ts:84-92 | a design is accepted iff title, shortDescription, heroImage are strings and tags a list of at least one string; an accepted design holds those strings and the tags' strings in order |
| Content.DesignNeedsTagsAndImage | content-collections.ts:87-91 | an empty tag list or a missing hero image rejects a design |
| Content.SameSlugRule | content-collections.ts:139 | posts and designs with the same title get the same slug |
| Socials.AllPlatformsComplete | src/lib/config.ts:1-10 | the platform list holds every platform |
| Socials.IconPath | src/components/socials.tsx:29 | icon path is `/assets/icons/socials/{platform}.svg` |
| Socials.IconPathRoundTrip | src/components/socials.tsx:29 | each icon path names its platform back |
| Socials.Shown | src/components/socials.tsx:17-18 | the filter never adds accounts |
| Socials.ShownMembers | src/components/socials.tsx:17-18 | an account is shown iff configured and its platform is requested |
| Socials.ShownAppend | src/components/socials.tsx:17-18 | filtering keeps configuration order |
| Socials.AllShown | src/components/socials.tsx:10 | requesting every platform shows every account |
| Socials.Render | src/components/socials.tsx:8-36 | one link per shown account, with its url, icon, alt text and the size (24 by default) |
| Socials.DefaultShowsAll | src/components/socials.tsx:9-10 | with no props every account gets a 24-pixel link |
| Home.Cards | src/routes/index.tsx:50-59 | one card per project, in order, linking to its url with empty details |
| Home.Half | src/routes/index.tsx:67 | ceil(n/2) |
| Home.Rows | src/routes/index.tsx:67-78 | row one has ceil(n/2) skills |
| Home.RowsPartition | src/routes/index.tsx:67-78 | row one + row two == skills, and row one is longer by 0 or 1 |
| Home.HomeSocials | src/routes/index.tsx:31 | the home page shows X, GitHub, YouTube, LinkedIn in config order |
| Notification.Init | src/designs/notification-component.tsx:29-48 | count 0, unpaused, both timers armed |
| Notification.Step | src/designs/notification-component.tsx:32-106 | the first timer sets the count to 1; the auto timer adds 1 once; pause flips only isPaused and re-arms on unpause; increment adds 1 |
| Notification.Run | src/designs/notification-component.tsx:32-106 | the state stays valid; a first timer that has fired is never re-armed; the count grows by at most one per event |
| Notification.AtMostOneAutoIncrement | src/designs/notification-component.tsx:40-48 | between pause clicks the auto timer adds at most one, and none while paused |
| Notification.InitialTimerOverwrites | src/designs/notification-component.tsx:32-38 | increments made before the first timer fires are lost |
| Notification.PauseTwice | src/designs/notification-component.tsx:85 | two pause clicks restore flag and count |
| Notification.Badge | src/designs/notification-component.tsx:54-73 | no badge at 0; the decimal count, without a leading zero, up to 99; "99+" beyond |
| Notification.PauseButtonIcon | src/designs/notification-component.tsx:99-103 | the play icon shows iff paused |
| DesignViewer.ThemeName | src/components/design-viewer/index.tsx:38 | data-theme reads "dark" iff dark, "light" iff light |
| DesignViewer.Init | src/components/design-viewer/index.tsx:32-33 | light theme, key 0 |
| DesignViewer.Step | src/components/design-viewer/index.tsx:43-51 | toggling flips the theme; refresh adds 1 to the key |
| DesignViewer.ToggleTwice | src/components/design-viewer/index.tsx:44-46 | two toggles restore the theme |
| DesignViewer.RunCounts | src/components/design-viewer/index.tsx:32-51 | the key counts refreshes; the theme is unchanged iff toggled an even number of times |
| DesignViewer.Run | src/components/design-viewer/index.tsx:43-51 | the key never decreases and grows by at most one per event |
| DesignViewer.Render | src/components/design-viewer/index.tsx:35-59 | class "dark" iff dark; data-theme names the theme; buttons unless their flags are false; the design is keyed by the key |
| DesignViewer.UseDesignViewer | src/components/design-viewer/index.tsx:19-25 | fails with the fixed message iff there is no provider, else yields the theme |
| DesignViewer.HookMatchesFrame | src/components/design-viewer/index.tsx:40 | inside a viewer the hook succeeds with the frame's theme |
| Text.Trim | src/components/mdx/code-block.tsx:157 | the result is a slice of the input with only white space cut from the two ends, no white space left at either end; empty iff all white space |
| Text.TrimUnique | src/components/mdx/code-block.tsx:157 | any slice cut only at white space and with no white space at its ends is `trim`'s result, so the contract of `Text.Trim` determines it |
| Text.TrimIdempotent | src/components/mdx/code-tabs.tsx:129 | trimming twice is trimming once |
| Text.NatToStringRoundTrip | src/components/video.tsx:121 | `String(n)` reads back as n |
| Text.IntToString | src/components/mdx/code-block.tsx:128 | `String(n)` of an integer is digits reading back as n, with a leading minus for negatives whose digits read back as -n, and never a leading zero except for 0 itself |
| Text.JoinLength | src/lib/seo.ts:62 | a join's length is the items' lengths plus one separator between each pair |
| Text.JoinAppend | src/lib/seo.ts:62 | appending an item to a non-empty list appends the separator and the item to the join |
| Text.Join | src/lib/seo.ts:62 | no items give ""; one item gives itself; otherwise the result starts with the first item |

## Left out

- Rendering: JSX layout, Tailwind class strings, motion/AnimatePresence animation and icons are not modelled. Only whether a piece is drawn, and its label, is kept.
- Floating point: player times are whole seconds and volumes whole percent. NaN and infinite durations are not modelled: the duration is 0 until metadata arrives. Infinite streams and float rounding of the 0.1 volume step are also out.
- The progress bar's click geometry (`handleProgressClick`) and the `buffered` percentage are left out. They are pixel and float arithmetic.
- `handleSeek` is not modelled. It is defined in video.tsx but never wired to any element.
- The rejected promise of `play()`, invalid playback rates throwing, and autoplay blocking by the browser are left out.
- Unmounting is left out. Listener removal and timer cleanup on teardown are not modelled.
- The browser APIs become inputs. This covers the fullscreen API, `document.activeElement` (a `focused` flag), the clipboard (an outcome flag), scroll and resize (measured numbers) and `setTimeout` (timer events).
- `new URL(image, base)` is the `resolve` parameter of `Seo.Env`; it is assumed never to return "". The `window` origin versus the fallback origin is an optional parameter.
- `URLSearchParams.toString` percent-encoding is left out. The query string is modelled without encoding.
- MDX compilation, the rehype/remark/shiki plugins and the empty-line padding of `onVisitLine` are left out. They belong to the content pipeline's libraries.
- TimeFormat.FormatTime: minutes are printed as plain decimal digits. JavaScript prints numbers of 1e21 and above in exponent form (`1e+21`), which the model does not reproduce; TimeFormat.Clock and TimeFormat.FormatTimeReadsBack share this bound.
- ReactNode.ExtractText: a number child is an integer printed as plain digits. Fractions, `NaN`, `Infinity` and the exponent form of very large numbers, which `String(n)` also produces, are not modelled; Text.IntToString shares this limit.
- VideoPlayer.ToggleFullscreen: the `requestFullscreen()` and `exitFullscreen()` calls are not modelled. Their effect comes back to the player as the `fullscreenchange` event (`FullscreenChanged`).
- `z.coerce.date()` is the `Coerce` parameter. JavaScript date parsing is not modelled.
- Content.Slug: lower-cases ASCII letters only, so it is weaker than JavaScript's full Unicode `toLowerCase`. That function can change the length of non-ASCII titles.
- React keys are not modelled, so duplicate tab labels or skill names are not covered.
- The remaining files are presentational or glue code and are not part of this model: routing, analytics, tweet cards, the static config data beyond the socials, and the legacy pages.

## Notes on the source

- Each successful copy in the copy buttons schedules its own reset timer, and none is cancelled. A copy made shortly after another therefore shows "Copied!" only until the first timer fires (`CopyButton.FirstTimerCutsSecondCopyShort`).
- The player's hide timer is not cleared when playback pauses. Controls shown while playing still disappear three seconds later on a paused video (`VideoPlayer.PausedControlsStillHide`).
- `showStickyButton` keeps its value after a code block stops being long. The sticky button reappears when the block is long again, before any scroll (`CodeBlock.StaleStickyReturns`).
- The notification demo's first timer sets the count to 1. Increments clicked before it fires are lost (`Notification.InitialTimerOverwrites`).

=== FILE: code_block.dfy ===
/**
 * `CodeBlock` and `CodeBlockHeader` of src/components/mdx/code-block.tsx:
 * the copy text, the header label, and the sticky copy button that long
 * blocks show once their header has scrolled away.
 */
module CodeBlock {
  import opened Wrappers
  import opened Text
  import opened ReactNode

  /** The height above which a block counts as long, and the header height. */
  const LongHeight := 300
  const HeaderHeight := 48
  const StickyBottom := 100

  /** The text the copy buttons write: the children's text, trimmed. */
  function CopyText(children: Node): (t: string)
    ensures Trimmed(t, ExtractText(children))
    ensures t == "" <==> AllSpace(ExtractText(children))
    ensures |t| > 0 ==> !IsSpace(t[0]) && !IsSpace(t[|t| - 1])
    ensures |t| <= |ExtractText(children)|
  {
    Trim(ExtractText(children))
  }

  /** JavaScript truthiness of an optional string prop. */
  predicate Given(s: Option<string>) {
    s.Some? && s.value != ""
  }

  /**
   * The header's label, when one is drawn: `title || language`, rendered
   * only when that is truthy.
   */
  function DisplayName(title: Option<string>, language: Option<string>): (d: Option<string>)
    ensures d.Some? <==> Given(title) || Given(language)
    ensures Given(title) ==> d == title
    ensures !Given(title) && Given(language) ==> d == language
    ensures d.Some? ==> d.value != ""
  {
    if Given(title) then title else if Given(language) then language else None
  }

  /** What the header draws. `CodeBlock` never passes `showCopy`, so its default `true` applies. */
  datatype Header = Header(displayName: Option<string>, copyButton: bool)

  function RenderHeader(title: Option<string>, language: Option<string>, showCopy: Option<bool>): (h: Header)
    ensures h.displayName == DisplayName(title, language)
    ensures h.copyButton <==> showCopy != Some(false)
  {
    Header(DisplayName(title, language), showCopy.GetOr(true))
  }

  /** The two pieces of state: whether the block is long, and whether the sticky button is showing. */
  datatype Block = Block(isLong: bool, showSticky: bool)

  /**
   * A height measurement (on mount and on every window resize, in whole
   * CSS pixels) or a scroll, with the container's top and bottom relative
   * to the viewport.
   */
  datatype BlockEvent = Measured(height: int) | Scrolled(top: real, bottom: real)

  /** Before the first measurement. */
  function Init(): (b: Block)
    ensures !b.isLong && !b.showSticky
  {
    Block(false, false)
  }

  /**
   * One event. The scroll listener only exists while the block is long,
   * so a scroll over a short block changes nothing; a measurement leaves
   * the sticky flag as it was.
   */
  function Step(b: Block, ev: BlockEvent): (r: Block)
    ensures ev.Measured? ==> (r.isLong <==> ev.height > LongHeight) && r.showSticky == b.showSticky
    ensures ev.Scrolled? && b.isLong ==>
      r.isLong && (r.showSticky <==> ev.top < -(HeaderHeight as real) && ev.bottom > StickyBottom as real)
    ensures ev.Scrolled? && !b.isLong ==> r == b
  {
    match ev
    case Measured(h) => b.(isLong := h > LongHeight)
    case Scrolled(top, bottom) =>
      if b.isLong then b.(showSticky := top < -(HeaderHeight as real) && bottom > StickyBottom as real) else b
  }

  /** The sticky copy button: whether it is in the tree, and whether it is visible. */
  datatype Sticky = Sticky(rendered: bool, visible: bool)

  function RenderSticky(b: Block): (s: Sticky)
    ensures s.rendered <==> b.isLong
    ensures s.visible <==> b.isLong && b.showSticky
    ensures s.visible ==> s.rendered
  {
    Sticky(b.isLong, b.isLong && b.showSticky)
  }

  /** Events applied in order. */
  function Run(b: Block, evs: seq<BlockEvent>): Block
    decreases |evs|
  {
    if |evs| == 0 then b else Run(Step(b, evs[0]), evs[1..])
  }

  /** A block that is never measured as long never shows the sticky button, whatever the scrolling. */
  lemma {:induction false} ShortNeverSticky(b: Block, evs: seq<BlockEvent>)
    requires !b.isLong && !b.showSticky
    requires forall i :: 0 <= i < |evs| ==> (evs[i].Measured? ==> evs[i].height <= LongHeight)
    ensures Run(b, evs) == Block(false, false)
    ensures !RenderSticky(Run(b, evs)).rendered
    decreases |evs|
  {
    if |evs| > 0 {
      assert forall i :: 0 <= i < |evs[1..]| ==> evs[1..][i] == evs[i + 1];
      ShortNeverSticky(Step(b, evs[0]), evs[1..]);
    }
  }

  /**
   * The flag outlives the listener: a block that shrinks below the
   * threshold keeps `showSticky`, and the button reappears as soon as the
   * block is long again, before any scroll.
   */
  lemma StaleStickyReturns()
    ensures Run(Block(true, true), [Measured(200), Measured(400)]) == Block(true, true)
    ensures RenderSticky(Run(Block(true, true), [Measured(200)])).visible == false
  {
    var evs := [Measured(200), Measured(400)];
    assert evs[1..] == [Measured(400)];
    assert evs[1..][1..] == [];
    assert [Measured(200)][1..] == [];
  }
}

=== FILE: code_tabs.dfy ===
/**
 * `CodeTabs` of src/components/mdx/code-tabs.tsx: the children are
 * filtered down to `CodeTab` elements, one of which is shown, and the
 * copy button copies the shown tab's code.
 */
module CodeTabs {
  import opened Wrappers
  import opened Text
  import opened ReactNode

  /** The component a child must be to count as a tab. */
  const TabComponent := "CodeTab"

  predicate IsTab(n: Node) {
    n.Elem? && n.component == TabComponent
  }

  /** The nodes of `xs` that are tabs, in their order. */
  function Tabs(xs: seq<Node>): (r: seq<Node>)
    ensures |r| <= |xs|
    ensures forall i :: 0 <= i < |r| ==> IsTab(r[i])
  {
    if |xs| == 0 then []
    else (if IsTab(xs[0]) then [xs[0]] else []) + Tabs(xs[1..])
  }

  /** A node is kept exactly when it occurs and is a tab. */
  lemma {:induction false} TabsMembers(xs: seq<Node>, n: Node)
    ensures n in Tabs(xs) <==> n in xs && IsTab(n)
  {
    if |xs| > 0 {
      TabsMembers(xs[1..], n);
      assert xs == [xs[0]] + xs[1..];
    }
  }

  /** Filtering a concatenation filters each part: the relative order of the tabs is kept. */
  lemma {:induction false} TabsAppend(a: seq<Node>, b: seq<Node>)
    ensures Tabs(a + b) == Tabs(a) + Tabs(b)
    decreases |a|
  {
    if |a| == 0 {
      assert a + b == b;
    } else {
      assert (a + b)[1..] == a[1..] + b;
      TabsAppend(a[1..], b);
    }
  }

  /** A list made only of tabs comes through whole. */
  lemma {:induction false} TabsOfTabs(xs: seq<Node>)
    requires forall i :: 0 <= i < |xs| ==> IsTab(xs[i])
    ensures Tabs(xs) == xs
  {
    if |xs| > 0 {
      TabsOfTabs(xs[1..]);
    }
  }

  /** The tabs of the children prop, after `Children.toArray`. */
  function ChildTabs(children: Node): seq<Node> {
    Tabs(ToArray(children))
  }

  /** The state: the index of the active tab, which is whatever number was last set. */
  datatype TabsState = TabsState(activeTab: int)

  /** `useState(defaultTab)`, with `defaultTab` defaulting to 0. */
  function Init(defaultTab: Option<int>): (s: TabsState)
    ensures defaultTab.None? ==> s.activeTab == 0
    ensures defaultTab.Some? ==> s.activeTab == defaultTab.value
  {
    TabsState(defaultTab.GetOr(0))
  }

  /** Clicking the button of tab `i` makes it active. */
  function Click(s: TabsState, i: nat): (r: TabsState)
    ensures r.activeTab == i
  {
    TabsState(i)
  }

  /** What is drawn when there is at least one tab. */
  datatype TabsView = TabsView(buttons: seq<(string, bool)>, panelsVisible: seq<bool>, copyText: string)

  /** `tabs[activeTab]?.props.children`: the active tab's content, undefined when no tab has that index. */
  function ActiveContent(tabs: seq<Node>, active: int): (c: Node)
    ensures 0 <= active < |tabs| && tabs[active].Elem? ==> c == tabs[active].children
    ensures !(0 <= active < |tabs|) ==> c == Undefined
  {
    if 0 <= active < |tabs| && tabs[active].Elem? then tabs[active].children else Undefined
  }

  /** The code copied: the trimmed text of the active tab's content, or "" when no tab has that index. */
  function ActiveCode(tabs: seq<Node>, active: int): (t: string)
    ensures !(0 <= active < |tabs|) ==> t == ""
    ensures Trimmed(t, ExtractText(ActiveContent(tabs, active)))
    ensures t == "" <==> AllSpace(ExtractText(ActiveContent(tabs, active)))
    ensures |t| > 0 ==> !IsSpace(t[0]) && !IsSpace(t[|t| - 1])
  {
    Trim(ExtractText(ActiveContent(tabs, active)))
  }

  /**
   * The render: nothing without tabs; otherwise one button per tab
   * (label, highlighted), one panel per tab, and the copy text.
   */
  function Render(s: TabsState, children: Node): (v: Option<TabsView>)
    ensures v.None? <==> |ChildTabs(children)| == 0
    ensures v.Some? ==> |v.value.buttons| == |v.value.panelsVisible| == |ChildTabs(children)|
    ensures v.Some? ==> forall i :: 0 <= i < |v.value.buttons| ==>
      v.value.buttons[i].0 == ChildTabs(children)[i].labelProp
    ensures v.Some? ==> forall i :: 0 <= i < |v.value.panelsVisible| ==>
      (v.value.panelsVisible[i] <==> i == s.activeTab) && (v.value.buttons[i].1 <==> i == s.activeTab)
    ensures v.Some? ==> v.value.copyText == ActiveCode(ChildTabs(children), s.activeTab)
  {
    var tabs := ChildTabs(children);
    if |tabs| == 0 then None
    else Some(TabsView(
      seq(|tabs|, i requires 0 <= i < |tabs| => (tabs[i].labelProp, i == s.activeTab)),
      seq(|tabs|, i => i == s.activeTab),
      ActiveCode(tabs, s.activeTab)))
  }

  /** How many panels are visible. */
  function CountTrue(bs: seq<bool>): nat {
    if |bs| == 0 then 0 else (if bs[0] then 1 else 0) + CountTrue(bs[1..])
  }

  /** A sequence true exactly at index `k` has one true entry when `k` is an index, none otherwise. */
  lemma {:induction false} CountOnlyAt(bs: seq<bool>, k: int)
    requires forall i :: 0 <= i < |bs| ==> (bs[i] <==> i == k)
    ensures CountTrue(bs) == if 0 <= k < |bs| then 1 else 0
  {
    if |bs| > 0 {
      CountOnlyAt(bs[1..], k - 1);
    }
  }

  /** Exactly one panel is visible when the active index names a tab, and none otherwise. */
  lemma OneVisiblePanel(s: TabsState, children: Node)
    requires |ChildTabs(children)| > 0
    ensures CountTrue(Render(s, children).value.panelsVisible)
      == if 0 <= s.activeTab < |ChildTabs(children)| then 1 else 0
  {
    CountOnlyAt(Render(s, children).value.panelsVisible, s.activeTab);
  }

  /** After clicking tab `i`, tab `i` is shown and its code is the copy text. */
  lemma ClickShowsTab(s: TabsState, children: Node, i: nat)
    requires i < |ChildTabs(children)|
    ensures Render(Click(s, i), children).value.panelsVisible[i]
    ensures Render(Click(s, i), children).value.copyText
      == Trim(ExtractText(ChildTabs(children)[i].children))
  {
  }

  /** A one-child list flattens to that child's nodes. */
  lemma ToArraySingleton(n: Node)
    ensures ToArrayAll([n]) == ToArray(n)
  {
    assert [n][1..] == [];
  }

  /** `Children.toArray` of `[a, other, [b]]` flattens the nested array in place. */
  lemma FlattenThree(a: Node, other: Node, b: Node)
    ensures ToArrayAll([a, other, Arr([b])]) == ToArray(a) + ToArray(other) + ToArray(b)
  {
    ToArraySingleton(a);
    ToArraySingleton(other);
    ToArraySingleton(b);
    ToArraySingleton(Arr([b]));
    assert [a, other, Arr([b])] == [a] + [other] + [Arr([b])];
    ToArrayAllAppend([a] + [other], [Arr([b])]);
    ToArrayAllAppend([a], [other]);
  }

  /** Children that are not tab elements, and nested arrays, do not disturb the tabs or their order. */
  lemma TabsIgnoreOthers(a: Node, b: Node, other: Node)
    requires !IsTab(other) && !other.Arr?
    ensures ChildTabs(Arr([a, other, Arr([b])])) == ChildTabs(a) + ChildTabs(b)
  {
    var ta, to, tb := ToArray(a), ToArray(other), ToArray(b);
    FlattenThree(a, other, b);
    assert Tabs(to) == [] by {
      if Kept(other) {
        assert [other][1..] == [];
      }
    }
    TabsAppend(ta + to, tb);
    TabsAppend(ta, to);
    assert Tabs(ta) + [] == Tabs(ta);
  }
}

=== FILE: content.dfy ===
/**
 * The two content collections of content-collections.ts: the frontmatter
 * each document must carry, and the slug both derive from the title.
 */
module Content {
  import opened Wrappers
  import opened Text

  /** A frontmatter value as the YAML parser hands it over. */
  datatype Value = Str(s: string) | Num(n: int) | Bool(b: bool) | List(items: seq<Value>) | Null

  /** A document's frontmatter; a key that is absent reads as `undefined`. */
  type Frontmatter = map<string, Value>

  /**
   * `z.coerce.date()`: the milliseconds of `new Date(v)`, or `None` when
   * that is an invalid date. JavaScript's date parsing is not part of the
   * model, so the coercion is a parameter.
   */
  type Coerce = Value -> Option<int>

  /** A published post, after validation and transformation. */
  datatype Post = Post(
    title: string,
    description: string,
    pubDate: int,
    updatedDate: Option<int>,
    heroImage: Option<string>,
    slug: string)

  /** A design, after validation and transformation. */
  datatype Design = Design(
    title: string,
    shortDescription: string,
    tags: seq<string>,
    heroImage: string,
    slug: string)

  /**
   * The slug: the title lower-cased, with every space (and only the space
   * character) replaced by `-`.
   */
  function Slug(title: string): (slug: string)
    ensures |slug| == |title|
    ensures forall i :: 0 <= i < |title| ==>
      slug[i] == if title[i] == ' ' then '-' else LowerChar(title[i])
  {
    var lower := ToLower(title);
    seq(|lower|, i requires 0 <= i < |lower| => if lower[i] == ' ' then '-' else lower[i])
  }

  /** A slug has no spaces, keeps other whitespace such as tabs and line breaks, and has no upper-case letters. */
  lemma SlugShape(title: string)
    ensures forall i :: 0 <= i < |Slug(title)| ==> Slug(title)[i] != ' '
    ensures forall i :: 0 <= i < |title| && title[i] in {'\t', '\n', '\r'} ==> Slug(title)[i] == title[i]
    ensures forall i :: 0 <= i < |Slug(title)| ==> !('A' <= Slug(title)[i] <= 'Z')
  {
  }

  /** Slugging a slug changes nothing. */
  lemma SlugIdempotent(title: string)
    ensures Slug(Slug(title)) == Slug(title)
  {
    var s := Slug(title);
    assert forall i :: 0 <= i < |s| ==> Slug(s)[i] == s[i];
  }

  /** Titles that differ only in letter case or in space versus hyphen share a slug. */
  lemma SlugCollisions()
    ensures Slug("Hello World") == Slug("hello-world") == "hello-world"
  {
    assert Slug("Hello World") == "hello-world";
    assert Slug("hello-world") == "hello-world";
  }

  /** `z.string()`. */
  predicate IsString(fm: Frontmatter, key: string) {
    key in fm && fm[key].Str?
  }

  /** `z.string().optional()`: absent, or a string. */
  predicate IsOptString(fm: Frontmatter, key: string) {
    key !in fm || fm[key].Str?
  }

  /** `z.coerce.date()`. */
  predicate IsDate(fm: Frontmatter, key: string, coerce: Coerce) {
    key in fm && coerce(fm[key]).Some?
  }

  /** `z.coerce.date().optional()`. */
  predicate IsOptDate(fm: Frontmatter, key: string, coerce: Coerce) {
    key !in fm || coerce(fm[key]).Some?
  }

  /** `z.string().array().min(1)`. */
  predicate IsTagList(fm: Frontmatter, key: string) {
    key in fm && fm[key].List? && |fm[key].items| >= 1
      && forall i :: 0 <= i < |fm[key].items| ==> fm[key].items[i].Str?
  }

  /** The posts schema: title, description and pubDate required; updatedDate and heroImage optional. */
  predicate PostOk(fm: Frontmatter, coerce: Coerce) {
    IsString(fm, "title") && IsString(fm, "description") && IsDate(fm, "pubDate", coerce)
      && IsOptDate(fm, "updatedDate", coerce) && IsOptString(fm, "heroImage")
  }

  /** The designs schema: title, shortDescription, at least one tag, and heroImage, all required. */
  predicate DesignOk(fm: Frontmatter) {
    IsString(fm, "title") && IsString(fm, "shortDescription")
      && IsTagList(fm, "tags") && IsString(fm, "heroImage")
  }

  /** `[key]` when the check failed. */
  function IssueIf(ok: bool, key: string): (r: seq<string>)
    ensures key in r <==> !ok
    ensures |r| <= 1
  {
    if ok then [] else [key]
  }

  /** The fields of a post that fail the schema, in schema order. */
  function PostIssues(fm: Frontmatter, coerce: Coerce): seq<string> {
    IssueIf(IsString(fm, "title"), "title")
      + IssueIf(IsString(fm, "description"), "description")
      + IssueIf(IsDate(fm, "pubDate", coerce), "pubDate")
      + IssueIf(IsOptDate(fm, "updatedDate", coerce), "updatedDate")
      + IssueIf(IsOptString(fm, "heroImage"), "heroImage")
  }

  /** The fields of a design that fail the schema, in schema order. */
  function DesignIssues(fm: Frontmatter): seq<string> {
    IssueIf(IsString(fm, "title"), "title")
      + IssueIf(IsString(fm, "shortDescription"), "shortDescription")
      + IssueIf(IsTagList(fm, "tags"), "tags")
      + IssueIf(IsString(fm, "heroImage"), "heroImage")
  }

  /** The strings of a tag list. */
  function Strings(vs: seq<Value>): (r: seq<string>)
    requires forall i :: 0 <= i < |vs| ==> vs[i].Str?
    ensures |r| == |vs| && forall i :: 0 <= i < |vs| ==> r[i] == vs[i].s
  {
    seq(|vs|, i requires 0 <= i < |vs| => vs[i].s)
  }

  /** Validates a post's frontmatter and adds the slug; on failure, names every failing field. */
  function ParsePost(fm: Frontmatter, coerce: Coerce): (r: Result<Post, seq<string>>)
    ensures r.Success? <==> PostOk(fm, coerce)
    ensures r.Failure? ==> |r.error| > 0
    ensures r.Failure? ==> forall k :: k in r.error <==> k in PostIssues(fm, coerce)
    ensures r.Success? ==> r.value.title == fm["title"].s && r.value.description == fm["description"].s
    ensures r.Success? ==> r.value.pubDate == coerce(fm["pubDate"]).value
    ensures r.Success? ==> (r.value.updatedDate.Some? <==> "updatedDate" in fm)
    ensures r.Success? && "updatedDate" in fm ==> r.value.updatedDate == coerce(fm["updatedDate"])
    ensures r.Success? ==> (r.value.heroImage.Some? <==> "heroImage" in fm)
    ensures r.Success? && "heroImage" in fm ==> r.value.heroImage == Some(fm["heroImage"].s)
    ensures r.Success? ==> r.value.slug == Slug(r.value.title)
  {
    if !PostOk(fm, coerce) then
      assert PostIssues(fm, coerce) != [] by {
        if !IsString(fm, "title") {
          assert "title" in PostIssues(fm, coerce);
        } else if !IsString(fm, "description") {
          assert "description" in PostIssues(fm, coerce);
        } else if !IsDate(fm, "pubDate", coerce) {
          assert "pubDate" in PostIssues(fm, coerce);
        } else if !IsOptDate(fm, "updatedDate", coerce) {
          assert "updatedDate" in PostIssues(fm, coerce);
        } else {
          assert "heroImage" in PostIssues(fm, coerce);
        }
      }
      Failure(PostIssues(fm, coerce))
    else
      var title := fm["title"].s;
      Success(Post(
        title,
        fm["description"].s,
        coerce(fm["pubDate"]).value,
        if "updatedDate" in fm then coerce(fm["updatedDate"]) else None,
        if "heroImage" in fm then Some(fm["heroImage"].s) else None,
        Slug(title)))
  }

  /** Validates a design's frontmatter and adds the slug; on failure, names every failing field. */
  function ParseDesign(fm: Frontmatter): (r: Result<Design, seq<string>>)
    ensures r.Success? <==> DesignOk(fm)
    ensures r.Failure? ==> |r.error| > 0
    ensures r.Failure? ==> forall k :: k in r.error <==> k in DesignIssues(fm)
    ensures r.Success? ==> r.value.title == fm["title"].s && r.value.heroImage == fm["heroImage"].s
    ensures r.Success? ==> r.value.shortDescription == fm["shortDescription"].s
    ensures r.Success? ==> |r.value.tags| >= 1 && |r.value.tags| == |fm["tags"].items|
    ensures r.Success? ==> forall i :: 0 <= i < |r.value.tags| ==> r.value.tags[i] == fm["tags"].items[i].s
    ensures r.Success? ==> r.value.slug == Slug(r.value.title)
  {
    if !DesignOk(fm) then
      assert DesignIssues(fm) != [] by {
        if !IsString(fm, "title") {
          assert "title" in DesignIssues(fm);
        } else if !IsString(fm, "shortDescription") {
          assert "shortDescription" in DesignIssues(fm);
        } else if !IsTagList(fm, "tags") {
          assert "tags" in DesignIssues(fm);
        } else {
          assert "heroImage" in DesignIssues(fm);
        }
      }
      Failure(DesignIssues(fm))
    else
      var title := fm["title"].s;
      Success(Design(title, fm["shortDescription"].s, Strings(fm["tags"].items), fm["heroImage"].s, Slug(title)))
  }

  /** A design with an empty tag list, or without a hero image, is rejected; a post needs neither. */
  lemma DesignNeedsTagsAndImage(fm: Frontmatter)
    requires DesignOk(fm)
    ensures ParseDesign(fm["tags" := List([])]).Failure?
    ensures ParseDesign(fm - {"heroImage"}).Failure?
    ensures "tags" in ParseDesign(fm["tags" := List([])]).error
  {
    var noTags := fm["tags" := List([])];
    assert !IsTagList(noTags, "tags");
    assert "tags" in DesignIssues(noTags) by {
      assert "tags" in IssueIf(IsTagList(noTags, "tags"), "tags");
    }
    assert !IsString(fm - {"heroImage"}, "heroImage");
  }

  /** A post and a design with the same title get the same slug. */
  lemma SameSlugRule(pfm: Frontmatter, dfm: Frontmatter, coerce: Coerce)
    requires PostOk(pfm, coerce) && DesignOk(dfm)
    requires pfm["title"] == dfm["title"]
    ensures ParsePost(pfm, coerce).value.slug == ParseDesign(dfm).value.slug
  {
  }
}

=== FILE: copy_button.dfy ===
/**
 * The `CopyButton` of src/components/mdx/code-block.tsx, repeated verbatim
 * in code-tabs.tsx: a click writes the text to the clipboard and, when
 * that succeeds, shows "Copied!" until a two-second timer puts it back.
 */
module CopyButton {

  /**
   * The button's state: the `copied` flag and how many reset timers are
   * still due (every successful copy schedules one and none is cancelled).
   */
  datatype Copy = Copy(copied: bool, pendingResets: nat)

  /**
   * A click, with the outcome of the clipboard write it starts (the
   * browser decides it), or the oldest pending reset timer going off.
   */
  datatype CopyEvent = Click(clipboardOk: bool) | ResetFires

  /** "Copied!" is only ever shown while a reset timer is due to clear it. */
  predicate Valid(c: Copy) {
    c.copied ==> c.pendingResets > 0
  }

  /** Mount: not copied, no timer. */
  function Init(): (c: Copy)
    ensures Valid(c) && !c.copied && c.pendingResets == 0
  {
    Copy(false, 0)
  }

  /**
   * One event. A failed write only logs, so nothing changes; a successful
   * one sets `copied` and schedules a reset; a reset clears `copied`
   * whatever happened since it was scheduled.
   */
  function Step(c: Copy, ev: CopyEvent): (r: Copy)
    requires Valid(c)
    ensures Valid(r)
    ensures ev == Click(false) ==> r == c
    ensures ev == Click(true) ==> r.copied && r.pendingResets == c.pendingResets + 1
    ensures ev.ResetFires? && c.pendingResets > 0 ==> !r.copied && r.pendingResets + 1 == c.pendingResets
    ensures ev.ResetFires? && c.pendingResets == 0 ==> r == c
  {
    match ev
    case Click(ok) => if ok then Copy(true, c.pendingResets + 1) else c
    case ResetFires => if c.pendingResets == 0 then c else Copy(false, c.pendingResets - 1)
  }

  /** Events applied in order. */
  function Run(c: Copy, evs: seq<CopyEvent>): (r: Copy)
    requires Valid(c)
    ensures r.pendingResets <= c.pendingResets + |evs|
    decreases |evs|
  {
    if |evs| == 0 then c else Run(Step(c, evs[0]), evs[1..])
  }

  /** `n` reset events in a row. */
  function Resets(n: nat): (evs: seq<CopyEvent>)
    ensures |evs| == n && forall i :: 0 <= i < n ==> evs[i] == ResetFires
  {
    seq(n, _ => ResetFires)
  }

  /** The accessible label and the screen-reader text. */
  function Label(c: Copy): (s: string)
    ensures s == "Copied!" <==> c.copied
    ensures s == "Copy code" <==> !c.copied
  {
    if c.copied then "Copied!" else "Copy code"
  }

  /** Every run keeps the state valid. */
  lemma {:induction false} RunValid(c: Copy, evs: seq<CopyEvent>)
    requires Valid(c)
    ensures Valid(Run(c, evs))
    decreases |evs|
  {
    if |evs| > 0 {
      RunValid(Step(c, evs[0]), evs[1..]);
    }
  }

  /** Once every pending timer has gone off, the button reads "Copy code" again. */
  lemma {:induction false} TimersRestoreLabel(c: Copy)
    requires Valid(c)
    ensures Run(c, Resets(c.pendingResets)) == Copy(false, 0)
    ensures Label(Run(c, Resets(c.pendingResets))) == "Copy code"
    decreases c.pendingResets
  {
    if c.pendingResets > 0 {
      var next := Step(c, ResetFires);
      assert Resets(c.pendingResets)[1..] == Resets(next.pendingResets);
      TimersRestoreLabel(next);
    }
  }

  /**
   * A second copy does not extend the first one's timer: clicking twice
   * and letting one timer go off already shows "Copy code", although a
   * second timer is still pending.
   */
  lemma FirstTimerCutsSecondCopyShort()
    ensures Run(Init(), [Click(true), Click(true), ResetFires]) == Copy(false, 1)
  {
    var s1 := Step(Init(), Click(true));
    var s2 := Step(s1, Click(true));
    var evs := [Click(true), Click(true), ResetFires];
    assert evs[1..] == [Click(true), ResetFires];
    assert evs[1..][1..] == [ResetFires];
    assert evs[1..][1..][1..] == [];
  }
}

=== FILE: design_viewer.dfy ===
/**
 * `DesignViewer` and `useDesignViewer` of
 * src/components/design-viewer/index.tsx: a frame around a design with a
 * light/dark switch and a button that remounts the design.
 */
module DesignViewer {
  import opened Wrappers

  datatype Theme = Light | Dark

  /** The theme as `data-theme` spells it. */
  function ThemeName(t: Theme): (s: string)
    ensures s == "dark" <==> t == Dark
    ensures s == "light" <==> t == Light
  {
    match t
    case Dark => "dark"
    case Light => assert "light"[0] != "dark"[0]; "light"
  }

  /** The props, before defaults. */
  datatype ViewerProps = ViewerProps(showThemeSwitcher: Option<bool>, showRefreshButton: Option<bool>)

  /** The state: the theme, and the key the design is mounted under. */
  datatype Viewer = Viewer(theme: Theme, refreshKey: nat)

  datatype ViewerEvent = ThemeToggled | RefreshClicked

  /** Mount: light theme, key 0. */
  function Init(): (v: Viewer)
    ensures v.theme == Light && v.refreshKey == 0
  {
    Viewer(Light, 0)
  }

  /** The switch flips the theme; refresh bumps the key by one. */
  function Step(v: Viewer, ev: ViewerEvent): (r: Viewer)
    ensures ev.ThemeToggled? ==> r.theme != v.theme && r.refreshKey == v.refreshKey
    ensures ev.RefreshClicked? ==> r.theme == v.theme && r.refreshKey == v.refreshKey + 1
  {
    match ev
    case ThemeToggled => v.(theme := if v.theme == Light then Dark else Light)
    case RefreshClicked => v.(refreshKey := v.refreshKey + 1)
  }

  /** Toggling twice restores the theme. */
  lemma ToggleTwice(v: Viewer)
    ensures Step(Step(v, ThemeToggled), ThemeToggled) == v
  {
  }

  /** Events applied in order. */
  function Run(v: Viewer, evs: seq<ViewerEvent>): (r: Viewer)
    ensures v.refreshKey <= r.refreshKey <= v.refreshKey + |evs|
    decreases |evs|
  {
    if |evs| == 0 then v else Run(Step(v, evs[0]), evs[1..])
  }

  function Count(evs: seq<ViewerEvent>, ev: ViewerEvent): nat {
    if |evs| == 0 then 0 else (if evs[0] == ev then 1 else 0) + Count(evs[1..], ev)
  }

  /**
   * The key counts the refreshes, so it only ever grows and every refresh
   * remounts the design; the theme is the starting one exactly when the
   * switch was used an even number of times.
   */
  lemma {:induction false} RunCounts(v: Viewer, evs: seq<ViewerEvent>)
    ensures Run(v, evs).refreshKey == v.refreshKey + Count(evs, RefreshClicked)
    ensures Run(v, evs).theme == v.theme <==> Count(evs, ThemeToggled) % 2 == 0
    decreases |evs|
  {
    if |evs| > 0 {
      RunCounts(Step(v, evs[0]), evs[1..]);
    }
  }

  /** The container's class tokens, without the theme's own. */
  const BaseClasses: seq<string> := [
    "group", "relative", "w-full", "h-[40rem]", "rounded-md", "border", "transition-colors",
    "duration-300", "mb-8", "mt-4", "bg-white", "border-gray-200",
    "dark:bg-[oklch(0.141_0.005_285.823)]", "dark:border-[oklch(0.274_0.006_286.033)]"
  ]

  /** What the frame draws. */
  datatype Frame = Frame(classes: seq<string>, dataTheme: string, themeButton: bool, refreshButton: bool, childKey: nat)

  /**
   * The container carries the class `dark` exactly in the dark theme and
   * `data-theme` names the theme; each button is drawn unless its flag is
   * `false`; the design is keyed by the refresh key.
   */
  function Render(p: ViewerProps, v: Viewer): (f: Frame)
    ensures "dark" in f.classes <==> v.theme == Dark
    ensures f.dataTheme == ThemeName(v.theme)
    ensures f.themeButton <==> p.showThemeSwitcher != Some(false)
    ensures f.refreshButton <==> p.showRefreshButton != Some(false)
    ensures f.childKey == v.refreshKey
  {
    assert "dark" !in BaseClasses;
    Frame(
      BaseClasses + (if v.theme == Dark then ["dark"] else []),
      ThemeName(v.theme),
      p.showThemeSwitcher.GetOr(true),
      p.showRefreshButton.GetOr(true),
      v.refreshKey)
  }

  /** The error `useDesignViewer` throws outside a viewer. */
  const OutsideViewer := "useDesignViewer must be used within a DesignViewer"

  /** The context a component sees: the enclosing viewer's theme, if there is a viewer. */
  function Context(enclosing: Option<Viewer>): Option<Theme> {
    if enclosing.Some? then Some(enclosing.value.theme) else None
  }

  /** `useDesignViewer`: the enclosing viewer's theme, and an error outside any viewer. */
  function UseDesignViewer(context: Option<Theme>): (r: Result<Theme, string>)
    ensures r.Failure? <==> context.None?
    ensures r.Failure? ==> r.error == OutsideViewer
    ensures r.Success? ==> r.value == context.value
  {
    if context.None? then Failure(OutsideViewer) else Success(context.value)
  }

  /** Inside a viewer the hook always succeeds and reports the theme the frame shows. */
  lemma HookMatchesFrame(p: ViewerProps, v: Viewer)
    ensures UseDesignViewer(Context(Some(v))).Success?
    ensures ThemeName(UseDesignViewer(Context(Some(v))).value) == Render(p, v).dataTheme
  {
  }
}

=== FILE: head.dfy ===
/**
 * `head` in src/lib/head.ts: the route head with the page's meta tags
 * appended to the caller's own. The source repeats the tag list of `seo`
 * instead of calling it, so it is written out again here and shown equal.
 */
module Head {
  import opened Wrappers
  import opened Text
  import opened Seo

  /** The head elements of a route; links, scripts and styles are opaque here. */
  datatype HeadElements<L, S, T> = HeadElements(
    links: Option<seq<L>>, scripts: Option<seq<S>>, meta: Option<seq<Meta>>, styles: Option<seq<T>>)

  /** `head`: the caller's meta tags (none when missing), then the page's tags; everything else passed through. */
  function BuildHead<L, S, T>(o: SeoOptions, h: HeadElements<L, S, T>, env: Env): (r: HeadElements<L, S, T>)
    ensures r.links == h.links && r.scripts == h.scripts && r.styles == h.styles
    ensures r.meta.Some? && |r.meta.value| >= |h.meta.GetOr([])| + 3
    ensures r.meta.value[|h.meta.GetOr([])|] == TitleMeta(o.title)
  {
    var t := o.title;
    var iu := ImageUrl(o.image, env);
    HeadElements(
      h.links,
      h.scripts,
      Some(h.meta.GetOr([])
        + [TitleMeta(t), PropertyMeta("og:title", t), NameMeta("twitter:title", t)]
        + (if Truthy(o.description) then
             [ NameMeta("description", o.description.value),
               NameMeta("twitter:description", o.description.value),
               PropertyMeta("og:description", o.description.value) ]
           else [])
        + (if o.keywords.Some? then [NameMeta("keywords", Join(o.keywords.value, ", "))] else [])
        + (if Truthy(iu) then
             [ PropertyMeta("og:image", iu.value),
               PropertyMeta("og:image:type", "image/jpg"),
               NameMeta("twitter:image", iu.value),
               NameMeta("twitter:image:alt", t) ]
           else [])
        + (if Truthy(o.url) then [PropertyMeta("og:url", o.url.value), NameMeta("twitter:url", o.url.value)] else [])),
      h.styles)
  }

  /**
   * The head's meta tags are the caller's, unchanged and first, followed
   * by exactly what `seo` builds for the same options; links, scripts and
   * styles come back untouched.
   */
  lemma HeadIsCallerThenSeo<L, S, T>(o: SeoOptions, h: HeadElements<L, S, T>, env: Env)
    ensures var r := BuildHead(o, h, env);
      && r.meta == Some(h.meta.GetOr([]) + SeoMeta(o, env))
      && r.links == h.links && r.scripts == h.scripts && r.styles == h.styles
  {
    var c := h.meta.GetOr([]);
    var t, d, k := TitleGroup(o.title), DescriptionGroup(o.description), KeywordsGroup(o.keywords);
    var im, u := ImageGroup(ImageUrl(o.image, env), o.title), UrlGroup(o.url);
    assert c + t + d + k + im + u == c + (t + d + k + im + u);
  }

  /** The caller's tags keep their places at the front. */
  lemma HeadKeepsCallerMeta<L, S, T>(o: SeoOptions, h: HeadElements<L, S, T>, env: Env)
    requires h.meta.Some?
    ensures var m := BuildHead(o, h, env).meta.value;
      |m| >= |h.meta.value| && m[..|h.meta.value|] == h.meta.value
  {
    HeadIsCallerThenSeo(o, h, env);
  }

  /** Without caller tags the head's tags are exactly those of `seo`. */
  lemma HeadWithoutCallerMeta<L, S, T>(o: SeoOptions, h: HeadElements<L, S, T>, env: Env)
    requires h.meta.None?
    ensures BuildHead(o, h, env).meta == Some(SeoMeta(o, env))
  {
    HeadIsCallerThenSeo(o, h, env);
    assert [] + SeoMeta(o, env) == SeoMeta(o, env);
  }
}

=== FILE: home.dfy ===
/**
 * The home page of src/routes/index.tsx: one card per project, the
 * skills split over two marquee rows, and the social links it asks for.
 */
module Home {
  import opened Socials

  /** A configured project. */
  datatype Project = Project(title: string, description: string, image: string, url: string)

  /** The props a `ProjectCard` receives. */
  datatype Card = Card(title: string, description: string, image: string, details: string, link: string)

  /** One card per project, in order, linking to the project and with empty details. */
  function Cards(projects: seq<Project>): (cards: seq<Card>)
    ensures |cards| == |projects|
    ensures forall i :: 0 <= i < |projects| ==>
      cards[i].title == projects[i].title && cards[i].description == projects[i].description
      && cards[i].image == projects[i].image && cards[i].link == projects[i].url && cards[i].details == ""
  {
    seq(|projects|, i requires 0 <= i < |projects| =>
      Card(projects[i].title, projects[i].description, projects[i].image, "", projects[i].url))
  }

  /** `Math.ceil(n / 2)`. */
  function Half(n: nat): (h: nat)
    ensures h <= n && 2 * h >= n && 2 * h <= n + 1
  {
    (n + 1) / 2
  }

  /** The two marquee rows: the first `ceil(n/2)` skills, then the rest. */
  function Rows<T>(skills: seq<T>): (rows: (seq<T>, seq<T>))
    ensures |rows.0| == Half(|skills|)
  {
    (skills[..Half(|skills|)], skills[Half(|skills|)..])
  }

  /** The rows together are the skills list, nothing lost or repeated, and the first row is the longer by at most one. */
  lemma RowsPartition<T>(skills: seq<T>)
    ensures Rows(skills).0 + Rows(skills).1 == skills
    ensures |Rows(skills).1| <= |Rows(skills).0| <= |Rows(skills).1| + 1
    ensures forall i :: 0 <= i < |Rows(skills).0| ==> Rows(skills).0[i] == skills[i]
    ensures forall i :: 0 <= i < |Rows(skills).1| ==> Rows(skills).1[i] == skills[Half(|skills|) + i]
  {
    var h := Half(|skills|);
    assert skills[..h] + skills[h..] == skills;
  }

  /** The accounts of src/lib/config.ts, in order. */
  const ConfigSocials: seq<Social> := [
    Social(Twitter, "@jacobsamorowski", "https://links.jacobsamo.com/x"),
    Social(Github, "jacobsamo", "https://links.jacobsamo.com/github"),
    Social(Youtube, "jacobsamorowski", "https://links.jacobsamo.com/youtube"),
    Social(Linkedin, "jacobsamorowski", "https://links.jacobsamo.com/linkedin"),
    Social(Instagram, "jacobsamorowski", "https://links.jacobsamo.com/instagram"),
    Social(Facebook, "jacobsamorowski", "https://links.jacobsamo.com/facebook"),
    Social(Tiktok, "jacobsamorowski", "https://links.jacobsamo.com/tiktok"),
    Social(Bluesky, "jacobsamo.com", "https://links.jacobsamo.com/bluesky")
  ]

  /** The platforms the home page asks for. */
  const HomePlatforms: seq<Platform> := [Twitter, Github, Youtube, Linkedin]

  /** With the configured accounts, the home page links X, GitHub, YouTube and LinkedIn, in that order. */
  lemma HomeSocials()
    ensures Shown(ConfigSocials, HomePlatforms) == ConfigSocials[..4]
  {
    var c := ConfigSocials;
    var w := HomePlatforms;
    assert c[8..] == [];
    assert Shown(c[7..], w) == [] + Shown(c[8..], w);
    assert Shown(c[6..], w) == [] + Shown(c[7..], w);
    assert Shown(c[5..], w) == [] + Shown(c[6..], w);
    assert Shown(c[4..], w) == [] + Shown(c[5..], w);
    assert Shown(c[3..], w) == [c[3]] + Shown(c[4..], w);
    assert Shown(c[2..], w) == [c[2]] + Shown(c[3..], w);
    assert Shown(c[1..], w) == [c[1]] + Shown(c[2..], w);
    assert Shown(c, w) == [c[0]] + Shown(c[1..], w);
  }
}

=== FILE: inline_code.dfy ===
/**
 * `InlineCode` of src/components/mdx/inline-code.tsx: a coloured `code`
 * span that, when copyable, copies its text on click or on Enter/Space
 * and shows a tooltip.
 */
module InlineCode {
  import opened Wrappers
  import opened ReactNode
  import CopyButton

  /** The six colour variants. */
  datatype Color = Default | Primary | Success | Warning | Error | Info

  /** The variant's name as the `color` prop spells it. */
  function ColorName(c: Color): string {
    match c
    case Default => "default"
    case Primary => "primary"
    case Success => "success"
    case Warning => "warning"
    case Error => "error"
    case Info => "info"
  }

  /** The variant a `color` prop names, if any. */
  function ColorOf(name: string): (c: Option<Color>)
    ensures c.Some? ==> ColorName(c.value) == name
  {
    if name == "default" then Some(Default)
    else if name == "primary" then Some(Primary)
    else if name == "success" then Some(Color.Success)
    else if name == "warning" then Some(Warning)
    else if name == "error" then Some(Error)
    else if name == "info" then Some(Info)
    else None
  }

  /** Every variant is named, and its name reads back as the variant. */
  lemma ColorNameRoundTrip(c: Color)
    ensures ColorOf(ColorName(c)) == Some(c)
  {
  }

  /** The class lookup of `colorVariants`, total over the variants. */
  function ColorClass(c: Color): (cls: string)
    ensures cls != ""
  {
    match c
    case Default => "bg-white/10 text-[#e6edf3]"
    case Primary => "bg-blue-500/20 text-blue-300"
    case Success => "bg-green-500/20 text-green-300"
    case Warning => "bg-yellow-500/20 text-yellow-300"
    case Error => "bg-red-500/20 text-red-300"
    case Info => "bg-cyan-500/20 text-cyan-300"
  }

  /** Different variants look different. */
  lemma ColorClassInjective(a: Color, b: Color)
    ensures ColorClass(a) == ColorClass(b) ==> a == b
  {
  }

  /** The props, before defaults. */
  datatype InlineProps = InlineProps(children: Node, color: Option<Color>, copyable: Option<bool>)

  /** `color = "default"`. */
  function ColorFor(p: InlineProps): (c: Color)
    ensures p.color.None? ==> c == Default
    ensures p.color.Some? ==> c == p.color.value
  {
    p.color.GetOr(Default)
  }

  /** `copyable = true`. */
  predicate Copyable(p: InlineProps) {
    p.copyable != Some(false)
  }

  /** The state: the copy flag with its reset timers (as in `CopyButton`), and the hover tooltip flag. */
  datatype Inline = Inline(copy: CopyButton.Copy, showTooltip: bool)

  /** The events: a click or a key press (with the clipboard outcome), the pointer, a reset timer. */
  datatype InlineEvent =
    | Click(clipboardOk: bool)
    | KeyDown(key: string, clipboardOk: bool)
    | MouseEnter
    | MouseLeave
    | ResetFires

  /** What one event does: the new state, whether the key's default was prevented, and what was copied. */
  datatype InlineOutput = InlineOutput(state: Inline, prevented: bool, copied: Option<string>)

  predicate Valid(s: Inline) {
    CopyButton.Valid(s.copy)
  }

  function Init(): (s: Inline)
    ensures Valid(s) && !s.copy.copied && !s.showTooltip
  {
    Inline(CopyButton.Init(), false)
  }

  /** Enter and Space are the keys that copy. */
  predicate CopyKey(key: string) {
    key == "Enter" || key == " "
  }

  /** `handleCopy`: nothing at all unless copyable; otherwise the clipboard write and its outcome. */
  function HandleCopy(p: InlineProps, s: Inline, ok: bool): (o: InlineOutput)
    requires Valid(s)
    ensures Valid(o.state) && !o.prevented && o.state.showTooltip == s.showTooltip
    ensures !Copyable(p) ==> o.state == s && o.copied.None?
    ensures Copyable(p) && !ok ==> o.state == s && o.copied.None?
    ensures Copyable(p) && ok ==> o.state.copy.copied && o.copied == Some(ShallowText(p.children))
  {
    if !Copyable(p) then InlineOutput(s, false, None)
    else
      var c := CopyButton.Step(s.copy, CopyButton.Click(ok));
      InlineOutput(s.(copy := c), false, if ok then Some(ShallowText(p.children)) else None)
  }

  /** One event. */
  function Step(p: InlineProps, s: Inline, ev: InlineEvent): (o: InlineOutput)
    requires Valid(s)
    ensures Valid(o.state)
    ensures o.prevented <==> ev.KeyDown? && Copyable(p) && CopyKey(ev.key)
    ensures o.copied.Some? ==> Copyable(p) && o.copied.value == ShallowText(p.children)
    ensures ev.KeyDown? && !(Copyable(p) && CopyKey(ev.key)) ==> o.state == s && o.copied.None?
    ensures Copyable(p) && (ev.Click? || (ev.KeyDown? && CopyKey(ev.key))) && ev.clipboardOk ==>
      o.copied == Some(ShallowText(p.children)) && o.state.copy.copied
    ensures (ev.Click? || ev.KeyDown?) && !ev.clipboardOk ==> o.state == s && o.copied.None?
    ensures ev.MouseEnter? ==> (o.state.showTooltip <==> s.showTooltip || Copyable(p))
    ensures ev.MouseLeave? ==> !o.state.showTooltip
  {
    match ev
    case Click(ok) => HandleCopy(p, s, ok)
    case KeyDown(key, ok) =>
      if Copyable(p) && CopyKey(key) then HandleCopy(p, s, ok).(prevented := true)
      else InlineOutput(s, false, None)
    case MouseEnter => InlineOutput(if Copyable(p) then s.(showTooltip := true) else s, false, None)
    case MouseLeave => InlineOutput(s.(showTooltip := false), false, None)
    case ResetFires => InlineOutput(s.(copy := CopyButton.Step(s.copy, CopyButton.ResetFires)), false, None)
  }

  /** Events applied in order; the outputs' copies are collected. */
  function Run(p: InlineProps, s: Inline, evs: seq<InlineEvent>): (r: (Inline, seq<string>))
    requires Valid(s)
    ensures Valid(r.0)
    decreases |evs|
  {
    if |evs| == 0 then (s, [])
    else
      var o := Step(p, s, evs[0]);
      var rest := Run(p, o.state, evs[1..]);
      (rest.0, (if o.copied.Some? then [o.copied.value] else []) + rest.1)
  }

  /** Inline code that is not copyable never copies, never shows a tooltip and never changes. */
  lemma {:induction false} NotCopyableInert(p: InlineProps, evs: seq<InlineEvent>)
    requires !Copyable(p)
    ensures Run(p, Init(), evs) == (Init(), [])
    decreases |evs|
  {
    if |evs| > 0 {
      var o := Step(p, Init(), evs[0]);
      assert o.state == Init() && o.copied.None?;
      NotCopyableInert(p, evs[1..]);
      var rest := Run(p, o.state, evs[1..]);
      assert rest == (Init(), []);
      assert Run(p, Init(), evs) == (rest.0, [] + rest.1);
      assert [] + rest.1 == rest.1;
    }
  }

  /** What is rendered around the code. */
  datatype InlineView = InlineView(
    colorClass: string,
    isButton: bool,
    tabIndex: Option<int>,
    tooltip: Option<(string, bool)>)

  /**
   * `role="button"` and `tabIndex=0` exactly when copyable; the tooltip
   * exists exactly when copyable, reads "Copied!" while copied and
   * "Click to copy" otherwise, and is visible while hovered or copied.
   */
  function Render(p: InlineProps, s: Inline): (v: InlineView)
    ensures v.colorClass == ColorClass(ColorFor(p))
    ensures v.isButton <==> Copyable(p)
    ensures v.tabIndex == (if Copyable(p) then Some(0) else None)
    ensures v.tooltip.Some? <==> Copyable(p)
    ensures v.tooltip.Some? ==> (v.tooltip.value.0 == "Copied!" <==> s.copy.copied)
    ensures v.tooltip.Some? ==> (v.tooltip.value.0 == "Click to copy" <==> !s.copy.copied)
    ensures v.tooltip.Some? ==> (v.tooltip.value.1 <==> s.showTooltip || s.copy.copied)
  {
    InlineView(
      ColorClass(ColorFor(p)),
      Copyable(p),
      if Copyable(p) then Some(0) else None,
      if Copyable(p) then Some((if s.copy.copied then "Copied!" else "Click to copy", s.showTooltip || s.copy.copied))
      else None)
  }

  /** Pressing Enter on copyable code copies its shallow text and shows "Copied!". */
  lemma EnterCopies(p: InlineProps, s: Inline)
    requires Valid(s) && Copyable(p)
    ensures Step(p, s, KeyDown("Enter", true)).copied == Some(ShallowText(p.children))
    ensures Render(p, Step(p, s, KeyDown("Enter", true)).state).tooltip == Some(("Copied!", true))
  {
  }
}

=== FILE: notification.dfy ===
/**
 * `NotificationComponent` of src/designs/notification-component.tsx: a
 * bell whose badge counts notifications, with a first notification after
 * half a second, one more three seconds after each (re)start, a pause
 * button and an increment button.
 */
module Notification {
  import opened Wrappers
  import opened Text

  /**
   * The component: the count, the pause flag, and which of its two
   * timers are still due (the one-off first notification, and the
   * automatic increment armed by the `isPaused` effect).
   */
  datatype Notif = Notif(count: nat, isPaused: bool, initialDue: bool, autoDue: bool)

  datatype NotifEvent = InitialTimerFires | AutoTimerFires | PauseClicked | IncrementClicked

  /** The automatic increment is only ever armed while not paused. */
  predicate Valid(n: Notif) {
    n.autoDue ==> !n.isPaused
  }

  /** Mount: no notifications, not paused, both timers armed. */
  function Init(): (n: Notif)
    ensures Valid(n) && n.count == 0 && !n.isPaused && n.initialDue && n.autoDue
  {
    Notif(0, false, true, true)
  }

  /**
   * One event. The first timer sets the count to 1, whatever it was; the
   * automatic timer adds one and is not re-armed, because its effect only
   * runs again when `isPaused` changes; the pause button flips `isPaused`,
   * which clears the armed timer and arms a fresh one when un-pausing; the
   * increment button adds one.
   */
  function Step(n: Notif, ev: NotifEvent): (r: Notif)
    requires Valid(n)
    ensures Valid(r)
    ensures ev.InitialTimerFires? && n.initialDue ==> r == n.(count := 1, initialDue := false)
    ensures ev.AutoTimerFires? && n.autoDue ==> r == n.(count := n.count + 1, autoDue := false)
    ensures (ev.InitialTimerFires? && !n.initialDue) || (ev.AutoTimerFires? && !n.autoDue) ==> r == n
    ensures ev.PauseClicked? ==> r.isPaused == !n.isPaused && r.count == n.count && r.initialDue == n.initialDue
    ensures ev.PauseClicked? ==> (r.autoDue <==> !r.isPaused)
    ensures ev.IncrementClicked? ==> r == n.(count := n.count + 1)
  {
    match ev
    case InitialTimerFires => if n.initialDue then n.(count := 1, initialDue := false) else n
    case AutoTimerFires => if n.autoDue then n.(count := n.count + 1, autoDue := false) else n
    case PauseClicked => n.(isPaused := !n.isPaused, autoDue := n.isPaused)
    case IncrementClicked => n.(count := n.count + 1)
  }

  /** Events applied in order. */
  function Run(n: Notif, evs: seq<NotifEvent>): (r: Notif)
    requires Valid(n)
    ensures Valid(r)
    ensures !n.initialDue ==> !r.initialDue
    ensures r.count <= n.count + |evs|
    decreases |evs|
  {
    if |evs| == 0 then n else Run(Step(n, evs[0]), evs[1..])
  }

  /** The number of times `ev` occurs. */
  function Occurrences(evs: seq<NotifEvent>, ev: NotifEvent): nat {
    if |evs| == 0 then 0 else (if evs[0] == ev then 1 else 0) + Occurrences(evs[1..], ev)
  }

  /**
   * Between two presses of the pause button the automatic timer adds at
   * most one: with no pause clicks, no increment clicks and the first
   * timer gone, the count grows by at most one, and by none while paused.
   */
  lemma {:induction false} AtMostOneAutoIncrement(n: Notif, evs: seq<NotifEvent>)
    requires Valid(n) && !n.initialDue
    requires Occurrences(evs, PauseClicked) == 0 && Occurrences(evs, IncrementClicked) == 0
    ensures n.count <= Run(n, evs).count <= n.count + (if n.autoDue then 1 else 0)
    ensures n.isPaused ==> Run(n, evs).count == n.count
    ensures !Run(n, evs).initialDue && Run(n, evs).isPaused == n.isPaused
    decreases |evs|
  {
    if |evs| > 0 {
      AtMostOneAutoIncrement(Step(n, evs[0]), evs[1..]);
    }
  }

  /** The first timer overwrites: increments made before it fires are lost. */
  lemma InitialTimerOverwrites()
    ensures Run(Init(), [IncrementClicked, IncrementClicked, InitialTimerFires]).count == 1
  {
    var evs := [IncrementClicked, IncrementClicked, InitialTimerFires];
    assert evs[1..] == [IncrementClicked, InitialTimerFires];
    assert evs[1..][1..] == [InitialTimerFires];
    assert evs[1..][1..][1..] == [];
  }

  /** Pausing twice restores the pause flag and the count, and re-arms the automatic timer. */
  lemma PauseTwice(n: Notif)
    requires Valid(n)
    ensures Step(Step(n, PauseClicked), PauseClicked) == n.(autoDue := !n.isPaused)
  {
  }

  /**
   * The badge: absent at zero; otherwise the count in decimal up to 99,
   * and "99+" beyond.
   */
  function Badge(count: nat): (b: Option<string>)
    ensures b.None? <==> count == 0
    ensures b.Some? && count <= 99 ==> AllDigits(b.value) && DigitsValue(b.value) == count && |b.value| <= 2
    ensures b.Some? && count <= 99 ==> b.value[0] != '0'
    ensures count > 99 ==> b == Some("99+")
  {
    if count == 0 then None
    else if count <= 99 then
      assert |NatToString(count)| <= 2 by {
        if count >= 10 {
          assert NatToString(count) == NatToString(count / 10) + [DigitChar(count % 10)];
        }
      }
      NatToStringRoundTrip(count);
      Some(NatToString(count))
    else Some("99+")
  }

  /** The pause button shows "play" while paused and "pause" otherwise. */
  datatype Icon = PlayIcon | PauseIcon

  function PauseButtonIcon(n: Notif): (i: Icon)
    ensures i == PlayIcon <==> n.isPaused
  {
    if n.isPaused then PlayIcon else PauseIcon
  }
}

=== FILE: player.dfy ===
/**
 * `CustomVideoPlayer` in src/components/video.tsx, as two layers: the
 * browser's media element (what is really playing) and the component's
 * React state (what is drawn). Handlers write to the element and to the
 * state; the element reports back through media events, which the
 * component mirrors into its state.
 *
 * Times are whole seconds and volumes whole percent (the slider runs from
 * 0 to 100 in steps of 1, the keyboard moves by 0.1 = 10 percent).
 */
module VideoPlayer {
  import opened Wrappers
  import opened TimeFormat

  /** The props the player reads, with their defaults already applied. */
  datatype PlayerProps = PlayerProps(
    autoPlay: bool, loop: bool, muted: bool, controls: bool,
    playbackRate: real, fill: bool)

  /** The parts of the HTML media element the component touches. */
  datatype Media = Media(
    paused: bool, currentTime: nat, duration: nat,
    volume: nat, muted: bool, rate: real, loop: bool)

  /** The playback part of the component's React state. */
  datatype PlayUi = PlayUi(
    isPlaying: bool, isLoaded: bool, isBuffering: bool,
    currentTime: nat, duration: nat, hasStarted: bool)

  /** The sound part of the component's React state. */
  datatype SoundUi = SoundUi(volume: nat, isMuted: bool)

  /** The chrome part: controls visibility (with the hide-timer ref), fullscreen flag and speed menu. */
  datatype ChromeUi = ChromeUi(
    showControls: bool, hideTimerPending: bool, isFullscreen: bool,
    speed: real, showSpeedMenu: bool)

  datatype Player = Player(props: PlayerProps, media: Media, play: PlayUi, sound: SoundUi, chrome: ChromeUi)

  /** The events the component listens to on the media element (`progress` is left out). */
  datatype MediaEvent =
    | PlayEv | PauseEv | EndedEv | WaitingEv | CanPlayEv
    | TimeUpdateEv | DurationChangeEv | LoadedDataEv

  /** Everything that can happen to a mounted player. */
  datatype Action =
      // the user
    | ClickPlay                      // video surface, start button, overlay or bar button: all `togglePlay`
    | ClickMute
    | Slider(value: int)
    | ClickFullscreen(docFullscreen: bool)
    | ClickSpeedButton
    | ClickSpeedOption(rate: real)
    | PointerMove
    | PointerLeave
    | KeyDown(key: string, focused: bool, docFullscreen: bool)
      // the document, the timer and the element
    | FullscreenChanged(docFullscreen: bool)
    | HideTimerFires
    | Deliver(ev: MediaEvent)
    | Autoplay
    | PlaybackTick
    | MetadataLoaded(newDuration: nat)
      // the imperative handle
    | RefPlay | RefPause | RefToggle | RefSeek(time: int) | RefSetRate(rate: real)

  /** Which prop callback a step invokes. */
  datatype Callback = NoCallback | OnPlay | OnPause | OnEnded | OnTimeUpdate(time: nat, duration: nat)

  /** The new player, the callback invoked, and whether the key's default action was prevented. */
  datatype Output = Output(player: Player, callback: Callback, prevented: bool)

  const SpeedOptions: seq<real> := [0.25, 0.5, 0.75, 1.0, 1.25, 1.5, 1.75, 2.0]

  /** Seconds the arrow keys seek by, and percent the arrow keys change volume by. */
  const SeekStep := 5
  const VolumeStep := 10

  /** The element stays inside its media and volume range and keeps the loop prop. */
  predicate MediaOk(props: PlayerProps, m: Media) {
    m.volume <= 100 && m.currentTime <= m.duration && m.loop == props.loop
  }

  /**
   * The mute flags of both layers agree, and the drawn volume is the
   * element's or, while muted, zero.
   */
  predicate SoundOk(m: Media, s: SoundUi) {
    s.volume <= 100 && s.isMuted == m.muted && (s.volume == m.volume || (s.volume == 0 && s.isMuted))
  }

  /** No hide timer is ever armed in fill mode. */
  predicate ChromeOk(props: PlayerProps, c: ChromeUi) {
    c.hideTimerPending ==> !props.fill
  }

  /** What every reachable player satisfies. */
  predicate Valid(p: Player) {
    MediaOk(p.props, p.media) && SoundOk(p.media, p.sound) && ChromeOk(p.props, p.chrome)
  }

  /** The inputs the page can produce: the slider only reports 0..100, the menu only offers its options. */
  predicate ValidAction(a: Action) {
    match a
    case Slider(v) => 0 <= v <= 100
    case ClickSpeedOption(r) => r in SpeedOptions
    case _ => true
  }

  /** The state after mounting: paused, at full element volume, with the muted and autoplay props applied. */
  function Init(props: PlayerProps): (p: Player)
    ensures Valid(p) && p.props == props
    ensures p.media.paused && !p.play.isPlaying && p.chrome.showControls && !p.chrome.hideTimerPending
    ensures p.play.hasStarted <==> props.autoPlay
    ensures p.sound.isMuted <==> props.muted
    ensures p.sound.volume == (if props.muted then 0 else 100) && p.media.volume == 100
    ensures p.media.rate == props.playbackRate && p.chrome.speed == props.playbackRate
  {
    Player(props,
      Media(true, 0, 0, 100, props.muted, props.playbackRate, props.loop),
      PlayUi(false, false, false, 0, 0, props.autoPlay),
      SoundUi(if props.muted then 0 else 100, props.muted),
      ChromeUi(true, false, false, props.playbackRate, false))
  }

  // ---------------------------------------------------------------------
  // The media element
  // ---------------------------------------------------------------------

  /** Whether the element sits at the end of a non-looping media resource. */
  predicate AtEnd(m: Media) {
    m.duration > 0 && m.currentTime == m.duration && !m.loop
  }

  /** Setting `currentTime`: the element clamps the position into the media. */
  function SeekElement(m: Media, t: int): (r: Media)
    ensures r.currentTime <= r.duration
    ensures 0 <= t <= m.duration ==> r.currentTime == t
    ensures t < 0 ==> r.currentTime == 0
    ensures t > m.duration ==> r.currentTime == m.duration
    ensures r == m.(currentTime := r.currentTime)
  {
    m.(currentTime := if t < 0 then 0 else if t > m.duration then m.duration else t)
  }

  /** `play()`: unpauses, and starts over when playback had ended. */
  function PlayElement(m: Media): (r: Media)
    requires m.currentTime <= m.duration
    ensures !r.paused && r.currentTime <= r.duration
    ensures r.currentTime == (if m.paused && AtEnd(m) then 0 else m.currentTime)
    ensures r == m.(paused := false, currentTime := r.currentTime)
  {
    if m.paused && AtEnd(m) then m.(paused := false, currentTime := 0) else m.(paused := false)
  }

  /** `pause()`. */
  function PauseElement(m: Media): (r: Media)
    ensures r.paused && r == m.(paused := true)
  {
    m.(paused := true)
  }

  /** What `togglePlay` and the handle's `toggle` do to the element. */
  function ToggleElement(m: Media): (r: Media)
    requires m.currentTime <= m.duration
    ensures r.paused <==> !m.paused
    ensures r.currentTime <= r.duration && r == m.(paused := r.paused, currentTime := r.currentTime)
  {
    if m.paused then PlayElement(m) else PauseElement(m)
  }

  /** One second of playback: ends, loops back to the start, or advances. */
  function Advance(m: Media): (r: Media)
    requires m.currentTime <= m.duration
    ensures r.currentTime <= r.duration && r == m.(paused := r.paused, currentTime := r.currentTime)
    ensures m.paused ==> r == m
    ensures !m.paused && m.currentTime + 1 < m.duration ==> r.currentTime == m.currentTime + 1 && !r.paused
    ensures r.paused && !m.paused ==> AtEnd(r)
  {
    if m.paused || m.duration == 0 then m
    else if m.currentTime + 1 < m.duration then m.(currentTime := m.currentTime + 1)
    else if m.loop then m.(currentTime := 0)
    else m.(currentTime := m.duration, paused := true)
  }

  /** The browser learning the duration: the position is clamped into the new media length. */
  function LoadMetadata(m: Media, d: nat): (r: Media)
    ensures r.duration == d && r.currentTime <= d
    ensures r.currentTime == (if m.currentTime <= d then m.currentTime else d)
    ensures r == m.(duration := d, currentTime := r.currentTime)
  {
    m.(duration := d, currentTime := if m.currentTime <= d then m.currentTime else d)
  }

  /** The events the element fires for a change from `before` to `after`. */
  function Emitted(before: Media, after: Media): seq<MediaEvent> {
    (if before.currentTime != after.currentTime then [TimeUpdateEv] else [])
    + (if before.paused && !after.paused then [PlayEv] else [])
    + (if !before.paused && after.paused then
         (if AtEnd(after) then [PauseEv, EndedEv] else [PauseEv])
       else [])
  }

  // ---------------------------------------------------------------------
  // Handlers
  // ---------------------------------------------------------------------

  /**
   * `togglePlay`: marks the video as started, then plays a paused element
   * and pauses a playing one. Nothing drawn changes until the element's
   * `play` or `pause` event arrives.
   */
  function TogglePlay(p: Player): (r: Player)
    requires Valid(p)
    ensures Valid(r)
    ensures r.play.hasStarted
    ensures r.media.paused <==> !p.media.paused
    ensures r == p.(media := r.media, play := p.play.(hasStarted := true))
  {
    p.(media := ToggleElement(p.media), play := p.play.(hasStarted := true))
  }

  /**
   * `toggleMute`: flips the element's mute flag and the drawn one. Muting
   * draws the volume as zero but leaves the element's volume alone;
   * unmuting puts both back to full volume.
   */
  function ToggleMute(p: Player): (r: Player)
    requires Valid(p)
    ensures Valid(r)
    ensures r.sound.isMuted == !p.sound.isMuted && r.media.muted == !p.media.muted
    ensures !p.sound.isMuted ==> r.sound.volume == 0 && r.media.volume == p.media.volume
    ensures p.sound.isMuted ==> r.sound.volume == 100 && r.media.volume == 100
    ensures r == p.(media := r.media, sound := r.sound)
    ensures r.media == p.media.(muted := r.media.muted, volume := r.media.volume)
  {
    var muting := !p.sound.isMuted;
    p.(media := p.media.(muted := !p.media.muted, volume := if muting then p.media.volume else 100),
       sound := SoundUi(if muting then 0 else 100, muting))
  }

  /** `handleVolumeChange`: the slider value becomes both volumes; zero mutes and anything else unmutes. */
  function SetVolume(p: Player, v: nat): (r: Player)
    requires Valid(p) && v <= 100
    ensures Valid(r)
    ensures r.media.volume == v && r.sound.volume == v
    ensures r.media.muted <==> v == 0
    ensures r.sound.isMuted <==> v == 0
    ensures r == p.(media := r.media, sound := r.sound)
    ensures r.media == p.media.(muted := r.media.muted, volume := v)
  {
    p.(media := p.media.(volume := v, muted := v == 0), sound := SoundUi(v, v == 0))
  }

  /** The arrow keys' volume step: the element's volume moves by ten percent, clamped, and is drawn as it is. */
  function StepVolume(p: Player, up: bool): (r: Player)
    requires Valid(p)
    ensures Valid(r)
    ensures up ==> r.media.volume == Min(100, p.media.volume + VolumeStep)
    ensures !up ==> r.media.volume == Max(0, p.media.volume - VolumeStep)
    ensures r.sound.volume == r.media.volume && r.sound.isMuted == p.sound.isMuted
    ensures r == p.(media := p.media.(volume := r.media.volume), sound := r.sound)
  {
    var v := if up then Min(100, p.media.volume + VolumeStep) else Max(0, p.media.volume - VolumeStep);
    p.(media := p.media.(volume := v), sound := p.sound.(volume := v))
  }

  /**
   * `toggleFullscreen`: sets the drawn fullscreen flag to the negation of
   * `document.fullscreenElement`; the request and exit calls are not modelled.
   */
  function ToggleFullscreen(p: Player, docFullscreen: bool): (r: Player)
    requires Valid(p)
    ensures Valid(r)
    ensures r.chrome.isFullscreen <==> !docFullscreen
    ensures r == p.(chrome := p.chrome.(isFullscreen := r.chrome.isFullscreen))
  {
    p.(chrome := p.chrome.(isFullscreen := !docFullscreen))
  }

  /** `handleSpeedChange`: sets the element's rate and the drawn speed, and closes the menu. */
  function SetSpeed(p: Player, rate: real): (r: Player)
    requires Valid(p)
    ensures Valid(r)
    ensures r.media.rate == rate && r.chrome.speed == rate && !r.chrome.showSpeedMenu
    ensures r == p.(media := p.media.(rate := rate), chrome := r.chrome)
    ensures r.chrome == p.chrome.(speed := rate, showSpeedMenu := false)
  {
    p.(media := p.media.(rate := rate), chrome := p.chrome.(speed := rate, showSpeedMenu := false))
  }

  /** `resetControlsTimeout`: shows the controls and arms the hide timer only while playing outside fill mode. */
  function ShowControlsAndArm(p: Player): (r: Player)
    requires Valid(p)
    ensures Valid(r)
    ensures r.chrome.showControls
    ensures r.chrome.hideTimerPending <==> p.play.isPlaying && !p.props.fill
    ensures r == p.(chrome := r.chrome)
  {
    p.(chrome := p.chrome.(showControls := true, hideTimerPending := p.play.isPlaying && !p.props.fill))
  }

  function Min(a: int, b: int): int { if a <= b then a else b }
  function Max(a: int, b: int): int { if a >= b then a else b }

  /** The keys the player handles, and what each one does. */
  datatype KeyCommand = KeyToggle | KeyBack | KeyForward | KeyLouder | KeyQuieter | KeyMute | KeyFullscreen

  /** The `switch (e.key)`: which command a key means; every other key (including capitals) means none. */
  function KeyCommandOf(key: string): (c: Option<KeyCommand>)
    ensures c == Some(KeyToggle) <==> key == " " || key == "k"
    ensures c == Some(KeyMute) <==> key == "m"
    ensures c == Some(KeyFullscreen) <==> key == "f"
    ensures c == Some(KeyBack) <==> key == "ArrowLeft"
    ensures c == Some(KeyForward) <==> key == "ArrowRight"
    ensures c == Some(KeyLouder) <==> key == "ArrowUp"
    ensures c == Some(KeyQuieter) <==> key == "ArrowDown"
  {
    if key == " " || key == "k" then Some(KeyToggle)
    else if key == "ArrowLeft" then Some(KeyBack)
    else if key == "ArrowRight" then Some(KeyForward)
    else if key == "ArrowUp" then Some(KeyLouder)
    else if key == "ArrowDown" then Some(KeyQuieter)
    else if key == "m" then Some(KeyMute)
    else if key == "f" then Some(KeyFullscreen)
    else None
  }

  /** Runs one keyboard command. */
  function RunKey(p: Player, c: KeyCommand, docFullscreen: bool): (r: Player)
    requires Valid(p)
    ensures Valid(r) && r.props == p.props
    ensures p.play.hasStarted ==> r.play.hasStarted
  {
    match c
    case KeyToggle => TogglePlay(p)
    case KeyBack => p.(media := SeekElement(p.media, p.media.currentTime - SeekStep))
    case KeyForward => p.(media := SeekElement(p.media, p.media.currentTime + SeekStep))
    case KeyLouder => StepVolume(p, true)
    case KeyQuieter => StepVolume(p, false)
    case KeyMute => ToggleMute(p)
    case KeyFullscreen => ToggleFullscreen(p, docFullscreen)
  }

  /**
   * The document `keydown` listener: only while focus is inside the
   * player, and only for its keys, does it act and prevent the default.
   */
  function HandleKey(p: Player, key: string, focused: bool, docFullscreen: bool): (o: Output)
    requires Valid(p)
    ensures Valid(o.player) && o.player.props == p.props && o.callback == NoCallback
    ensures o.prevented <==> focused && KeyCommandOf(key).Some?
    ensures !o.prevented ==> o.player == p
    ensures p.play.hasStarted ==> o.player.play.hasStarted
  {
    if !focused then Output(p, NoCallback, false)
    else match KeyCommandOf(key)
      case None => Output(p, NoCallback, false)
      case Some(c) => Output(RunKey(p, c, docFullscreen), NoCallback, true)
  }

  /** The media event listeners: mirror the element into the playback state and pick the prop callback. */
  function OnMediaEvent(u: PlayUi, m: Media, ev: MediaEvent): (r: (PlayUi, Callback))
    ensures r.0.hasStarted == u.hasStarted
  {
    match ev
    case PlayEv => (u.(isPlaying := true), OnPlay)
    case PauseEv => (u.(isPlaying := false), OnPause)
    case EndedEv => (u.(isPlaying := false), OnEnded)
    case WaitingEv => (u.(isBuffering := true), NoCallback)
    case CanPlayEv => (u.(isBuffering := false), NoCallback)
    case TimeUpdateEv => (u.(currentTime := m.currentTime), OnTimeUpdate(m.currentTime, m.duration))
    case DurationChangeEv => (u.(duration := m.duration), NoCallback)
    case LoadedDataEv => (u.(isLoaded := true, duration := m.duration), NoCallback)
  }

  /** Delivers one media event to the player. */
  function Receive(p: Player, ev: MediaEvent): (o: Output)
    requires Valid(p)
    ensures Valid(o.player) && !o.prevented
    ensures o.player == p.(play := o.player.play)
  {
    var (u, cb) := OnMediaEvent(p.play, p.media, ev);
    Output(p.(play := u), cb, false)
  }

  /** What the browser and the document do on their own. */
  function Environment(p: Player, a: Action): (r: Player)
    requires Valid(p)
    requires a.FullscreenChanged? || a.HideTimerFires? || a.Autoplay? || a.PlaybackTick? || a.MetadataLoaded?
    ensures Valid(r) && r.props == p.props && r.play == p.play && r.sound == p.sound
  {
    match a
    case FullscreenChanged(fs) => p.(chrome := p.chrome.(isFullscreen := fs))
    case HideTimerFires =>
      if p.chrome.hideTimerPending then p.(chrome := p.chrome.(showControls := false, hideTimerPending := false)) else p
    case Autoplay => if p.props.autoPlay && p.media.paused then p.(media := PlayElement(p.media)) else p
    case PlaybackTick => p.(media := Advance(p.media))
    case MetadataLoaded(d) => p.(media := LoadMetadata(p.media, d))
  }

  /** What the imperative handle's methods do: they act on the element only, apart from the drawn speed. */
  function RefCall(p: Player, a: Action): (r: Player)
    requires Valid(p)
    requires a.RefPlay? || a.RefPause? || a.RefToggle? || a.RefSeek? || a.RefSetRate?
    ensures Valid(r) && r.props == p.props && r.play == p.play && r.sound == p.sound
  {
    match a
    case RefPlay => p.(media := PlayElement(p.media))
    case RefPause => p.(media := PauseElement(p.media))
    case RefToggle => p.(media := ToggleElement(p.media))
    case RefSeek(t) => p.(media := SeekElement(p.media, t))
    case RefSetRate(r) => p.(media := p.media.(rate := r), chrome := p.chrome.(speed := r))
  }

  /** One action. */
  function Step(p: Player, a: Action): (o: Output)
    requires Valid(p) && ValidAction(a)
    ensures Valid(o.player) && o.player.props == p.props
    ensures p.play.hasStarted ==> o.player.play.hasStarted
  {
    match a
    case ClickPlay => Output(TogglePlay(p), NoCallback, false)
    case ClickMute => Output(ToggleMute(p), NoCallback, false)
    case Slider(v) => Output(SetVolume(p, v), NoCallback, false)
    case ClickFullscreen(fs) => Output(ToggleFullscreen(p, fs), NoCallback, false)
    case ClickSpeedButton => Output(p.(chrome := p.chrome.(showSpeedMenu := !p.chrome.showSpeedMenu)), NoCallback, false)
    case ClickSpeedOption(r) => Output(SetSpeed(p, r), NoCallback, false)
    case PointerMove => Output(ShowControlsAndArm(p), NoCallback, false)
    case PointerLeave =>
      Output(if p.play.isPlaying then p.(chrome := p.chrome.(showControls := false)) else p, NoCallback, false)
    case KeyDown(k, focused, fs) => HandleKey(p, k, focused, fs)
    case Deliver(ev) => Receive(p, ev)
    case FullscreenChanged(_) => Output(Environment(p, a), NoCallback, false)
    case HideTimerFires => Output(Environment(p, a), NoCallback, false)
    case Autoplay => Output(Environment(p, a), NoCallback, false)
    case PlaybackTick => Output(Environment(p, a), NoCallback, false)
    case MetadataLoaded(_) => Output(Environment(p, a), NoCallback, false)
    case RefPlay => Output(RefCall(p, a), NoCallback, false)
    case RefPause => Output(RefCall(p, a), NoCallback, false)
    case RefToggle => Output(RefCall(p, a), NoCallback, false)
    case RefSeek(_) => Output(RefCall(p, a), NoCallback, false)
    case RefSetRate(_) => Output(RefCall(p, a), NoCallback, false)
  }

  /** Every action keeps the player valid. */
  predicate AllValid(acts: seq<Action>) {
    forall i :: 0 <= i < |acts| ==> ValidAction(acts[i])
  }

  /** A sequence of actions, applied in order; returns the final player. */
  function Run(p: Player, acts: seq<Action>): (r: Player)
    requires Valid(p) && AllValid(acts)
    ensures r.props == p.props
    decreases |acts|
  {
    if |acts| == 0 then p else Run(Step(p, acts[0]).player, acts[1..])
  }

  /** The element events delivered in order; returns the final player. */
  function DeliverAll(p: Player, evs: seq<MediaEvent>): (r: Player)
    requires Valid(p)
    ensures Valid(r) && r == p.(play := r.play) && r.play.hasStarted == p.play.hasStarted
    decreases |evs|
  {
    if |evs| == 0 then p else DeliverAll(Receive(p, evs[0]).player, evs[1..])
  }

  // ---------------------------------------------------------------------
  // Properties
  // ---------------------------------------------------------------------

  /** Whatever happens, the player stays valid, and once started it stays started. */
  lemma {:induction false} RunStaysValid(p: Player, acts: seq<Action>)
    requires Valid(p) && AllValid(acts)
    ensures Valid(Run(p, acts)) && Run(p, acts).props == p.props
    ensures p.play.hasStarted ==> Run(p, acts).play.hasStarted
    ensures ClickPlay in acts ==> Run(p, acts).play.hasStarted
    decreases |acts|
  {
    if |acts| > 0 {
      var q := Step(p, acts[0]).player;
      assert AllValid(acts[1..]) by {
        forall i | 0 <= i < |acts[1..]| ensures ValidAction(acts[1..][i]) {
          assert acts[1..][i] == acts[i + 1];
        }
      }
      RunStaysValid(q, acts[1..]);
      if ClickPlay in acts && acts[0] != ClickPlay {
        var i :| 0 <= i < |acts| && acts[i] == ClickPlay;
        assert acts[1..][i - 1] == ClickPlay;
      }
    }
  }

  /** Away from the end of the media, playing and pausing (in either order) leaves the element as it was. */
  lemma TogglePlayTwice(p: Player)
    requires Valid(p) && !AtEnd(p.media)
    ensures TogglePlay(TogglePlay(p)) == p.(play := p.play.(hasStarted := true))
  {
  }

  /** Muting and unmuting brings the sound back at full volume in both layers, whatever the volume was before. */
  lemma MuteThenUnmute(p: Player)
    requires Valid(p) && !p.sound.isMuted
    ensures var q := ToggleMute(ToggleMute(p));
      !q.sound.isMuted && !q.media.muted && q.sound.volume == 100 && q.media.volume == 100
  {
  }

  /** Dragging the slider to zero mutes, and the mute button then restores full volume. */
  lemma SliderZeroThenUnmute(p: Player)
    requires Valid(p)
    ensures SetVolume(p, 0).sound.isMuted
    ensures var q := ToggleMute(SetVolume(p, 0));
      !q.sound.isMuted && !q.media.muted && q.sound.volume == 100 && q.media.volume == 100
  {
  }

  /** The arrow keys seek by five seconds, stopping at the start and at the end; nothing else changes. */
  lemma KeySeek(p: Player, fs: bool)
    requires Valid(p)
    ensures var o := HandleKey(p, "ArrowLeft", true, fs);
      o.prevented && o.player == p.(media := p.media.(currentTime := Max(0, p.media.currentTime - 5)))
    ensures var o := HandleKey(p, "ArrowRight", true, fs);
      o.prevented && o.player == p.(media := p.media.(currentTime := Min(p.media.duration, p.media.currentTime + 5)))
  {
  }

  /** Two seconds from the end, skipping forward stops exactly at the end. */
  lemma KeySeekNearEnd(p: Player)
    requires Valid(p) && p.media.duration >= 2 && p.media.currentTime == p.media.duration - 2
    ensures HandleKey(p, "ArrowRight", true, false).player.media.currentTime == p.media.duration
  {
    KeySeek(p, false);
  }

  /**
   * The up and down arrows move the element's volume by ten percent,
   * clamped to 0..100, draw that volume, and leave the mute flags alone.
   */
  lemma KeyVolume(p: Player, fs: bool)
    requires Valid(p)
    ensures var q := HandleKey(p, "ArrowUp", true, fs).player;
      q.media.volume == Min(100, p.media.volume + 10) && q.sound.volume == q.media.volume
      && q.sound.isMuted == p.sound.isMuted && q.media.muted == p.media.muted
    ensures var q := HandleKey(p, "ArrowDown", true, fs).player;
      q.media.volume == Max(0, p.media.volume - 10) && q.sound.volume == q.media.volume
      && q.sound.isMuted == p.sound.isMuted && q.media.muted == p.media.muted
  {
  }

  /** Keys are case-sensitive: a capital K, M or F is not handled and its default is not prevented. */
  lemma CapitalKeysIgnored(p: Player)
    requires Valid(p)
    ensures HandleKey(p, "K", true, false) == Output(p, NoCallback, false)
    ensures HandleKey(p, "M", true, false) == Output(p, NoCallback, false)
    ensures HandleKey(p, "F", true, false) == Output(p, NoCallback, false)
  {
  }

  /** The drawn playback state agrees with the element. */
  predicate Synced(p: Player) {
    p.play.isPlaying == !p.media.paused && p.play.currentTime == p.media.currentTime
  }

  /** Delivering one batch of events after another is delivering them all. */
  lemma {:induction false} DeliverAllAppend(p: Player, xs: seq<MediaEvent>, ys: seq<MediaEvent>)
    requires Valid(p)
    ensures DeliverAll(p, xs + ys) == DeliverAll(DeliverAll(p, xs), ys)
    decreases |xs|
  {
    if |xs| > 0 {
      assert (xs + ys)[1..] == xs[1..] + ys;
      DeliverAllAppend(Receive(p, xs[0]).player, xs[1..], ys);
    } else {
      assert xs + ys == ys;
    }
  }

  /** Delivering a single event is receiving it. */
  lemma DeliverOne(p: Player, ev: MediaEvent)
    requires Valid(p)
    ensures DeliverAll(p, [ev]) == Receive(p, ev).player
  {
    assert [ev][1..] == [];
  }

  /**
   * Whatever the element did since `before`, delivering the events it
   * fires for that change brings the drawn playing flag and position back
   * in line with it.
   */
  lemma EmittedResyncs(p: Player, before: Media)
    requires Valid(p)
    requires p.play.isPlaying == !before.paused && p.play.currentTime == before.currentTime
    ensures Synced(DeliverAll(p, Emitted(before, p.media)))
  {
    var a := if before.currentTime != p.media.currentTime then [TimeUpdateEv] else [];
    var b := if before.paused && !p.media.paused then [PlayEv] else [];
    var c := if !before.paused && p.media.paused then
         (if AtEnd(p.media) then [PauseEv, EndedEv] else [PauseEv])
       else [];
    assert Emitted(before, p.media) == a + b + c;
    DeliverAllAppend(p, a + b, c);
    DeliverAllAppend(p, a, b);
    var pa := DeliverAll(p, a);
    if |a| == 1 { DeliverOne(p, TimeUpdateEv); }
    assert pa.play.currentTime == p.media.currentTime && pa.play.isPlaying == p.play.isPlaying;
    var pb := DeliverAll(pa, b);
    if |b| == 1 { DeliverOne(pa, PlayEv); }
    assert pb.play.currentTime == p.media.currentTime;
    assert pb.play.isPlaying == !p.media.paused || (!before.paused && p.media.paused);
    if |c| == 1 {
      DeliverOne(pb, PauseEv);
    } else if |c| == 2 {
      DeliverAllAppend(pb, [PauseEv], [EndedEv]);
      assert c == [PauseEv] + [EndedEv];
      DeliverOne(pb, PauseEv);
      DeliverOne(Receive(pb, PauseEv).player, EndedEv);
    }
  }

  /** Toggling play and then delivering what the element fires flips the drawn playing flag. */
  lemma TogglePlaySettles(p: Player)
    requires Valid(p) && Synced(p)
    ensures var q := TogglePlay(p);
      var r := DeliverAll(q, Emitted(p.media, q.media));
      Synced(r) && r.play.isPlaying == !p.play.isPlaying && r.play.hasStarted
  {
    var q := TogglePlay(p);
    EmittedResyncs(q, p.media);
  }

  /** In fill mode the hide timer is never armed, so it never hides anything. */
  lemma FillNeverArmsTimer(p: Player)
    requires Valid(p) && p.props.fill
    ensures !ShowControlsAndArm(p).chrome.hideTimerPending
    ensures Step(p, HideTimerFires).player == p
  {
  }

  /**
   * The hide timer is not cancelled by pausing: after a pointer move while
   * playing, pausing with the space bar and letting the timer fire hides
   * the controls of a paused video.
   */
  lemma PausedControlsStillHide(p: Player)
    requires Valid(p) && Synced(p) && p.play.isPlaying && !p.props.fill
    ensures var acts := [PointerMove, KeyDown(" ", true, false), Deliver(PauseEv), HideTimerFires];
      AllValid(acts) && !Run(p, acts).play.isPlaying && !Run(p, acts).chrome.showControls
  {
    var acts := [PointerMove, KeyDown(" ", true, false), Deliver(PauseEv), HideTimerFires];
    var p1 := Step(p, PointerMove).player;
    assert p1.chrome.hideTimerPending;
    var p2 := Step(p1, KeyDown(" ", true, false)).player;
    assert p2.chrome == p1.chrome;
    var p3 := Step(p2, Deliver(PauseEv)).player;
    assert p3.chrome == p1.chrome && !p3.play.isPlaying;
    var p4 := Step(p3, HideTimerFires).player;
    assert !p4.chrome.showControls && !p4.play.isPlaying;
    assert acts[1..] == [KeyDown(" ", true, false), Deliver(PauseEv), HideTimerFires];
    assert acts[1..][1..] == [Deliver(PauseEv), HideTimerFires];
    assert acts[1..][1..][1..] == [HideTimerFires];
    assert Run(p4, []) == p4;
  }

  /** The imperative handle's `play` starts the element but does not mark the video as started. */
  lemma RefPlayKeepsStartButton(p: Player)
    requires Valid(p)
    ensures var q := Step(p, RefPlay).player;
      !q.media.paused && q.play.hasStarted == p.play.hasStarted
  {
  }
}

=== FILE: player_view.dfy ===
/**
 * What `CustomVideoPlayer` in src/components/video.tsx draws for a player
 * state: which overlays and controls are on screen, and their labels.
 */
module PlayerView {
  import opened Wrappers
  import opened TimeFormat
  import opened VideoPlayer

  /** The parts of the player's markup that depend on its state. */
  datatype View = View(
    startButton: bool, pausedOverlay: bool, spinner: bool,
    controlBar: bool, speedMenu: bool,
    playLabel: string, muteLabel: string, volumeIconMuted: bool,
    sliderValue: nat, timeLabel: string, fullscreenLabel: string, progress: real)

  /** `progressPercent`: how far through the media the drawn position is, zero while the duration is unknown. */
  function ProgressPercent(t: nat, d: nat): (r: real)
    ensures d == 0 ==> r == 0.0
    ensures t <= d ==> 0.0 <= r <= 100.0
    ensures d > 0 && t == d ==> r == 100.0
  {
    if d > 0 then (t as real / d as real) * 100.0 else 0.0
  }

  /** The `current / duration` label of the control bar. */
  function TimeLabel(t: nat, d: nat): (r: string)
    ensures var cur, dur := FormatTime(Finite(t as real)), FormatTime(Finite(d as real));
      && |r| == |cur| + 3 + |dur|
      && r[|cur|..|cur| + 3] == " / "
      && ReadClock(r[..|cur|]) == Some((t / 60, t % 60))
      && ReadClock(r[|r| - |dur|..]) == Some((d / 60, d % 60))
  {
    var cur, dur := FormatTime(Finite(t as real)), FormatTime(Finite(d as real));
    WholeReadsBack(t);
    WholeReadsBack(d);
    var r := cur + " / " + dur;
    assert r[..|cur|] == cur;
    assert r[|cur|..|cur| + 3] == " / ";
    assert r[|r| - |dur|..] == dur;
    r
  }

  /**
   * The view. Fill mode draws only the video, the buffering spinner, a
   * clickable paused overlay and the start button; the standard view adds
   * the control bar, gated on the controls prop, on having started and on
   * the controls being shown, and hides the paused overlay while buffering.
   */
  function Render(p: Player): (v: View)
    ensures v.startButton <==> !p.play.hasStarted
    ensures v.controlBar ==> !v.startButton && !p.props.fill && p.props.controls && p.chrome.showControls
    ensures !p.props.fill && p.props.controls && p.play.hasStarted && p.chrome.showControls ==> v.controlBar
    ensures v.speedMenu <==> v.controlBar && p.chrome.showSpeedMenu
    ensures v.pausedOverlay ==> !v.startButton && !p.play.isPlaying
    ensures v.pausedOverlay && !p.props.fill ==> !v.spinner
    ensures v.spinner <==> p.play.isBuffering
    ensures v.volumeIconMuted <==> p.sound.isMuted || p.sound.volume == 0
    ensures p.play.currentTime <= p.play.duration ==> 0.0 <= v.progress <= 100.0
  {
    var u := p.play;
    var bar := !p.props.fill && p.props.controls && u.hasStarted && p.chrome.showControls;
    View(
      !u.hasStarted,
      !u.isPlaying && u.hasStarted && (p.props.fill || !u.isBuffering),
      u.isBuffering,
      bar,
      bar && p.chrome.showSpeedMenu,
      if u.isPlaying then "Pause" else "Play",
      if p.sound.isMuted then "Unmute" else "Mute",
      p.sound.isMuted || p.sound.volume == 0,
      p.sound.volume,
      TimeLabel(u.currentTime, u.duration),
      if p.chrome.isFullscreen then "Exit fullscreen" else "Enter fullscreen",
      ProgressPercent(u.currentTime, u.duration))
  }

  /**
   * Without autoplay a freshly mounted player shows only its start button;
   * with autoplay and controls outside fill mode the control bar is up at once;
   * in fill mode there is never a control bar.
   */
  lemma InitialView(props: PlayerProps)
    ensures !props.autoPlay ==> var v := Render(Init(props));
      v.startButton && !v.controlBar && !v.pausedOverlay && !v.speedMenu
    ensures props.autoPlay && props.controls && !props.fill ==> var v := Render(Init(props));
      !v.startButton && v.controlBar && v.pausedOverlay && v.playLabel == "Play"
    ensures props.fill ==> !Render(Init(props)).controlBar
  {
  }

  /** Any play toggle removes the start button for good. */
  lemma ToggleRemovesStartButton(p: Player, acts: seq<Action>)
    requires Valid(p) && AllValid(acts) && ClickPlay in acts
    ensures !Render(Run(p, acts)).startButton
  {
    RunStaysValid(p, acts);
  }
}

=== FILE: react_node.dfy ===
/**
 * The slice of React's `ReactNode` the MDX components inspect, the text
 * extractors of src/components/mdx/code-block.tsx, code-tabs.tsx (the two
 * are identical) and inline-code.tsx, and `Children.toArray`.
 */
module ReactNode {
  import opened Text

  /**
   * A React node: text, an (integer) number, a boolean, null, undefined,
   * an array of nodes, or an element of some component with a `label`
   * prop and a `children` prop.
   */
  datatype Node =
    | Str(s: string)
    | Num(n: int)
    | Bool(b: bool)
    | Null
    | Undefined
    | Arr(items: seq<Node>)
    | Elem(component: string, labelProp: string, children: Node)

  /** JavaScript truthiness of a node: arrays and elements are always truthy. */
  predicate Truthy(n: Node) {
    match n
    case Str(s) => s != ""
    case Num(k) => k != 0
    case Bool(b) => b
    case Null => false
    case Undefined => false
    case Arr(_) => true
    case Elem(_, _, _) => true
  }

  /**
   * `extractTextFromChildren`: a string is itself and a number its decimal
   * form (checked before falsiness, so 0 gives "0"); other falsy values
   * give ""; an array gives its items' texts joined with ""; an element
   * gives the text of its children; anything else gives "".
   */
  function ExtractText(n: Node): (r: string)
    ensures n.Str? ==> r == n.s
    ensures n.Num? ==> r == IntToString(n.n)
    ensures n.Null? || n.Undefined? || n.Bool? ==> r == ""
    decreases n, 1
  {
    match n
    case Str(s) => s
    case Num(k) => IntToString(k)
    case Arr(xs) => ExtractAll(xs)
    case Elem(_, _, c) => ExtractText(c)
    case _ => ""
  }

  /** `children.map(extractTextFromChildren).join("")`. */
  function ExtractAll(xs: seq<Node>): (r: string)
    ensures |xs| == 0 ==> r == ""
    ensures |xs| == 1 ==> r == ExtractText(xs[0])
    decreases xs, 0
  {
    if |xs| == 0 then "" else ExtractText(xs[0]) + ExtractAll(xs[1..])
  }

  /** The `extractText` of inline-code.tsx: like `ExtractText`, but an element gives "" without being entered. */
  function ShallowText(n: Node): (r: string)
    ensures n.Str? ==> r == n.s
    ensures n.Num? ==> r == IntToString(n.n)
    ensures n.Elem? || n.Null? || n.Undefined? || n.Bool? ==> r == ""
    decreases n, 1
  {
    match n
    case Str(s) => s
    case Num(k) => IntToString(k)
    case Arr(xs) => ShallowAll(xs)
    case _ => ""
  }

  function ShallowAll(xs: seq<Node>): (r: string)
    ensures (forall i :: 0 <= i < |xs| ==> xs[i].Elem?) ==> r == ""
    decreases xs, 0
  {
    if |xs| == 0 then "" else ShallowText(xs[0]) + ShallowAll(xs[1..])
  }

  /** The inline text of an array is the text of its first part followed by the text of the rest. */
  lemma {:induction false} ShallowAllAppend(a: seq<Node>, b: seq<Node>)
    ensures ShallowAll(a + b) == ShallowAll(a) + ShallowAll(b)
    decreases |a|
  {
    if |a| == 0 {
      assert a + b == b;
    } else {
      assert (a + b)[0] == a[0];
      assert (a + b)[1..] == a[1..] + b;
      assert ShallowAll(a + b) == ShallowText(a[0]) + ShallowAll(a[1..] + b);
      ShallowAllAppend(a[1..], b);
    }
  }

  /** In a mixed array the inline extractor keeps the text children and skips the elements. */
  lemma MixedInline(s: string, component: string, labelProp: string, c: Node, k: int)
    ensures ShallowText(Arr([Str(s), Elem(component, labelProp, c), Num(k)])) == s + IntToString(k)
  {
    var xs := [Str(s), Elem(component, labelProp, c), Num(k)];
    var tail := [Num(k)];
    assert xs[1..] == [Elem(component, labelProp, c)] + tail;
    assert ShallowAll(tail) == IntToString(k) + ShallowAll([]) by { assert tail[1..] == []; }
    assert ShallowAll([Elem(component, labelProp, c)] + tail) == "" + ShallowAll(tail) by {
      assert ([Elem(component, labelProp, c)] + tail)[1..] == tail;
    }
    assert ShallowAll(xs) == s + ShallowAll(xs[1..]);
  }

  /** A tree without elements anywhere in it. */
  predicate ElementFree(n: Node)
    decreases n
  {
    match n
    case Elem(_, _, _) => false
    case Arr(xs) => forall i :: 0 <= i < |xs| ==> ElementFree(xs[i])
    case _ => true
  }

  /** The text of an array is the text of its first part followed by the text of the rest. */
  lemma {:induction false} ExtractAllAppend(a: seq<Node>, b: seq<Node>)
    ensures ExtractAll(a + b) == ExtractAll(a) + ExtractAll(b)
    decreases |a|
  {
    if |a| == 0 {
      assert a + b == b;
    } else {
      ExtractAllAppend(a[1..], b);
      assert a == [a[0]] + a[1..];
      assert a + b == [a[0]] + (a[1..] + b);
      ExtractAllCons(a[0], a[1..]);
      ExtractAllCons(a[0], a[1..] + b);
    }
  }

  lemma ExtractAllCons(x: Node, xs: seq<Node>)
    ensures ExtractAll([x] + xs) == ExtractText(x) + ExtractAll(xs)
  {
    assert ([x] + xs)[1..] == xs;
  }

  /** Splitting an array into two arrays does not change its text. */
  lemma ExtractSplit(a: seq<Node>, b: seq<Node>)
    ensures ExtractText(Arr(a + b)) == ExtractText(Arr([Arr(a), Arr(b)]))
  {
    ExtractAllAppend(a, b);
    assert [Arr(a), Arr(b)][1..] == [Arr(b)];
    assert [Arr(b)][1..] == [];
    assert ExtractAll([Arr(b)]) == ExtractAll(b) + ExtractAll([]);
    assert ExtractAll([Arr(a), Arr(b)]) == ExtractAll(a) + ExtractAll([Arr(b)]);
  }

  /** The inline text is never longer than the deep text: it only leaves elements out. */
  lemma {:induction false} ShallowNotLonger(n: Node)
    ensures |ShallowText(n)| <= |ExtractText(n)|
    decreases n, 1
  {
    match n
    case Arr(xs) => ShallowAllNotLonger(xs);
    case _ =>
  }

  lemma {:induction false} ShallowAllNotLonger(xs: seq<Node>)
    ensures |ShallowAll(xs)| <= |ExtractAll(xs)|
    decreases xs, 0
  {
    if |xs| > 0 {
      ShallowNotLonger(xs[0]);
      ShallowAllNotLonger(xs[1..]);
    }
  }

  /** The inline extractor agrees with the deep one on trees without elements. */
  lemma {:induction false} ShallowAgrees(n: Node)
    requires ElementFree(n)
    ensures ShallowText(n) == ExtractText(n)
    decreases n, 1
  {
    match n
    case Arr(xs) => ShallowAllAgrees(xs);
    case _ =>
  }

  lemma {:induction false} ShallowAllAgrees(xs: seq<Node>)
    requires forall i :: 0 <= i < |xs| ==> ElementFree(xs[i])
    ensures ShallowAll(xs) == ExtractAll(xs)
    decreases xs, 0
  {
    if |xs| > 0 {
      ShallowAgrees(xs[0]);
      ShallowAllAgrees(xs[1..]);
    }
  }

  /** Where they differ: the deep extractor reads an element's children, the inline one ignores them. */
  lemma ElementTexts(component: string, labelProp: string, c: Node)
    ensures ExtractText(Elem(component, labelProp, c)) == ExtractText(c)
    ensures ShallowText(Elem(component, labelProp, c)) == ""
  {
  }

  /** Zero is a number before it is falsy, so it extracts as "0"; the empty values extract as "". */
  lemma ExtractEdgeCases()
    ensures ExtractText(Num(0)) == "0" && ShallowText(Num(0)) == "0"
    ensures ExtractText(Null) == "" && ExtractText(Undefined) == ""
    ensures ExtractText(Bool(true)) == "" && ExtractText(Bool(false)) == ""
    ensures ExtractText(Arr([])) == ""
  {
    assert NatToString(0) == "0";
  }

  /** React keeps strings, numbers and elements as children; null, undefined and booleans are dropped. */
  predicate Kept(n: Node) {
    n.Str? || n.Num? || n.Elem?
  }

  /** `Children.toArray`: nested arrays flattened, null, undefined and booleans dropped, order kept. */
  function ToArray(n: Node): (r: seq<Node>)
    ensures forall i :: 0 <= i < |r| ==> Kept(r[i])
    decreases n, 1
  {
    match n
    case Arr(xs) => ToArrayAll(xs)
    case _ => if Kept(n) then [n] else []
  }

  function ToArrayAll(xs: seq<Node>): (r: seq<Node>)
    ensures forall i :: 0 <= i < |r| ==> Kept(r[i])
    decreases xs, 0
  {
    if |xs| == 0 then [] else ToArray(xs[0]) + ToArrayAll(xs[1..])
  }

  /** Flattening a concatenation flattens each part: the children keep their order. */
  lemma {:induction false} ToArrayAllAppend(a: seq<Node>, b: seq<Node>)
    ensures ToArrayAll(a + b) == ToArrayAll(a) + ToArrayAll(b)
    decreases |a|
  {
    if |a| == 0 {
      assert a + b == b;
    } else {
      assert (a + b)[0] == a[0];
      assert (a + b)[1..] == a[1..] + b;
      ToArrayAllAppend(a[1..], b);
    }
  }

  /** Flattening keeps the text: the children's array reads the same as the original node. */
  lemma {:induction false} ToArrayKeepsText(n: Node)
    ensures ExtractAll(ToArray(n)) == ExtractText(n)
    decreases n, 1
  {
    match n
    case Arr(xs) => ToArrayAllKeepsText(xs);
    case Str(_) => assert [n][1..] == [];
    case Num(_) => assert [n][1..] == [];
    case Elem(_, _, _) => assert [n][1..] == [];
    case _ =>
  }

  lemma {:induction false} ToArrayAllKeepsText(xs: seq<Node>)
    ensures ExtractAll(ToArrayAll(xs)) == ExtractAll(xs)
    decreases xs, 0
  {
    if |xs| > 0 {
      ToArrayKeepsText(xs[0]);
      ToArrayAllKeepsText(xs[1..]);
      ExtractAllAppend(ToArray(xs[0]), ToArrayAll(xs[1..]));
    }
  }
}

=== FILE: seo.dfy ===
/**
 * `seo` in src/lib/seo.ts: the ordered list of meta tags for a page,
 * built from a title and optional description, keywords, image and URL.
 */
module Seo {
  import opened Wrappers
  import opened Text

  /** A meta-tag record: a page title, an Open Graph `property` tag, or a `name` tag. */
  datatype Meta =
    | TitleMeta(title: string)
    | PropertyMeta(property: string, content: string)
    | NameMeta(name: string, content: string)

  /** The options of a page. */
  datatype SeoOptions = SeoOptions(
    title: string, description: Option<string>, keywords: Option<seq<string>>,
    image: Option<string>, url: Option<string>)

  /**
   * Where the builder runs: in a browser (with `window.location.origin`)
   * or on the server. `resolve(path, base)` stands for
   * `new URL(path, base).toString()`, which is not modelled.
   */
  datatype Env = Env(origin: Option<string>, resolve: Resolver)

  /** URL resolution: it always produces an absolute address, so never an empty string. */
  type Resolver = f: (string, string) -> string | forall a: string, b: string :: f(a, b) != ""
    witness (a: string, b: string) => FallbackOrigin

  const FallbackOrigin := "https://jacobsamo.com"

  /** A JavaScript string value is truthy when it is present and not empty. */
  predicate Truthy(s: Option<string>) {
    s.Some? && s.value != ""
  }

  /** The base images are resolved against: the page origin in a browser, the site address otherwise. */
  function BaseUrl(env: Env): string {
    env.origin.GetOr(FallbackOrigin)
  }

  /** The image address: none for a missing or empty image, an `http…` address verbatim, anything else resolved. */
  function ImageUrl(image: Option<string>, env: Env): (r: Option<string>)
    ensures r.Some? <==> Truthy(image)
    ensures r.Some? ==> r.value != ""
    ensures Truthy(image) && StartsWith(image.value, "http") ==> r == image
    ensures Truthy(image) && !StartsWith(image.value, "http") ==> r == Some(env.resolve(image.value, BaseUrl(env)))
  {
    if !Truthy(image) then None
    else if StartsWith(image.value, "http") then image
    else Some(env.resolve(image.value, BaseUrl(env)))
  }

  /** The page title and its Open Graph and Twitter copies. */
  function TitleGroup(title: string): seq<Meta> {
    [TitleMeta(title), PropertyMeta("og:title", title), NameMeta("twitter:title", title)]
  }

  function DescriptionGroup(description: Option<string>): seq<Meta> {
    if Truthy(description) then
      [ NameMeta("description", description.value),
        NameMeta("twitter:description", description.value),
        PropertyMeta("og:description", description.value) ]
    else []
  }

  /** An array is truthy even when empty, so any given keyword list yields the tag. */
  function KeywordsGroup(keywords: Option<seq<string>>): seq<Meta> {
    if keywords.Some? then [NameMeta("keywords", Join(keywords.value, ", "))] else []
  }

  function ImageGroup(imageUrl: Option<string>, title: string): seq<Meta> {
    if Truthy(imageUrl) then
      [ PropertyMeta("og:image", imageUrl.value),
        PropertyMeta("og:image:type", "image/jpg"),
        NameMeta("twitter:image", imageUrl.value),
        NameMeta("twitter:image:alt", title) ]
    else []
  }

  function UrlGroup(url: Option<string>): seq<Meta> {
    if Truthy(url) then [PropertyMeta("og:url", url.value), NameMeta("twitter:url", url.value)] else []
  }

  /** `seo`: the five groups in their fixed order. */
  function SeoMeta(o: SeoOptions, env: Env): (r: seq<Meta>)
    ensures 3 <= |r| <= 13
    ensures r[0] == TitleMeta(o.title)
  {
    TitleGroup(o.title) + DescriptionGroup(o.description) + KeywordsGroup(o.keywords)
    + ImageGroup(ImageUrl(o.image, env), o.title) + UrlGroup(o.url)
  }

  // ---------------------------------------------------------------------
  // Reading a tag list
  // ---------------------------------------------------------------------

  /** The key a tag is looked up by: "title", or its property or name. */
  function Key(m: Meta): string {
    match m
    case TitleMeta(_) => "title"
    case PropertyMeta(p, _) => p
    case NameMeta(n, _) => n
  }

  /** The text a tag carries. */
  function Content(m: Meta): string {
    match m
    case TitleMeta(t) => t
    case PropertyMeta(_, c) => c
    case NameMeta(_, c) => c
  }

  /** The content of the first tag with the key, as a crawler reads it. */
  function ContentOf(ms: seq<Meta>, key: string): Option<string> {
    if |ms| == 0 then None
    else if Key(ms[0]) == key then Some(Content(ms[0]))
    else ContentOf(ms[1..], key)
  }

  /** Which group a key belongs to: title 0, description 1, keywords 2, image 3, url 4, anything else 5. */
  function Rank(key: string): nat {
    if key == "title" || key == "og:title" || key == "twitter:title" then 0
    else if key == "description" || key == "twitter:description" || key == "og:description" then 1
    else if key == "keywords" then 2
    else if key == "og:image" || key == "og:image:type" || key == "twitter:image" || key == "twitter:image:alt" then 3
    else if key == "og:url" || key == "twitter:url" then 4
    else 5
  }

  /** Every tag of the list belongs to group `g`. */
  predicate InRank(ms: seq<Meta>, g: nat) {
    forall i :: 0 <= i < |ms| ==> Rank(Key(ms[i])) == g
  }

  /** Every tag of the list belongs to group `g` or an earlier one. */
  predicate RanksAtMost(ms: seq<Meta>, g: nat) {
    forall i :: 0 <= i < |ms| ==> Rank(Key(ms[i])) <= g
  }

  /** The groups appear in order. */
  predicate GroupsOrdered(ms: seq<Meta>) {
    forall i, j :: 0 <= i < j < |ms| ==> Rank(Key(ms[i])) <= Rank(Key(ms[j]))
  }

  // ---------------------------------------------------------------------
  // Properties
  // ---------------------------------------------------------------------

  /** Looking a key up in two lists put together finds it in the first when it is there. */
  lemma {:induction false} ContentOfConcat(a: seq<Meta>, b: seq<Meta>, key: string)
    ensures ContentOf(a + b, key) == if ContentOf(a, key).Some? then ContentOf(a, key) else ContentOf(b, key)
    decreases |a|
  {
    if |a| == 0 {
      assert a + b == b;
    } else {
      assert (a + b)[1..] == a[1..] + b;
      ContentOfConcat(a[1..], b, key);
    }
  }

  /** A list whose tags all belong to another group has no tag with the key. */
  lemma {:induction false} ContentOfOtherRank(ms: seq<Meta>, g: nat, key: string)
    requires InRank(ms, g) && Rank(key) != g
    ensures ContentOf(ms, key) == None
    decreases |ms|
  {
    if |ms| > 0 {
      ContentOfOtherRank(ms[1..], g, key);
    }
  }

  lemma TitleRank(title: string)
    ensures InRank(TitleGroup(title), 0)
  {
    assert Rank("og:title") == 0 && Rank("twitter:title") == 0;
  }

  lemma DescriptionRank(description: Option<string>)
    ensures InRank(DescriptionGroup(description), 1)
  {
    assert Rank("description") == 1 && Rank("twitter:description") == 1 && Rank("og:description") == 1;
  }

  lemma ImageRank(imageUrl: Option<string>, title: string)
    ensures InRank(ImageGroup(imageUrl, title), 3)
  {
    assert Rank("og:image") == 3 && Rank("og:image:type") == 3;
    assert Rank("twitter:image") == 3 && Rank("twitter:image:alt") == 3;
  }

  lemma UrlRank(url: Option<string>)
    ensures InRank(UrlGroup(url), 4)
  {
    assert Rank("og:url") == 4 && Rank("twitter:url") == 4;
  }

  /** Each group holds only tags of its own rank. */
  lemma GroupRanks(o: SeoOptions, env: Env)
    ensures InRank(TitleGroup(o.title), 0)
    ensures InRank(DescriptionGroup(o.description), 1)
    ensures InRank(KeywordsGroup(o.keywords), 2)
    ensures InRank(ImageGroup(ImageUrl(o.image, env), o.title), 3)
    ensures InRank(UrlGroup(o.url), 4)
  {
    TitleRank(o.title);
    DescriptionRank(o.description);
    ImageRank(ImageUrl(o.image, env), o.title);
    UrlRank(o.url);
  }

  /** Appending a group at rank `g` to a list ranked at most `g` keeps the groups in order. */
  lemma AppendGroup(a: seq<Meta>, b: seq<Meta>, g: nat)
    requires GroupsOrdered(a) && RanksAtMost(a, g) && InRank(b, g)
    ensures GroupsOrdered(a + b) && RanksAtMost(a + b, g)
  {
    forall i, j | 0 <= i < j < |a + b| ensures Rank(Key((a + b)[i])) <= Rank(Key((a + b)[j])) {
      if j < |a| {
        assert (a + b)[i] == a[i] && (a + b)[j] == a[j];
      } else if i < |a| {
        assert (a + b)[i] == a[i] && (a + b)[j] == b[j - |a|];
      } else {
        assert (a + b)[i] == b[i - |a|] && (a + b)[j] == b[j - |a|];
      }
    }
    forall i | 0 <= i < |a + b| ensures Rank(Key((a + b)[i])) <= g {
      if i < |a| { assert (a + b)[i] == a[i]; } else { assert (a + b)[i] == b[i - |a|]; }
    }
  }

  /** The groups always come in the order title, description, keywords, image, URL. */
  lemma SeoOrdered(o: SeoOptions, env: Env)
    ensures GroupsOrdered(SeoMeta(o, env))
    ensures forall i :: 0 <= i < |SeoMeta(o, env)| ==> Rank(Key(SeoMeta(o, env)[i])) < 5
  {
    GroupRanks(o, env);
    var t := TitleGroup(o.title);
    var d := DescriptionGroup(o.description);
    var k := KeywordsGroup(o.keywords);
    var im := ImageGroup(ImageUrl(o.image, env), o.title);
    var u := UrlGroup(o.url);
    AppendGroup([], t, 0);
    assert [] + t == t;
    AppendGroup(t, d, 1);
    AppendGroup(t + d, k, 2);
    AppendGroup(t + d + k, im, 3);
    AppendGroup(t + d + k + im, u, 4);
  }

  /** The first three tags are always the title, the Open Graph title and the Twitter title. */
  lemma SeoStartsWithTitle(o: SeoOptions, env: Env)
    ensures |SeoMeta(o, env)| >= 3
    ensures SeoMeta(o, env)[0] == TitleMeta(o.title)
    ensures SeoMeta(o, env)[1] == PropertyMeta("og:title", o.title)
    ensures SeoMeta(o, env)[2] == NameMeta("twitter:title", o.title)
  {
  }

  /** The number of tags: 3, plus 3 with a description, 1 with keywords, 4 with an image and 2 with a URL. */
  lemma SeoLength(o: SeoOptions, env: Env)
    ensures |SeoMeta(o, env)| ==
      3 + (if Truthy(o.description) then 3 else 0) + (if o.keywords.Some? then 1 else 0)
      + (if Truthy(o.image) then 4 else 0) + (if Truthy(o.url) then 2 else 0)
  {
  }

  /** The group of the page's tags at rank `g`. */
  function Block(o: SeoOptions, env: Env, g: nat): seq<Meta> {
    if g == 0 then TitleGroup(o.title)
    else if g == 1 then DescriptionGroup(o.description)
    else if g == 2 then KeywordsGroup(o.keywords)
    else if g == 3 then ImageGroup(ImageUrl(o.image, env), o.title)
    else if g == 4 then UrlGroup(o.url)
    else []
  }

  /** A key is found in the page's tags exactly where its own group has it. */
  lemma LookupInBlock(o: SeoOptions, env: Env, key: string)
    ensures ContentOf(SeoMeta(o, env), key) == ContentOf(Block(o, env, Rank(key)), key)
  {
    GroupRanks(o, env);
    var g := Rank(key);
    var t, d, k, im, u := Block(o, env, 0), Block(o, env, 1), Block(o, env, 2), Block(o, env, 3), Block(o, env, 4);
    assert SeoMeta(o, env) == t + d + k + im + u;
    ContentOfConcat(t + d + k + im, u, key);
    ContentOfConcat(t + d + k, im, key);
    ContentOfConcat(t + d, k, key);
    ContentOfConcat(t, d, key);
    if g != 0 { ContentOfOtherRank(t, 0, key); }
    if g != 1 { ContentOfOtherRank(d, 1, key); }
    if g != 2 { ContentOfOtherRank(k, 2, key); }
    if g != 3 { ContentOfOtherRank(im, 3, key); }
    if g != 4 { ContentOfOtherRank(u, 4, key); }
  }

  /** A key found at `i` and nowhere before gives that tag's content. */
  lemma {:induction false} ContentOfAt(ms: seq<Meta>, i: nat, key: string)
    requires i < |ms| && Key(ms[i]) == key
    requires forall j :: 0 <= j < i ==> Key(ms[j]) != key
    ensures ContentOf(ms, key) == Some(Content(ms[i]))
  {
    if i > 0 {
      ContentOfAt(ms[1..], i - 1, key);
    }
  }

  /** The title is found under `title`, `og:title` and `twitter:title`. */
  lemma SeoTitleContents(o: SeoOptions, env: Env)
    ensures var r := SeoMeta(o, env);
      && ContentOf(r, "title") == Some(o.title)
      && ContentOf(r, "og:title") == Some(o.title)
      && ContentOf(r, "twitter:title") == Some(o.title)
  {
    LookupInBlock(o, env, "title");
    LookupInBlock(o, env, "og:title");
    LookupInBlock(o, env, "twitter:title");
    ContentOfAt(TitleGroup(o.title), 2, "twitter:title");
  }

  /** A non-empty description is found under its three keys; an empty or missing one under none. */
  lemma SeoDescriptionContents(o: SeoOptions, env: Env)
    ensures var r, d := SeoMeta(o, env), if Truthy(o.description) then o.description else None;
      && ContentOf(r, "description") == d
      && ContentOf(r, "twitter:description") == d
      && ContentOf(r, "og:description") == d
  {
    LookupInBlock(o, env, "description");
    LookupInBlock(o, env, "twitter:description");
    LookupInBlock(o, env, "og:description");
    if Truthy(o.description) {
      ContentOfAt(DescriptionGroup(o.description), 1, "twitter:description");
      ContentOfAt(DescriptionGroup(o.description), 2, "og:description");
    }
  }

  /** Any given keyword list is found joined by ", " under `keywords`; no list, no tag. */
  lemma SeoKeywordsContent(o: SeoOptions, env: Env)
    ensures ContentOf(SeoMeta(o, env), "keywords") ==
      if o.keywords.Some? then Some(Join(o.keywords.value, ", ")) else None
  {
    LookupInBlock(o, env, "keywords");
  }

  /** The image address is found under `og:image` and `twitter:image`. */
  lemma SeoImageContents(o: SeoOptions, env: Env)
    ensures var r, iu := SeoMeta(o, env), ImageUrl(o.image, env);
      && ContentOf(r, "og:image") == iu
      && ContentOf(r, "twitter:image") == iu
  {
    LookupInBlock(o, env, "og:image");
    LookupInBlock(o, env, "twitter:image");
    var iu := ImageUrl(o.image, env);
    if iu.Some? {
      ContentOfAt(ImageGroup(iu, o.title), 2, "twitter:image");
    }
  }

  /** With an image, its type is `image/jpg` and its alt text is the title; without one, neither tag exists. */
  lemma SeoImageDetails(o: SeoOptions, env: Env)
    ensures var r, iu := SeoMeta(o, env), ImageUrl(o.image, env);
      && ContentOf(r, "og:image:type") == (if iu.Some? then Some("image/jpg") else None)
      && ContentOf(r, "twitter:image:alt") == (if iu.Some? then Some(o.title) else None)
  {
    LookupInBlock(o, env, "og:image:type");
    LookupInBlock(o, env, "twitter:image:alt");
    var iu := ImageUrl(o.image, env);
    if iu.Some? {
      ContentOfAt(ImageGroup(iu, o.title), 1, "og:image:type");
      ContentOfAt(ImageGroup(iu, o.title), 3, "twitter:image:alt");
    }
  }

  /** A non-empty URL is found under `og:url` and `twitter:url`. */
  lemma SeoUrlContents(o: SeoOptions, env: Env)
    ensures var r, u := SeoMeta(o, env), if Truthy(o.url) then o.url else None;
      && ContentOf(r, "og:url") == u
      && ContentOf(r, "twitter:url") == u
  {
    LookupInBlock(o, env, "og:url");
    LookupInBlock(o, env, "twitter:url");
  }

  /** An `http…` image is used as given; a relative one is resolved against the base URL. */
  lemma SeoImage(o: SeoOptions, env: Env)
    requires Truthy(o.image)
    ensures StartsWith(o.image.value, "http") ==> ContentOf(SeoMeta(o, env), "og:image") == o.image
    ensures !StartsWith(o.image.value, "http") ==>
      ContentOf(SeoMeta(o, env), "og:image") == Some(env.resolve(o.image.value, BaseUrl(env)))
  {
    SeoImageContents(o, env);
  }

  /** An empty keyword list still yields a keywords tag, with empty content. */
  lemma EmptyKeywordsTag(o: SeoOptions, env: Env)
    requires o.keywords == Some([])
    ensures ContentOf(SeoMeta(o, env), "keywords") == Some("")
  {
    SeoKeywordsContent(o, env);
  }
}

=== FILE: socials.dfy ===
/**
 * `Socials` of src/components/socials.tsx: one icon link per configured
 * social account whose platform was asked for, in configuration order.
 */
module Socials {
  import opened Wrappers

  /** The platforms of src/lib/config.ts, in their declared order. */
  datatype Platform = Twitter | Bluesky | Github | Youtube | Linkedin | Instagram | Facebook | Tiktok

  const AllPlatforms: seq<Platform> := [Twitter, Bluesky, Github, Youtube, Linkedin, Instagram, Facebook, Tiktok]

  /** Every platform is in the list. */
  lemma AllPlatformsComplete(p: Platform)
    ensures p in AllPlatforms
  {
  }

  /** The platform's name, as used in the icon file name. */
  function PlatformName(p: Platform): string {
    match p
    case Twitter => "twitter"
    case Bluesky => "bluesky"
    case Github => "github"
    case Youtube => "youtube"
    case Linkedin => "linkedin"
    case Instagram => "instagram"
    case Facebook => "facebook"
    case Tiktok => "tiktok"
  }

  /** A configured account. */
  datatype Social = Social(platform: Platform, handle: string, url: string)

  /** The props, before defaults. */
  datatype SocialsProps = SocialsProps(size: Option<int>, platforms: Option<seq<Platform>>)

  /** One rendered link. */
  datatype Link = Link(href: string, iconSrc: string, alt: string, size: int)

  const IconPrefix := "/assets/icons/socials/"
  const IconSuffix := ".svg"

  /** The icon file of a platform. */
  function IconPath(p: Platform): (path: string)
    ensures |path| == |IconPrefix| + |PlatformName(p)| + |IconSuffix|
  {
    IconPrefix + PlatformName(p) + IconSuffix
  }

  /** The platform an icon path names, if any. */
  function PlatformOfIcon(path: string): Option<Platform> {
    if |path| >= |IconPrefix| + |IconSuffix| && path[..|IconPrefix|] == IconPrefix
      && path[|path| - |IconSuffix|..] == IconSuffix
    then PlatformNamed(path[|IconPrefix|..|path| - |IconSuffix|])
    else None
  }

  function PlatformNamed(name: string): Option<Platform> {
    if name == "twitter" then Some(Twitter)
    else if name == "bluesky" then Some(Bluesky)
    else if name == "github" then Some(Github)
    else if name == "youtube" then Some(Youtube)
    else if name == "linkedin" then Some(Linkedin)
    else if name == "instagram" then Some(Instagram)
    else if name == "facebook" then Some(Facebook)
    else if name == "tiktok" then Some(Tiktok)
    else None
  }

  /** Every platform has its own icon: the path names the platform back. */
  lemma IconPathRoundTrip(p: Platform)
    ensures PlatformOfIcon(IconPath(p)) == Some(p)
  {
    var path := IconPath(p);
    assert path[..|IconPrefix|] == IconPrefix;
    assert path[|path| - |IconSuffix|..] == IconSuffix;
    assert path[|IconPrefix|..|path| - |IconSuffix|] == PlatformName(p);
  }

  /** The accounts whose platform is wanted, in their order. */
  function Shown(socials: seq<Social>, wanted: seq<Platform>): (r: seq<Social>)
    ensures |r| <= |socials|
  {
    if |socials| == 0 then []
    else (if socials[0].platform in wanted then [socials[0]] else []) + Shown(socials[1..], wanted)
  }

  /** An account is shown exactly when it is configured and its platform is wanted. */
  lemma {:induction false} ShownMembers(socials: seq<Social>, wanted: seq<Platform>, s: Social)
    ensures s in Shown(socials, wanted) <==> s in socials && s.platform in wanted
  {
    if |socials| > 0 {
      ShownMembers(socials[1..], wanted, s);
      assert socials == [socials[0]] + socials[1..];
    }
  }

  /** Filtering keeps configuration order: it distributes over concatenation. */
  lemma {:induction false} ShownAppend(a: seq<Social>, b: seq<Social>, wanted: seq<Platform>)
    ensures Shown(a + b, wanted) == Shown(a, wanted) + Shown(b, wanted)
    decreases |a|
  {
    if |a| == 0 {
      assert a + b == b;
    } else {
      var head := if a[0].platform in wanted then [a[0]] else [];
      assert (a + b)[0] == a[0];
      assert (a + b)[1..] == a[1..] + b;
      assert Shown(a + b, wanted) == head + Shown(a[1..] + b, wanted);
      ShownAppend(a[1..], b, wanted);
      assert Shown(a, wanted) == head + Shown(a[1..], wanted);
    }
  }

  /** Asking for every platform shows every account. */
  lemma {:induction false} AllShown(socials: seq<Social>)
    ensures Shown(socials, AllPlatforms) == socials
  {
    if |socials| > 0 {
      AllPlatformsComplete(socials[0].platform);
      AllShown(socials[1..]);
    }
  }

  /** The rendered links: `size` defaults to 24 and `platforms` to all of them. */
  function Render(props: SocialsProps, socials: seq<Social>): (links: seq<Link>)
    ensures |links| == |Shown(socials, props.platforms.GetOr(AllPlatforms))|
    ensures forall i :: 0 <= i < |links| ==>
      var s := Shown(socials, props.platforms.GetOr(AllPlatforms))[i];
      links[i] == Link(s.url, IconPath(s.platform), PlatformName(s.platform) + " icon", props.size.GetOr(24))
  {
    var shown := Shown(socials, props.platforms.GetOr(AllPlatforms));
    seq(|shown|, i requires 0 <= i < |shown| =>
      Link(shown[i].url, IconPath(shown[i].platform), PlatformName(shown[i].platform) + " icon", props.size.GetOr(24)))
  }

  /** With no props, every configured account gets a 24-pixel icon link. */
  lemma DefaultShowsAll(socials: seq<Social>)
    ensures |Render(SocialsProps(None, None), socials)| == |socials|
    ensures forall i :: 0 <= i < |socials| ==>
      Render(SocialsProps(None, None), socials)[i].href == socials[i].url
      && Render(SocialsProps(None, None), socials)[i].size == 24
  {
    AllShown(socials);
  }
}

=== FILE: text.dfy ===
/**
 * String helpers with JavaScript's meaning: the white-space class that both
 * the regular-expression class `\s` and `String.prototype.trim` use, decimal
 * rendering of integers (`String(n)`), `Array.prototype.join`, `startsWith`
 * and lower-casing.
 */
module Text {

  /** JavaScript's line terminators: LF, CR, LINE SEPARATOR, PARAGRAPH SEPARATOR. */
  predicate IsLineTerminator(c: char) {
    c == '\n' || c == '\r' || c == '\U{2028}' || c == '\U{2029}'
  }

  /** JavaScript's WhiteSpace and LineTerminator code points (the `\s` class). */
  predicate IsSpace(c: char) {
    || IsLineTerminator(c)
    || c == '\t' || c == '\U{B}' || c == '\U{C}' || c == ' '
    || c == '\U{A0}' || c == '\U{1680}' || ('\U{2000}' <= c <= '\U{200A}')
    || c == '\U{202F}' || c == '\U{205F}' || c == '\U{3000}' || c == '\U{FEFF}'
  }

  predicate AllSpace(s: string) {
    forall i :: 0 <= i < |s| ==> IsSpace(s[i])
  }

  /** `trimStart`: the suffix left after dropping leading white space. */
  function TrimStart(s: string): (r: string)
    ensures |r| <= |s| && r == s[|s| - |r|..]
    ensures |r| > 0 ==> !IsSpace(r[0])
    ensures AllSpace(s[..|s| - |r|])
  {
    if |s| > 0 && IsSpace(s[0]) then TrimStart(s[1..]) else s
  }

  /** `trimEnd`: the prefix left after dropping trailing white space. */
  function TrimEnd(s: string): (r: string)
    ensures |r| <= |s| && r == s[..|r|]
    ensures |r| > 0 ==> !IsSpace(r[|r| - 1])
    ensures AllSpace(s[|r|..])
  {
    if |s| > 0 && IsSpace(s[|s| - 1]) then TrimEnd(s[..|s| - 1]) else s
  }

  /** `r` is `s` with only white space cut from its two ends. */
  predicate Trimmed(r: string, s: string) {
    exists i, j :: 0 <= i <= j <= |s| && r == s[i..j] && AllSpace(s[..i]) && AllSpace(s[j..])
  }

  /** `String.prototype.trim`. */
  function Trim(s: string): (r: string)
    ensures Trimmed(r, s)
    ensures |r| <= |s|
    ensures |r| > 0 ==> !IsSpace(r[0]) && !IsSpace(r[|r| - 1])
    ensures r == "" <==> AllSpace(s)
  {
    var t := TrimStart(s);
    var r := TrimEnd(t);
    TrimEndOfStart(s, t, r);
    r
  }

  /** What `trimEnd` after `trimStart` leaves: a slice cut only at white space, empty just for white space. */
  lemma TrimEndOfStart(s: string, t: string, r: string)
    requires t == TrimStart(s) && r == TrimEnd(t)
    ensures Trimmed(r, s)
    ensures r == "" <==> AllSpace(s)
  {
    TrimIsSlice(s, t, r);
    if AllSpace(s) {
      TrimStartAllSpace(s);
    }
    if r == "" {
      TrimEmptyAllSpace(s, t);
    }
  }

  lemma TrimIsSlice(s: string, t: string, r: string)
    requires t == TrimStart(s) && r == TrimEnd(t)
    ensures Trimmed(r, s)
  {
    var k := |s| - |t|;
    assert t == s[k..];
    assert r == t[..|r|];
    assert s[k..k + |r|] == r;
    assert s[k + |r|..] == t[|r|..];
    assert AllSpace(s[..k]);
    assert AllSpace(s[k + |r|..]);
  }

  lemma TrimEmptyAllSpace(s: string, t: string)
    requires t == TrimStart(s) && TrimEnd(t) == ""
    ensures AllSpace(s)
  {
    var k := |s| - |t|;
    assert AllSpace(t[0..]);
    assert t[0..] == t == s[k..];
    SpaceAround(s, k, k);
  }

  lemma {:induction false} TrimStartAllSpace(s: string)
    requires AllSpace(s)
    ensures TrimStart(s) == ""
  {
    if |s| > 0 {
      TrimStartAllSpace(s[1..]);
    }
  }

  /** Leading white space ending just before a non-space at `i` is what `trimStart` drops. */
  lemma {:induction false} TrimStartAt(s: string, i: nat)
    requires i < |s| && AllSpace(s[..i]) && !IsSpace(s[i])
    ensures TrimStart(s) == s[i..]
    decreases i
  {
    if i > 0 {
      assert IsSpace(s[..i][0]);
      assert s[1..][..i - 1] == s[..i][1..];
      TrimStartAt(s[1..], i - 1);
      assert s[1..][i - 1..] == s[i..];
    }
  }

  /** Trailing white space starting just after a non-space at `j - 1` is what `trimEnd` drops. */
  lemma {:induction false} TrimEndAt(s: string, j: nat)
    requires 0 < j <= |s| && AllSpace(s[j..]) && !IsSpace(s[j - 1])
    ensures TrimEnd(s) == s[..j]
    decreases |s| - j
  {
    if j < |s| {
      assert IsSpace(s[j..][|s| - 1 - j]);
      assert s[..|s| - 1][j..] == s[j..][..|s| - 1 - j];
      TrimEndAt(s[..|s| - 1], j);
      assert s[..|s| - 1][..j] == s[..j];
    }
  }

  /** `trim` is `trimEnd` after `trimStart`. */
  lemma TrimSteps(s: string, t: string, r: string)
    requires TrimStart(s) == t && TrimEnd(t) == r
    ensures Trim(s) == r
  {
  }

  /** Trimming the end of a suffix `s[i..]` whose white space starts at `j` gives `s[i..j]`. */
  lemma TrimEndOfSuffix(s: string, i: nat, j: nat)
    requires i < j <= |s| && AllSpace(s[j..]) && !IsSpace(s[j - 1])
    ensures TrimEnd(s[i..]) == s[i..j]
  {
    var t := s[i..];
    assert t[j - i..] == s[j..];
    assert t[j - i - 1] == s[j - 1];
    TrimEndAt(t, j - i);
    assert t[..j - i] == s[i..j];
  }

  /** The slice `s[i..j]` with non-space ends, and only white space around it, is the trimmed text. */
  lemma TrimBetween(s: string, i: nat, j: nat)
    requires i < j <= |s| && AllSpace(s[..i]) && AllSpace(s[j..])
    requires !IsSpace(s[i]) && !IsSpace(s[j - 1])
    ensures Trim(s) == s[i..j]
  {
    TrimStartAt(s, i);
    TrimEndOfSuffix(s, i, j);
    TrimSteps(s, s[i..], s[i..j]);
  }

  /** White space on both sides of an empty slice makes the whole string white space. */
  lemma SpaceAround(s: string, i: nat, j: nat)
    requires i <= j <= |s| && s[i..j] == "" && AllSpace(s[..i]) && AllSpace(s[j..])
    ensures AllSpace(s)
  {
    forall k | 0 <= k < |s| ensures IsSpace(s[k]) {
      if k < i { assert s[..i][k] == s[k]; } else { assert s[j..][k - j] == s[k]; }
    }
  }

  /**
   * `trim` is the only way to cut white space from the ends that leaves no
   * white space at either end: any such slice of `s` is `Trim(s)`.
   */
  lemma TrimUnique(r: string, s: string)
    requires Trimmed(r, s)
    requires |r| > 0 ==> !IsSpace(r[0]) && !IsSpace(r[|r| - 1])
    ensures r == Trim(s)
  {
    var i, j :| 0 <= i <= j <= |s| && r == s[i..j] && AllSpace(s[..i]) && AllSpace(s[j..]);
    if r == "" {
      SpaceAround(s, i, j);
    } else {
      assert s[i] == r[0] && s[j - 1] == r[|r| - 1];
      TrimBetween(s, i, j);
    }
  }

  /** Trimming a string that has no white space at either end keeps it. */
  lemma TrimKeeps(s: string)
    requires |s| > 0 ==> !IsSpace(s[0]) && !IsSpace(s[|s| - 1])
    ensures Trim(s) == s
  {
  }

  /** Trimming twice is trimming once. */
  lemma TrimIdempotent(s: string)
    ensures Trim(Trim(s)) == Trim(s)
  {
    TrimKeeps(Trim(s));
  }

  predicate IsDigit(c: char) {
    '0' <= c <= '9'
  }

  function DigitChar(d: nat): (c: char)
    requires d < 10
    ensures IsDigit(c)
  {
    "0123456789"[d]
  }

  function DigitValue(c: char): (d: nat)
    requires IsDigit(c)
    ensures d < 10
  {
    (c as int - '0' as int) as nat
  }

  lemma DigitRoundTrip(d: nat)
    requires d < 10
    ensures DigitValue(DigitChar(d)) == d
  {
  }

  predicate AllDigits(s: string) {
    forall i :: 0 <= i < |s| ==> IsDigit(s[i])
  }

  /** The number a string of decimal digits denotes. */
  function DigitsValue(s: string): nat
    requires AllDigits(s)
  {
    if |s| == 0 then 0 else DigitsValue(s[..|s| - 1]) * 10 + DigitValue(s[|s| - 1])
  }

  /** `String(n)` for a non-negative integer: decimal digits, no leading zero. */
  function NatToString(n: nat): (r: string)
    ensures |r| > 0 && AllDigits(r)
    ensures |r| > 1 ==> r[0] != '0'
    ensures n > 0 ==> r[0] != '0'
  {
    if n < 10 then [DigitChar(n)] else NatToString(n / 10) + [DigitChar(n % 10)]
  }

  /** Reading the decimal rendering back gives the number. */
  lemma {:induction false} NatToStringRoundTrip(n: nat)
    ensures DigitsValue(NatToString(n)) == n
  {
    var r := NatToString(n);
    if n < 10 {
      DigitRoundTrip(n);
    } else {
      NatToStringRoundTrip(n / 10);
      assert r[..|r| - 1] == NatToString(n / 10);
      DigitRoundTrip(n % 10);
    }
  }

  /** `String(n)` for an integer: a minus sign before the digits of a negative number. */
  function IntToString(n: int): (r: string)
    ensures n >= 0 ==> AllDigits(r) && DigitsValue(r) == n
    ensures n < 0 ==> |r| > 1 && r[0] == '-' && AllDigits(r[1..]) && DigitsValue(r[1..]) == -n
    ensures n > 0 ==> r[0] != '0'
    ensures n < 0 ==> r[1] != '0'
  {
    if n < 0 then
      NatToStringRoundTrip(-n);
      assert ("-" + NatToString(-n))[1..] == NatToString(-n);
      "-" + NatToString(-n)
    else
      NatToStringRoundTrip(n);
      NatToString(n)
  }

  /** `strings.join(sep)`. */
  function Join(items: seq<string>, sep: string): (r: string)
    ensures |items| == 0 ==> r == ""
    ensures |items| > 0 ==> |items[0]| <= |r| && r[..|items[0]|] == items[0]
    ensures |items| == 1 ==> r == items[0]
  {
    if |items| == 0 then ""
    else if |items| == 1 then items[0]
    else items[0] + sep + Join(items[1..], sep)
  }

  /** Appending an item to a non-empty list appends a separator and the item to the join. */
  lemma {:induction false} JoinAppend(items: seq<string>, x: string, sep: string)
    requires |items| > 0
    ensures Join(items + [x], sep) == Join(items, sep) + sep + x
    decreases |items|
  {
    if |items| == 1 {
      assert (items + [x])[1..] == [x];
    } else {
      assert (items + [x])[1..] == items[1..] + [x];
      JoinAppend(items[1..], x, sep);
    }
  }

  /** Total length of a joined list: the items plus one separator between each pair. */
  lemma {:induction false} JoinLength(items: seq<string>, sep: string)
    ensures |items| > 0 ==> |Join(items, sep)| == SumLengths(items) + (|items| - 1) * |sep|
    ensures |items| == 0 ==> Join(items, sep) == ""
  {
    if |items| > 1 {
      JoinLength(items[1..], sep);
    }
  }

  function SumLengths(items: seq<string>): nat {
    if |items| == 0 then 0 else |items[0]| + SumLengths(items[1..])
  }

  /** `s.startsWith(p)`. */
  predicate StartsWith(s: string, p: string) {
    |p| <= |s| && s[..|p|] == p
  }

  /** Lower-cases the ASCII letters A-Z and keeps every other character. */
  function LowerChar(c: char): (r: char)
    ensures 'A' <= c <= 'Z' ==> 'a' <= r <= 'z' && r as int == c as int + 32
    ensures !('A' <= c <= 'Z') ==> r == c
  {
    if 'A' <= c <= 'Z' then (c as int + 32) as char else c
  }

  /** `toLowerCase` over the ASCII letters. */
  function ToLower(s: string): (r: string)
    ensures |r| == |s|
    ensures forall i :: 0 <= i < |s| ==> r[i] == LowerChar(s[i])
  {
    seq(|s|, i requires 0 <= i < |s| => LowerChar(s[i]))
  }
}

=== FILE: time_format.dfy ===
/** `formatTime` in src/components/video.tsx: seconds rendered as `m:ss`. */
module TimeFormat {
  import opened Wrappers
  import opened Text

  /** A number of seconds as JavaScript holds it: finite, or NaN / an infinity. */
  datatype Seconds = Finite(value: real) | NonFinite

  /** `padStart(2, "0")`. */
  function PadTwo(s: string): (r: string)
    ensures |s| >= 2 ==> r == s
    ensures |s| < 2 ==> |r| == 2 && r[2 - |s|..] == s && forall i :: 0 <= i < 2 - |s| ==> r[i] == '0'
    decreases 2 - |s|
  {
    if |s| >= 2 then s else PadTwo("0" + s)
  }

  /** Whole minutes of a non-negative time: `Math.floor(seconds / 60)`. */
  function Minutes(v: real): (m: nat)
    requires v >= 0.0
    ensures 60.0 * m as real <= v < 60.0 * m as real + 60.0
  {
    (v / 60.0).Floor
  }

  /** Whole seconds past the minute: `Math.floor(seconds % 60)`. */
  function SecondsPart(v: real): (s: nat)
    requires v >= 0.0
    ensures s < 60
    ensures Minutes(v) * 60 + s == v.Floor
  {
    var m := Minutes(v);
    var w := v - 60.0 * m as real;
    assert 0.0 <= w < 60.0;
    var s := w.Floor;
    assert (m * 60 + s) as real <= v < (m * 60 + s + 1) as real;
    s
  }

  /** The `m:ss` label for `m` minutes and `s` seconds. */
  function Clock(m: nat, s: nat): (r: string)
    requires s < 60
    ensures |r| >= 4 && r[|r| - 3] == ':'
    ensures AllDigits(r[..|r| - 3]) && AllDigits(r[|r| - 2..])
    ensures |r| > 4 ==> r[0] != '0'
  {
    var ms, tail := NatToString(m), PadTwo(NatToString(s));
    assert |NatToString(s)| <= 2 by {
      if s >= 10 { assert NatToString(s) == NatToString(s / 10) + [DigitChar(s % 10)]; }
    }
    assert |tail| == 2;
    var r := ms + ":" + tail;
    assert r[..|r| - 3] == ms;
    assert r[|r| - 2..] == tail;
    r
  }

  /** `formatTime`: "0:00" for a negative or non-finite time, else minutes, a colon and two second digits. */
  function FormatTime(t: Seconds): (r: string)
    ensures t.NonFinite? || t.value < 0.0 ==> r == "0:00"
    ensures |r| >= 4 && r[|r| - 3] == ':'
    ensures AllDigits(r[..|r| - 3]) && AllDigits(r[|r| - 2..])
    ensures |r| > 4 ==> r[0] != '0'
  {
    if t.NonFinite? || t.value < 0.0 then
      assert "0:00"[..1] == "0" && "0:00"[2..] == "00";
      "0:00"
    else Clock(Minutes(t.value), SecondsPart(t.value))
  }

  /** Reads an `m:ss` label back into minutes and seconds. */
  function ReadClock(r: string): Option<(nat, nat)> {
    if |r| >= 4 && r[|r| - 3] == ':' && AllDigits(r[..|r| - 3]) && AllDigits(r[|r| - 2..]) then
      Some((DigitsValue(r[..|r| - 3]), DigitsValue(r[|r| - 2..])))
    else None
  }

  /** Reading a label back gives the minutes and seconds it was made from. */
  lemma ClockRoundTrip(m: nat, s: nat)
    requires s < 60
    ensures ReadClock(Clock(m, s)) == Some((m, s))
  {
    var ms, ss := NatToString(m), NatToString(s);
    var r := Clock(m, s);
    var tail := PadTwo(ss);
    assert r == ms + ":" + tail;
    assert r[..|r| - 3] == ms;
    assert r[|r| - 2..] == tail;
    NatToStringRoundTrip(m);
    NatToStringRoundTrip(s);
    if s < 10 {
      assert ss == [DigitChar(s)];
      assert tail == ['0', DigitChar(s)];
      assert tail[..1] == ['0'] && tail[..1][..0] == [];
      assert DigitsValue(tail[..1]) == 0;
      DigitRoundTrip(s);
    } else {
      assert |ss| == 2;
    }
  }

  /**
   * The label of a non-negative finite time reads back as minutes and
   * seconds below 60 that add up to the whole seconds of the time.
   */
  lemma FormatTimeReadsBack(v: real)
    requires v >= 0.0
    ensures ReadClock(FormatTime(Finite(v))).Some?
    ensures var c := ReadClock(FormatTime(Finite(v))).value;
      c.1 < 60 && c.0 * 60 + c.1 == v.Floor
  {
    ClockRoundTrip(Minutes(v), SecondsPart(v));
  }

  /** A whole number of seconds reads back as its minutes and its remaining seconds. */
  lemma WholeReadsBack(t: nat)
    ensures ReadClock(FormatTime(Finite(t as real))) == Some((t / 60, t % 60))
  {
    FormatTimeReadsBack(t as real);
    assert (t as real).Floor == t;
    var c := ReadClock(FormatTime(Finite(t as real))).value;
    assert c.0 * 60 + c.1 == t && c.1 < 60;
    assert c.0 == t / 60 && c.1 == t % 60;
  }

  /** Invalid inputs read back as zero minutes and zero seconds. */
  lemma InvalidReadsZero(t: Seconds)
    requires t.NonFinite? || t.value < 0.0
    ensures ReadClock(FormatTime(t)) == Some((0, 0))
  {
    ClockRoundTrip(0, 0);
    assert Clock(0, 0) == "0:00";
  }
}

=== FILE: video.dfy ===
/**
 * `Video` in src/components/video.tsx: YouTube sources go to the embed,
 * everything else to the custom player.
 */
module Video {
  import opened Wrappers
  import opened YouTubeUrl
  import opened YouTubeEmbed
  import opened VideoPlayer

  /** The props `Video` reads, with their defaults already applied. */
  datatype VideoProps = VideoProps(
    src: string, autoPlay: bool, loop: bool, muted: bool, controls: bool,
    playbackRate: real, fill: bool)

  /** What `Video` mounts. */
  datatype Mounted = Embedded(embed: Embed) | Custom(player: Player)

  /** The embed's props: the video id and the autoplay, mute, loop and fill flags. */
  function EmbedPropsFor(v: VideoProps, id: string): (e: EmbedProps)
    ensures e.videoId == id && e.autoPlay == v.autoPlay && e.muted == v.muted && e.loop == v.loop && e.fill == v.fill
  {
    EmbedProps(id, v.autoPlay, v.muted, v.loop, v.fill)
  }

  /** The player's props: everything but the source. */
  function PlayerPropsFor(v: VideoProps): (pp: PlayerProps)
    ensures pp.autoPlay == v.autoPlay && pp.loop == v.loop && pp.muted == v.muted
    ensures pp.controls == v.controls && pp.playbackRate == v.playbackRate && pp.fill == v.fill
  {
    PlayerProps(v.autoPlay, v.loop, v.muted, v.controls, v.playbackRate, v.fill)
  }

  /** Mounting: a recognised YouTube address gives an embed of its video, anything else a player. */
  function Mount(v: VideoProps): (m: Mounted)
    ensures m.Embedded? <==> ParseYouTubeUrl(v.src).YouTube?
    ensures m.Embedded? ==>
      (YouTubeEmbed.Valid(m.embed) && m.embed.props == EmbedPropsFor(v, ParseYouTubeUrl(v.src).id) && |m.embed.props.videoId| > 0)
    ensures m.Custom? ==> VideoPlayer.Valid(m.player) && m.player.props == PlayerPropsFor(v)
  {
    match ParseYouTubeUrl(v.src)
    case YouTube(id) => Embedded(YouTubeEmbed.Init(EmbedPropsFor(v, id)))
    case NotYouTube => Custom(VideoPlayer.Init(PlayerPropsFor(v)))
  }

  /** An empty source always gets the custom player. */
  lemma EmptySourceIsPlayer(v: VideoProps)
    requires v.src == ""
    ensures Mount(v).Custom?
  {
  }

  /**
   * A short link with autoplay mounts the embed with its iframe already up,
   * asking YouTube to autoplay unmuted and without looping.
   */
  lemma ShortLinkAutoplays(autoPlay: bool, muted: bool)
    ensures var v := VideoProps("https://youtu.be/abc123", autoPlay, false, muted, true, 1.0, false);
      var m := Mount(v);
      m.Embedded? && m.embed.props.videoId == "abc123"
      && (m.embed.showPlayer <==> autoPlay)
      && ParamValue(EmbedParams(m.embed.props), "autoplay") == Some("1")
      && ParamValue(EmbedParams(m.embed.props), "mute") == Some(if muted then "1" else "0")
      && ParamValue(EmbedParams(m.embed.props), "playlist") == Some("")
  {
    ShortLinkExample();
    EmbedParamsGet(EmbedPropsFor(VideoProps("https://youtu.be/abc123", autoPlay, false, muted, true, 1.0, false), "abc123"));
  }

  /** A media file mounts the player, unstarted unless autoplaying, with no hide timer armed. */
  lemma MediaFileMountsPlayer(autoPlay: bool)
    ensures var m := Mount(VideoProps("clip.mp4", autoPlay, false, false, true, 1.0, false));
      m.Custom? && (m.player.play.hasStarted <==> autoPlay) && !m.player.chrome.hideTimerPending
      && m.player.media.paused
  {
    MediaFileExample();
  }
}

=== FILE: wrappers.dfy ===
/** Optional values and results with an error, for the `?:` props and thrown errors of the site. */
module Wrappers {

  /** An optional value: `undefined` in the source is `None`. */
  datatype Option<+T> = None | Some(value: T) {

    /** The value, or `default` when absent (a destructuring default). */
    function GetOr(default: T): T {
      match this
      case Some(v) => v
      case None => default
    }
  }

  /** The outcome of an operation that may throw. */
  datatype Result<+R, +E> = Success(value: R) | Failure(error: E)
}

=== FILE: youtube_embed.dfy ===
/**
 * `YouTubeEmbed` in src/components/video.tsx: a thumbnail with a play
 * button that turns into a privacy-enhanced YouTube iframe.
 */
module YouTubeEmbed {
  import opened Wrappers
  import opened Text

  /** The props the embed reads, with their defaults already applied. */
  datatype EmbedProps = EmbedProps(videoId: string, autoPlay: bool, muted: bool, loop: bool, fill: bool)

  /** Component state: whether the iframe replaced the thumbnail, and whether it has loaded. */
  datatype Embed = Embed(props: EmbedProps, showPlayer: bool, isLoaded: bool)

  /** What the user or the browser can do to the embed. */
  datatype EmbedEvent = PlayClicked | IframeLoad

  /** What is on screen. */
  datatype EmbedView = EmbedView(iframeSrc: Option<string>, thumbnail: Option<string>, spinner: bool)

  const ThumbPrefix := "https://img.youtube.com/vi/"
  const ThumbSuffix := "/maxresdefault.jpg"
  const EmbedPrefix := "https://www.youtube-nocookie.com/embed/"

  /** The embed state never shows "loaded" for an iframe that is not there. */
  predicate Valid(e: Embed) {
    e.isLoaded ==> e.showPlayer
  }

  /** First render: the iframe is shown straight away exactly when autoplay was asked for. */
  function Init(p: EmbedProps): (e: Embed)
    ensures Valid(e) && e.props == p
    ensures e.showPlayer <==> p.autoPlay
    ensures !e.isLoaded
  {
    Embed(p, p.autoPlay, false)
  }

  /**
   * One event. A click can only reach the play button while the thumbnail
   * is shown, and a load event only comes from a rendered iframe.
   */
  function Step(e: Embed, ev: EmbedEvent): (r: Embed)
    requires Valid(e)
    ensures Valid(r) && r.props == e.props
    ensures e.showPlayer ==> r.showPlayer
    ensures e.isLoaded ==> r.isLoaded
    ensures ev.PlayClicked? ==> r.showPlayer && r.isLoaded == e.isLoaded
    ensures ev.IframeLoad? ==> r.showPlayer == e.showPlayer && (r.isLoaded <==> e.showPlayer)
  {
    match ev
    case PlayClicked => if e.showPlayer then e else e.(showPlayer := true)
    case IframeLoad => if e.showPlayer then e.(isLoaded := true) else e
  }

  /** A sequence of events, applied in order. */
  function Run(e: Embed, evs: seq<EmbedEvent>): (r: Embed)
    requires Valid(e)
    ensures r.props == e.props
    ensures e.isLoaded ==> r.isLoaded
    decreases |evs|
  {
    if |evs| == 0 then e else Run(Step(e, evs[0]), evs[1..])
  }

  /** Whatever happens, the state stays valid and the iframe, once shown, stays shown. */
  lemma {:induction false} RunKeepsPlayer(e: Embed, evs: seq<EmbedEvent>)
    requires Valid(e)
    ensures Valid(Run(e, evs)) && Run(e, evs).props == e.props
    ensures e.showPlayer ==> Run(e, evs).showPlayer
    ensures PlayClicked in evs ==> Run(e, evs).showPlayer
    decreases |evs|
  {
    if |evs| > 0 {
      RunKeepsPlayer(Step(e, evs[0]), evs[1..]);
      if PlayClicked in evs && evs[0] != PlayClicked {
        assert PlayClicked in evs[1..] by {
          var i :| 0 <= i < |evs| && evs[i] == PlayClicked;
          assert evs[1..][i - 1] == PlayClicked;
        }
      }
    }
  }

  /** `"0"` or `"1"` for a flag. */
  function Flag(b: bool): string {
    if b then "1" else "0"
  }

  /** The iframe's query parameters, in insertion order. */
  function EmbedParams(p: EmbedProps): (ps: seq<(string, string)>)
    ensures |ps| == 6 && ps[0] == ("autoplay", "1")
    ensures forall i, j :: 0 <= i < j < |ps| ==> ps[i].0 != ps[j].0
  {
    [ ("autoplay", "1"),
      ("mute", Flag(p.muted)),
      ("loop", Flag(p.loop)),
      ("playlist", if p.loop then p.videoId else ""),
      ("rel", "0"),
      ("modestbranding", "1") ]
  }

  /** `URLSearchParams.get`: the value of the first pair with the key. */
  function ParamValue(ps: seq<(string, string)>, key: string): Option<string> {
    if |ps| == 0 then None
    else if ps[0].0 == key then Some(ps[0].1)
    else ParamValue(ps[1..], key)
  }

  /** `ParamValue` finds a key exactly when some pair has it, and then gives the first such pair's value. */
  lemma {:induction false} ParamValueFirst(ps: seq<(string, string)>, key: string)
    ensures ParamValue(ps, key).Some? <==> exists i :: 0 <= i < |ps| && ps[i].0 == key
    ensures ParamValue(ps, key).Some? ==> exists i :: (0 <= i < |ps| && ps[i] == (key, ParamValue(ps, key).value) &&
      forall j :: 0 <= j < i ==> ps[j].0 != key)
  {
    if |ps| > 0 && ps[0].0 != key {
      ParamValueFirst(ps[1..], key);
      assert forall i :: 1 <= i < |ps| ==> ps[i] == ps[1..][i - 1];
      if ParamValue(ps, key).Some? {
        var i :| 0 <= i < |ps[1..]| && ps[1..][i] == (key, ParamValue(ps, key).value) &&
          forall j :: 0 <= j < i ==> ps[1..][j].0 != key;
        assert ps[i + 1] == (key, ParamValue(ps, key).value);
        assert forall j :: 0 <= j < i + 1 ==> ps[j].0 != key by {
          forall j | 0 <= j < i + 1 ensures ps[j].0 != key {
            if j > 0 { assert ps[j] == ps[1..][j - 1]; }
          }
        }
      }
    }
  }

  /**
   * The embed always asks YouTube to autoplay (a click already means
   * "play"), mutes when asked, and loops by making the video its own
   * one-item playlist; related videos and branding are turned down.
   */
  lemma EmbedParamsGet(p: EmbedProps)
    ensures ParamValue(EmbedParams(p), "autoplay") == Some("1")
    ensures ParamValue(EmbedParams(p), "mute") == Some(if p.muted then "1" else "0")
    ensures ParamValue(EmbedParams(p), "loop") == Some(if p.loop then "1" else "0")
    ensures ParamValue(EmbedParams(p), "playlist") == Some(if p.loop then p.videoId else "")
    ensures ParamValue(EmbedParams(p), "rel") == Some("0")
    ensures ParamValue(EmbedParams(p), "modestbranding") == Some("1")
    ensures ParamValue(EmbedParams(p), "start") == None
  {
    var ps := EmbedParams(p);
    ParamValueAt(ps, 0, "autoplay");
    ParamValueAt(ps, 1, "mute");
    ParamValueAt(ps, 2, "loop");
    ParamValueAt(ps, 3, "playlist");
    ParamValueAt(ps, 4, "rel");
    ParamValueAt(ps, 5, "modestbranding");
    ParamValueFirst(ps, "start");
  }

  /** A key found at `i` and nowhere before gives that pair's value. */
  lemma {:induction false} ParamValueAt(ps: seq<(string, string)>, i: nat, key: string)
    requires i < |ps| && ps[i].0 == key
    requires forall j :: 0 <= j < i ==> ps[j].0 != key
    ensures ParamValue(ps, key) == Some(ps[i].1)
  {
    if i > 0 {
      ParamValueAt(ps[1..], i - 1, key);
    }
  }

  /** `key=value` pairs joined by `&` (percent-encoding is not modelled). */
  function QueryString(ps: seq<(string, string)>): (q: string)
    ensures |ps| == 0 ==> q == ""
    ensures |ps| > 0 ==> var first := ps[0].0 + "=" + ps[0].1; |first| <= |q| && q[..|first|] == first
  {
    var items := seq(|ps|, i requires 0 <= i < |ps| => ps[i].0 + "=" + ps[i].1);
    Join(items, "&")
  }

  /** The iframe source. */
  function EmbedSrc(p: EmbedProps): (src: string)
    ensures StartsWith(src, EmbedPrefix + p.videoId + "?autoplay=1")
  {
    var head, q := EmbedPrefix + p.videoId + "?", QueryString(EmbedParams(p));
    assert q[..|"autoplay=1"|] == "autoplay=1";
    assert (head + q)[..|head| + |"autoplay=1"|] == head + q[..|"autoplay=1"|];
    head + q
  }

  /** The thumbnail image address. */
  function ThumbnailUrl(id: string): (u: string)
    ensures |u| == |ThumbPrefix| + |id| + |ThumbSuffix|
  {
    ThumbPrefix + id + ThumbSuffix
  }

  /** Recovers the video id from a thumbnail address, when it has that form. */
  function ThumbnailId(u: string): Option<string> {
    if |u| >= |ThumbPrefix| + |ThumbSuffix| && u[..|ThumbPrefix|] == ThumbPrefix
      && u[|u| - |ThumbSuffix|..] == ThumbSuffix
    then Some(u[|ThumbPrefix|..|u| - |ThumbSuffix|])
    else None
  }

  /** The thumbnail address determines the video id. */
  lemma ThumbnailRoundTrip(id: string)
    ensures ThumbnailId(ThumbnailUrl(id)) == Some(id)
  {
    var u := ThumbnailUrl(id);
    assert u[..|ThumbPrefix|] == ThumbPrefix;
    assert u[|u| - |ThumbSuffix|..] == ThumbSuffix;
    assert u[|ThumbPrefix|..|u| - |ThumbSuffix|] == id;
  }

  /** What is drawn: either the iframe or the thumbnail button, and a spinner over a loading iframe. */
  function Render(e: Embed): (v: EmbedView)
    requires Valid(e)
    ensures v.iframeSrc.Some? <==> e.showPlayer
    ensures v.thumbnail.Some? <==> !e.showPlayer
    ensures v.spinner <==> e.showPlayer && !e.isLoaded
    ensures v.iframeSrc.Some? ==> ParamValue(EmbedParams(e.props), "autoplay") == Some("1")
    ensures v.thumbnail.Some? ==> ThumbnailId(v.thumbnail.value) == Some(e.props.videoId)
  {
    assert ThumbnailId(ThumbnailUrl(e.props.videoId)) == Some(e.props.videoId) by {
      ThumbnailRoundTrip(e.props.videoId);
    }
    EmbedView(
      if e.showPlayer then Some(EmbedSrc(e.props)) else None,
      if e.showPlayer then None else Some(ThumbnailUrl(e.props.videoId)),
      e.showPlayer && !e.isLoaded)
  }
}

=== FILE: youtube_url.dfy ===
/**
 * Classification of a video source string as a YouTube video and extraction
 * of its identifier (`parseYouTubeUrl` in src/components/video.tsx).
 *
 * The five regular expressions of the source are encoded as explicit searches:
 * a regular expression without anchors matches at the leftmost position where
 * it can, so each shape is searched from position 0 upwards, and the shapes
 * are tried in a fixed order until one matches.
 */
module YouTubeUrl {
  import opened Wrappers
  import opened Text

  /** A recognised URL shape. */
  datatype Shape =
    | WatchShape                 // youtube.com/watch?v=ID or youtube.com/watch?...&v=ID
    | PathShape(prefix: string)  // youtu.be/ID, youtube.com/embed/ID, /v/ID, /shorts/ID

  /** The shapes in the order the parser tries them. */
  const Shapes: seq<Shape> := [
    WatchShape,
    PathShape("youtu.be/"),
    PathShape("youtube.com/embed/"),
    PathShape("youtube.com/v/"),
    PathShape("youtube.com/shorts/")
  ]

  const WatchQuery := "youtube.com/watch?"
  const WatchDirect := "youtube.com/watch?v="
  const LaterV := "&v="

  /** The classification: a direct media URL, or a YouTube video with its identifier. */
  datatype Source = NotYouTube | YouTube(id: string)

  /** Characters an identifier may hold: `[^&\s]` after a watch URL, `[^?\s]` after a path. */
  predicate IdChar(shape: Shape, c: char) {
    !IsSpace(c) && (if shape.WatchShape? then c != '&' else c != '?')
  }

  predicate HasAt(s: string, p: nat, lit: string) {
    p + |lit| <= |s| && s[p..p + |lit|] == lit
  }

  /** `lit` occurs at `p` and is followed by at least one identifier character. */
  predicate LitThenId(shape: Shape, s: string, p: nat, lit: string) {
    HasAt(s, p, lit) && p + |lit| < |s| && IdChar(shape, s[p + |lit|])
  }

  /** The second watch alternative `youtube.com/watch?.+&v=ID` at `p`, with its `&v=` at `k`. */
  predicate LaterVAt(s: string, p: nat, k: nat) {
    && HasAt(s, p, WatchQuery)
    && p + |WatchQuery| < k
    && LitThenId(WatchShape, s, k, LaterV)
    && forall j :: p + |WatchQuery| <= j < k ==> !IsLineTerminator(s[j])
  }

  /** The regular expression of `shape` matches at position `p` of `s`. */
  ghost predicate MatchesAt(shape: Shape, s: string, p: nat)
    ensures MatchesAt(shape, s, p) ==> p < |s|
  {
    match shape
    case WatchShape => LitThenId(shape, s, p, WatchDirect) || exists k :: LaterVAt(s, p, k)
    case PathShape(prefix) => LitThenId(shape, s, p, prefix)
  }

  /** The first line terminator at or after `from` (where `.` stops), or the end. */
  function LineEnd(s: string, from: nat): (e: nat)
    requires from <= |s|
    ensures from <= e <= |s|
    ensures forall j :: from <= j < e ==> !IsLineTerminator(s[j])
    ensures e < |s| ==> IsLineTerminator(s[e])
    decreases |s| - from
  {
    if from == |s| || IsLineTerminator(s[from]) then from else LineEnd(s, from + 1)
  }

  /**
   * The greatest `k` in [lo, hi] where `&v=` and an identifier character
   * start: the greedy `.+` gives back characters from the right until
   * `&v=` can follow.
   */
  function LastLaterV(s: string, lo: nat, hi: int): (r: Option<nat>)
    ensures r.Some? ==> lo <= r.value <= hi && LitThenId(WatchShape, s, r.value, LaterV)
    ensures r.Some? ==> forall k :: r.value < k <= hi ==> !LitThenId(WatchShape, s, k, LaterV)
    ensures r.None? ==> forall k :: lo <= k <= hi ==> !LitThenId(WatchShape, s, k, LaterV)
    decreases hi - lo + 1
  {
    if hi < lo then None
    else if LitThenId(WatchShape, s, hi, LaterV) then Some(hi)
    else LastLaterV(s, lo, hi - 1)
  }

  /** Where the second watch alternative places `&v=` when it matches at `p`. */
  function LaterVFrom(s: string, p: nat): (r: Option<nat>)
    requires HasAt(s, p, WatchQuery)
    ensures r.Some? ==> LaterVAt(s, p, r.value)
    ensures r.Some? ==> forall k :: r.value < k ==> !LaterVAt(s, p, k)
    ensures r.None? ==> forall k :: !LaterVAt(s, p, k)
  {
    var q := p + |WatchQuery|;
    var e := LineEnd(s, q);
    var r := LastLaterV(s, q + 1, e);
    assert forall k: nat :: LaterVAt(s, p, k) ==> k <= e;
    r
  }

  /** The executable form of `MatchesAt`. */
  predicate MatchAt(shape: Shape, s: string, p: nat)
    ensures MatchAt(shape, s, p) ==> HasAt(s, p, Lead(shape))
  {
    match shape
    case WatchShape =>
      assert LitThenId(shape, s, p, WatchDirect) ==>
        s[p..p + |WatchQuery|] == s[p..p + |WatchDirect|][..|WatchQuery|];
      LitThenId(shape, s, p, WatchDirect) || (HasAt(s, p, WatchQuery) && LaterVFrom(s, p).Some?)
    case PathShape(prefix) => LitThenId(shape, s, p, prefix)
  }

  lemma MatchAtIff(shape: Shape, s: string, p: nat)
    ensures MatchAt(shape, s, p) <==> MatchesAt(shape, s, p)
    ensures MatchesAt(shape, s, p) ==> p < |s|
  {
    if shape.WatchShape? && !LitThenId(shape, s, p, WatchDirect) {
      if MatchesAt(shape, s, p) {
        var k :| LaterVAt(s, p, k);
        assert HasAt(s, p, WatchQuery);
      }
      if MatchAt(shape, s, p) {
        assert LaterVAt(s, p, LaterVFrom(s, p).value);
      }
    }
  }

  /** The leftmost position at or after `from` where `shape` matches. */
  function FirstMatch(shape: Shape, s: string, from: nat): (r: Option<nat>)
    ensures r.Some? ==> from <= r.value && MatchesAt(shape, s, r.value)
    ensures r.Some? ==> forall p :: from <= p < r.value ==> !MatchesAt(shape, s, p)
    ensures r.None? ==> forall p :: from <= p ==> !MatchesAt(shape, s, p)
    decreases |s| - from
  {
    if |s| <= from then
      assert forall p :: from <= p ==> !MatchesAt(shape, s, p) by {
        forall p | from <= p ensures !MatchesAt(shape, s, p) {
          MatchAtIff(shape, s, p);
        }
      }
      None
    else if MatchAt(shape, s, from) then
      assert MatchesAt(shape, s, from) by { MatchAtIff(shape, s, from); }
      Some(from)
    else
      assert !MatchesAt(shape, s, from) by { MatchAtIff(shape, s, from); }
      FirstMatch(shape, s, from + 1)
  }

  /** The longest run of identifier characters that starts `s` (the greedy `+`). */
  function IdRun(shape: Shape, s: string): (r: string)
    ensures |r| <= |s| && r == s[..|r|]
    ensures forall i :: 0 <= i < |r| ==> IdChar(shape, r[i])
    ensures |r| < |s| ==> !IdChar(shape, s[|r|])
  {
    if |s| > 0 && IdChar(shape, s[0]) then [s[0]] + IdRun(shape, s[1..]) else ""
  }

  /** The captured identifier of a match of `shape` at `p`. */
  function CaptureAt(shape: Shape, s: string, p: nat): (id: string)
    requires MatchesAt(shape, s, p)
    ensures |id| > 0
    ensures forall i :: 0 <= i < |id| ==> IdChar(shape, id[i])
  {
    assert MatchAt(shape, s, p) by { MatchAtIff(shape, s, p); }
    match shape
    case WatchShape =>
      if LitThenId(shape, s, p, WatchDirect) then IdRun(shape, s[p + |WatchDirect|..])
      else IdRun(shape, s[LaterVFrom(s, p).value + |LaterV|..])
    case PathShape(prefix) => IdRun(shape, s[p + |prefix|..])
  }

  /** The identifier of the leftmost match of `shape`, if it matches at all. */
  function MatchShape(shape: Shape, s: string): (r: Option<string>)
    ensures r.None? <==> forall p :: !MatchesAt(shape, s, p)
  {
    match FirstMatch(shape, s, 0)
    case None => None
    case Some(p) => Some(CaptureAt(shape, s, p))
  }

  /** Tries `shapes` in order; the first that matches decides. */
  function TryShapes(shapes: seq<Shape>, s: string): (r: Source)
    ensures r.YouTube? ==> |r.id| > 0 && forall i :: 0 <= i < |r.id| ==> !IsSpace(r.id[i])
  {
    if |shapes| == 0 then NotYouTube
    else
      match MatchShape(shapes[0], s)
      case Some(id) => YouTube(id)
      case None => TryShapes(shapes[1..], s)
  }

  /** `parseYouTubeUrl`: the empty string is never YouTube; otherwise the first matching shape wins. */
  function ParseYouTubeUrl(url: string): (r: Source)
    ensures url == "" ==> r == NotYouTube
    ensures r.YouTube? ==> |r.id| > 0 && forall i :: 0 <= i < |r.id| ==> !IsSpace(r.id[i])
  {
    if url == "" then NotYouTube else TryShapes(Shapes, url)
  }

  /** A URL is YouTube exactly when one of the five shapes matches somewhere in it. */
  lemma {:induction false} ParseIsYouTubeIff(url: string)
    ensures ParseYouTubeUrl(url).YouTube? <==>
      exists i, p :: 0 <= i < |Shapes| && MatchesAt(Shapes[i], url, p)
  {
    if url == "" {
      forall i, p | 0 <= i < |Shapes| ensures !MatchesAt(Shapes[i], url, p) {
        MatchAtIff(Shapes[i], url, p);
      }
    } else {
      TryShapesIff(Shapes, url);
    }
  }

  lemma {:induction false} TryShapesIff(shapes: seq<Shape>, s: string)
    ensures TryShapes(shapes, s).YouTube? <==>
      exists i, p :: 0 <= i < |shapes| && MatchesAt(shapes[i], s, p)
    decreases |shapes|
  {
    if |shapes| > 0 {
      TryShapesIff(shapes[1..], s);
      if MatchShape(shapes[0], s).None? {
        if exists i, p :: 0 <= i < |shapes| && MatchesAt(shapes[i], s, p) {
          var i, p :| 0 <= i < |shapes| && MatchesAt(shapes[i], s, p);
          assert i > 0;
          assert MatchesAt(shapes[1..][i - 1], s, p);
        }
        if exists i, p :: 0 <= i < |shapes[1..]| && MatchesAt(shapes[1..][i], s, p) {
          var i, p :| 0 <= i < |shapes[1..]| && MatchesAt(shapes[1..][i], s, p);
          assert MatchesAt(shapes[i + 1], s, p);
        }
      } else {
        var p := FirstMatch(shapes[0], s, 0).value;
        assert MatchesAt(shapes[0], s, p);
      }
    }
  }

  /**
   * First match wins: when shape `i` matches leftmost at `p` and no earlier
   * shape matches anywhere, the identifier is the one shape `i` captures at `p`.
   */
  lemma {:induction false} FirstShapeWins(url: string, i: nat, p: nat)
    requires i < |Shapes|
    requires MatchesAt(Shapes[i], url, p)
    requires forall q: nat :: q < p ==> !MatchesAt(Shapes[i], url, q)
    requires forall j, q :: 0 <= j < i ==> !MatchesAt(Shapes[j], url, q)
    ensures ParseYouTubeUrl(url) == YouTube(CaptureAt(Shapes[i], url, p))
  {
    MatchAtIff(Shapes[i], url, p);
    TryShapesFirst(Shapes, url, i, p);
  }

  lemma {:induction false} TryShapesFirst(shapes: seq<Shape>, s: string, i: nat, p: nat)
    requires i < |shapes|
    requires MatchesAt(shapes[i], s, p)
    requires forall q: nat :: q < p ==> !MatchesAt(shapes[i], s, q)
    requires forall j, q :: 0 <= j < i ==> !MatchesAt(shapes[j], s, q)
    ensures TryShapes(shapes, s) == YouTube(CaptureAt(shapes[i], s, p))
    decreases i
  {
    if i > 0 {
      assert forall q :: !MatchesAt(shapes[0], s, q);
      assert shapes[1..][i - 1] == shapes[i];
      TryShapesFirst(shapes[1..], s, i - 1, p);
    }
  }

  /** The empty-string guard agrees with the search: no shape matches in "". */
  lemma EmptyNeverMatches(shape: Shape, p: nat)
    ensures !MatchesAt(shape, "", p)
  {
    MatchAtIff(shape, "", p);
  }

  /** The literal every match of `shape` starts with. */
  function Lead(shape: Shape): string {
    match shape
    case WatchShape => WatchQuery
    case PathShape(prefix) => prefix
  }

  lemma MatchNeedsLead(shape: Shape, s: string, q: nat)
    requires MatchesAt(shape, s, q)
    ensures HasAt(s, q, Lead(shape))
  {
    if shape.WatchShape? && LitThenId(shape, s, q, WatchDirect) {
      assert s[q..q + |WatchQuery|] == s[q..q + |WatchDirect|][..|WatchQuery|];
    }
  }

  lemma CharOfLit(s: string, q: nat, lit: string, i: nat)
    requires HasAt(s, q, lit) && i < |lit|
    ensures lit[i] in s && s[q + i] == lit[i]
  {
    assert s[q + i] == s[q..q + |lit|][i];
  }

  /** A match of `shape` starting before `p` puts its lead character into `s[..p]`. */
  lemma LeadInPrefix(shape: Shape, s: string, p: nat, q: nat)
    requires p <= |s| && |Lead(shape)| > 0 && q < p
    requires MatchesAt(shape, s, q)
    ensures Lead(shape)[0] in s[..p]
  {
    MatchNeedsLead(shape, s, q);
    CharOfLit(s, q, Lead(shape), 0);
    assert s[..p][q] == s[q];
  }

  /** No match of `shape` starts before the first occurrence of its lead character. */
  lemma NoLeadBefore(shape: Shape, s: string, p: nat)
    requires p <= |s| && |Lead(shape)| > 0
    requires Lead(shape)[0] !in s[..p]
    ensures forall q: nat :: q < p ==> !MatchesAt(shape, s, q)
  {
    forall q: nat | q < p ensures !MatchesAt(shape, s, q) {
      if MatchesAt(shape, s, q) {
        LeadInPrefix(shape, s, p, q);
      }
    }
  }

  /** Every watch match ends its `youtube.com/watch?` with a `?` seventeen places on. */
  lemma WatchQuestion(s: string, q: nat)
    requires MatchesAt(WatchShape, s, q)
    ensures q + 17 < |s| && s[q + 17] == '?'
  {
    MatchNeedsLead(WatchShape, s, q);
    CharOfLit(s, q, WatchQuery, 17);
  }

  /**
   * No watch match when `s[..lo]` has no `y` (where a match starts) and
   * nothing from `lo` on is a `?` (which every match contains after its start).
   */
  lemma NoWatchBetween(s: string, lo: nat)
    requires lo <= |s| && 'y' !in s[..lo]
    requires forall j :: lo <= j < |s| ==> s[j] != '?'
    ensures forall q: nat :: !MatchesAt(WatchShape, s, q)
  {
    forall q: nat ensures !MatchesAt(WatchShape, s, q) {
      if MatchesAt(WatchShape, s, q) {
        if q < lo {
          LeadInPrefix(WatchShape, s, lo, q);
        } else {
          WatchQuestion(s, q);
        }
      }
    }
  }

  /**
   * A short link yields the identifier that follows it when the prefix has
   * no `y`: an earlier link in the prefix would otherwise win.
   */
  lemma ShortLinkParse(a: string, c: string)
    requires 'y' !in a
    requires |c| > 0 && forall k :: 0 <= k < |c| ==> IdChar(Shapes[1], c[k])
    ensures ParseYouTubeUrl(a + "youtu.be/" + c) == YouTube(c)
  {
    var b := "youtu.be/";
    var s := a + b + c;
    assert s[..|a|] == a;
    forall j | |a| <= j < |s| ensures s[j] != '?' {
      if j >= |a| + |b| {
        assert s[j] == c[j - |a| - |b|];
      }
    }
    NoWatchBetween(s, |a|);
    NoLeadBefore(Shapes[1], s, |a|);
    assert s[|a|..|a| + |b|] == b;
    assert s[|a| + |b|..] == c;
    assert MatchesAt(Shapes[1], s, |a|);
    FirstShapeWins(s, 1, |a|);
  }

  /**
   * A watch URL yields the identifier run after `v=` when no watch match
   * starts earlier: the leftmost match wins.
   */
  lemma WatchParse(a: string, c: string)
    requires forall q: nat :: q < |a| ==> !MatchesAt(WatchShape, a + WatchDirect + c, q)
    requires |c| > 0 && IdChar(WatchShape, c[0])
    ensures ParseYouTubeUrl(a + WatchDirect + c) == YouTube(IdRun(WatchShape, c))
  {
    var b := WatchDirect;
    var s := a + b + c;
    assert s[|a|..|a| + |b|] == b;
    assert s[|a| + |b|..] == c;
    assert LitThenId(WatchShape, s, |a|, WatchDirect);
    assert Shapes[0] == WatchShape;
    FirstShapeWins(s, 0, |a|);
  }

  /** `https://youtu.be/abc123` is YouTube video `abc123`. */
  lemma ShortLinkExample()
    ensures ParseYouTubeUrl("https://youtu.be/abc123") == YouTube("abc123")
  {
    assert "https://youtu.be/abc123" == "https://" + "youtu.be/" + "abc123";
    ShortLinkParse("https://", "abc123");
  }

  /** A watch identifier stops at the first `&`. */
  lemma WatchExample()
    ensures ParseYouTubeUrl("https://www.youtube.com/watch?v=dQw4&t=42") == YouTube("dQw4")
  {
    var a, c := "https://www.", "dQw4&t=42";
    var s := a + WatchDirect + c;
    assert "https://www.youtube.com/watch?v=dQw4&t=42" == s;
    assert s[..|a|] == a;
    NoLeadBefore(WatchShape, s, |a|);
    WatchParse(a, c);
    WatchIdExample();
  }

  lemma WatchIdExample()
    ensures IdRun(WatchShape, "dQw4&t=42") == "dQw4"
  {
    assert IdRun(WatchShape, "&t=42") == "";
  }

  /** A plain media path is not YouTube. */
  lemma MediaFileExample()
    ensures ParseYouTubeUrl("clip.mp4") == NotYouTube
  {
    var s := "clip.mp4";
    forall i, p: nat | 0 <= i < |Shapes| ensures !MatchesAt(Shapes[i], s, p) {
      assert s[..|s|] == s;
      NoLeadBefore(Shapes[i], s, |s|);
      MatchAtIff(Shapes[i], s, p);
    }
    ParseIsYouTubeIff(s);
  }
}
